=== FILE: README.md ===
# AI media metadata tools, modelled in Dafny

This project models the decision and naming logic of the AI media metadata tools. It covers
three parts:

- `find_extract_IGMD.py` walks a scan directory and copies every image that carries image-generation
  metadata (IGMD) into a destination directory. It extracts such images from CBZ/CBR archives
  into a per-archive sub-directory. Optionally, it logs exiftool's report on every file that
  carries no IGMD.
- `scan_for_metadata/diffusion_scanner.py` detects the file type from its magic bytes, reads
  PNG text chunks and the JPEG UserComment into a `FileParameters` record, and decides whether the
  record counts as generation metadata. It also lists candidate files by extension.
- `scan_for_metadata/test_cbz_performance.py` is a benchmark. It sorts a CBZ's entries by size,
  runs an exiftool keyword check on each entry, counts the results and rewrites its log sorted by
  file name.

Everything is pure functions over immutable data:

- **Files.** The file system is a value `FS(dirs, files, denied)`. It holds the directories that
  exist, the bytes of every file, and the paths the process may not write. Each read, write,
  append, removal and `makedirs` either gives the next state or the `OSError` it raises.
- **Outside code.** The image decoders (PIL's PNG info, its EXIF table, UTF-8 decoding), the
  archive codec (`zipfile`/`rarfile`) and exiftool are given as function values. So is the
  listing `os.walk` produces.
- **Concurrency.** The tool gathers its tasks concurrently. Here they run one after another, in
  list order, and the first exception that escapes ends the run.

Modules, one per file:

| module | file | role |
|---|---|---|
| `Results` | results.dfy | `Option` and `Result` |
| `Text` | text.dfy | ASCII lower-casing, prefixes and suffixes, split/join, decimal digits, strip, lexicographic order |
| `Seqs` | seqs.dfy | filtering and flattening of sequences |
| `Sorting` | sorting.dfy | a stable sort by key, with ordering, permutation and stability lemmas |
| `Paths` | paths.dfy | POSIX `join`, `basename`, `splitext`, `commonpath` and path containment |
| `FileSystem` | filesystem.dfy | the abstract file system |
| `Metadata` | metadata.dfy | `ImageGenerationMetadata` |
| `FileScan` | filescan.dfy | `MetadataScanner` |
| `Archive` | archive.dfy | `process_archive` and `process_image_in_archive` |
| `Orchestrator` | orchestrator.dfy | `process_image`, `log_non_igmd_files`, dispatch and `process_files` |
| `Cli` | cli.dfy | argument parsing, `validate_directories` and the script's outcome |
| `Bench` | bench.dfy | the helpers of the CBZ benchmark |

## Model

| member | source | states |
|---|---|---|
| `FileSystem.ReadFile` | find_extract_IGMD.py:54-55 | Reading succeeds exactly for an existing file, and gives its bytes. |
| `FileSystem.WriteFile` | find_extract_IGMD.py:105-106 | Opening for writing succeeds exactly when the name does not end in `/`, the directory it names before its last `/` exists, and the path is neither a directory nor a denied path. The file then holds the new bytes and nothing else changes. |
| `FileSystem.ExistsPlainName` | find_extract_IGMD.py:205 | A path not ending in `/` exists exactly when it is a directory or a file. |
| `FileSystem.ExistsWithSlash` | find_extract_IGMD.py:205 | An existing directory `/data` also exists when spelled `/data/`, as `os.path.exists` reports. |
| `FileSystem.WritableInDir` | find_extract_IGMD.py:105-106 | A slash-free name joined to an existing directory can be opened for writing exactly when the joined path is neither a directory nor a denied path. |
| `FileSystem.MissingDirNotWritable` | find_extract_IGMD.py:105-106 | A name inside a sub-directory that exists under neither spelling, `d` or `d/`, cannot be opened for writing. |
| `FileSystem.AppendFile` | find_extract_IGMD.py:175-177 | Appending fails exactly where writing fails, including in a missing directory. Otherwise the file is its prior bytes (none if absent) followed by the new bytes, and it is the only path added. |
| `FileSystem.RemoveFile` | find_extract_IGMD.py:117-118 | Removal succeeds exactly for an existing file that is not a directory, and removes only that path. |
| `FileSystem.MakeDirs` | find_extract_IGMD.py:75 | `makedirs(exist_ok=True)` succeeds exactly when the path is not empty and none of the directories it has to create (the path and its ancestors that do not exist yet) is an existing file or a denied path. It then adds the path and all its ancestors, and leaves files and denied paths alone. |
| `FileSystem.MakeDirsIdempotent` | find_extract_IGMD.py:75 | A second `makedirs` of the same path changes nothing. |
| `Paths.Join` | find_extract_IGMD.py:28 | `os.path.join(d, n)` ends with `n`. |
| `Paths.JoinUnder` | find_extract_IGMD.py:73 | Joining a relative name keeps the directory as a prefix and puts the result inside the directory's tree, that is, after `dir/`. |
| `Paths.BasenameOfJoin` | find_extract_IGMD.py:109 | The basename of `join(d, n)` is `n` for a name without a slash. |
| `Paths.JoinInjective` | find_extract_IGMD.py:102-110 | Two slash-free names joined to the same directory give the same path only if they are equal. |
| `Paths.Splitext` | find_extract_IGMD.py:51 | `splitext` splits the path into stem and extension. The extension is empty or one dot followed by no dot or slash. |
| `Paths.SplitextOfDotted` | find_extract_IGMD.py:51 | A path `s.e` splits into `s` and `.e` when `e` holds no dot or slash and the last component of `s` has a character other than a dot. |
| `Paths.SplitextWithoutDot` | find_extract_IGMD.py:51 | A path without a dot has an empty extension and keeps its whole text as the stem. |
| `Paths.CommonPathSingle` | find_extract_IGMD.py:214 | `commonpath([p])` is the normal form of `p`. |
| `Paths.NormalizeInjective` | find_extract_IGMD.py:214 | Paths with equal normal forms agree on absoluteness and on their components. |
| `Paths.WithinCommonPath` | find_extract_IGMD.py:220 | `commonpath([child, parent])` raises exactly when one path is absolute and the other relative. It equals the parent's normal form exactly when the child lies at or below the parent. |
| `Text.Split` | scan_for_metadata/diffusion_scanner.py:189 | `str.split(sep)` gives at least one piece. No piece holds the separator, and joining the pieces gives the string back. |
| `Text.SplitJoin` | scan_for_metadata/diffusion_scanner.py:189 | Splitting a joined list of separator-free pieces gives the pieces back. |
| `Text.LastPiece` | find_extract_IGMD.py:135 | `split(c)[-1]` holds no `c`. It is the whole string, or the string ends with `c` and then this piece. |
| `Text.LastPieceAfterSeparator` | find_extract_IGMD.py:135 | The last piece of a string ending in a separator and then a separator-free `n` is `n`. |
| `Text.TrimStart` | scan_for_metadata/test_cbz_performance.py:91 | Stripping at the start removes exactly the leading whitespace. |
| `Text.TrimEnd` | scan_for_metadata/test_cbz_performance.py:91 | Stripping at the end removes exactly the trailing whitespace. |
| `Text.ParseNatToString` | scan_for_metadata/test_cbz_performance.py:95 | Decimal printing of a count reads back as the same count. |
| `Sorting.SortBy` | scan_for_metadata/test_cbz_performance.py:84 | `sorted` returns a permutation of its input. |
| `Sorting.SortBySorted` | scan_for_metadata/test_cbz_performance.py:84 | Under a total order on keys the result is ordered by key. |
| `Sorting.SortByStable` | scan_for_metadata/test_cbz_performance.py:84 | Entries with equal keys keep their relative order, as Python's stable `sorted` does. |
| `Metadata.FileTypeOf` | scan_for_metadata/diffusion_scanner.py:87-97 | PNG iff the file starts with `89 50 4E 47`. JPEG iff it starts with `FF D8 FF`. WebP iff bytes 0-3 are "RIFF" and bytes 8-11 are "WEBP". Files shorter than three bytes are Other. |
| `Metadata.HeaderTests` | scan_for_metadata/diffusion_scanner.py:88-95 | The magic tests on the 12-byte header agree with the same tests on the whole file, and no file matches two magic numbers. |
| `Metadata.FileTypeDependsOnHeaderOnly` | scan_for_metadata/diffusion_scanner.py:88-89 | Files whose first 12 bytes agree have the same type. |
| `Metadata.PngNoKeyKeeps` | scan_for_metadata/diffusion_scanner.py:123-127 | With no key whose lower case is parameters/prompt/workflow, `parameters` keeps its value. |
| `Metadata.PngLastKeyAt` | scan_for_metadata/diffusion_scanner.py:123-127 | The value at the last key whose lower case is parameters/prompt/workflow is the result. |
| `Metadata.PngLastKeyWins` | scan_for_metadata/diffusion_scanner.py:123-127 | `parameters` is the value of the last key whose lower case is parameters/prompt/workflow. With no such key it keeps its value. |
| `Metadata.JpegPromptFromUserComment` | scan_for_metadata/diffusion_scanner.py:142-147 | `prompt` is set only from the decoding of a bytes-valued UserComment, and stays unset when there is none. |
| `Metadata.JpegLastCommentWins` | scan_for_metadata/diffusion_scanner.py:142-147 | When the EXIF table has a last UserComment entry, it holds bytes, and every UserComment before it holds bytes, `prompt` is the UTF-8 decoding of that last entry. |
| `Metadata.JpegStopsAtNonBytes` | scan_for_metadata/diffusion_scanner.py:142-150 | A UserComment that is not bytes makes `decode` raise. The exception ends the loop, so `prompt` is what the entries before it gave. |
| `Metadata.Parse` | scan_for_metadata/diffusion_scanner.py:100-114 | Every field but `prompt`, `parameters` and `file_size` stays blank, and the size is the byte count. Only a PNG sets `parameters`, and only a JPEG sets `prompt`. |
| `Metadata.ReadMetadata` | scan_for_metadata/diffusion_scanner.py:100-114 | `read_metadata` raises exactly for a path that is not a readable file. Otherwise it returns the parse of the file's bytes. |
| `Metadata.HasMetadataIgnoresOtherFields` | scan_for_metadata/diffusion_scanner.py:161-172 | Only the ten listed fields decide the verdict. |
| `Metadata.ContainsMetadataReadsContent` | scan_for_metadata/diffusion_scanner.py:155-183 | The verdict is the classifier's verdict on the file's bytes. It is `False` when reading raises. |
| `Metadata.ClassifyCharacterization` | scan_for_metadata/diffusion_scanner.py:100-183 | A file has metadata iff it is a PNG whose selected text is non-empty, or a JPEG whose decoded UserComment is non-empty. WebP and Other never do. |
| `FileScan.Matching` | scan_for_metadata/diffusion_scanner.py:194-196 | The comprehension yields exactly `join(root, f)` for each listed `f` that ends with the extension. |
| `FileScan.WalkMatches` | scan_for_metadata/diffusion_scanner.py:190-194 | The walk yields exactly the matching files under roots that start with no excluded prefix. |
| `FileScan.GetFilesMembership` | scan_for_metadata/diffusion_scanner.py:187-201 | A path is returned iff it is not ignored and comes from some comma-separated extension. In recursive mode it must also come from a root that is not excluded. |
| `FileScan.GetFilesEndWithExtension` | scan_for_metadata/diffusion_scanner.py:189-196 | Every returned path ends, case-sensitively, with one of the extensions. |
| `FileScan.GetFilesGroupedByExtension` | scan_for_metadata/diffusion_scanner.py:188-196 | The result for "a,rest" is the result for "a" followed by the result for "rest". |
| `FileScan.GetFileSelected` | scan_for_metadata/diffusion_scanner.py:204-209 | `get_file` returns a selected path. It returns `None` only when no path is selected. |
| `FileScan.Scan` | scan_for_metadata/diffusion_scanner.py:212-220 | There is one record per readable input file, in input order, and each is that file's parse. |
| `Archive.ArchiveBaseName` | find_extract_IGMD.py:51 | The archive's base name holds no slash. |
| `Archive.ArchiveBaseNameOfDotted` | find_extract_IGMD.py:51 | The base name of `dir/n.e` is `n` when `e` holds no dot and `n` is not made of dots alone, e.g. `book` for `/comics/book.cbz`. |
| `Archive.ArchiveBaseNameWithoutDot` | find_extract_IGMD.py:51 | The base name of `dir/n` is `n` itself when `n` has no dot. |
| `Archive.CandidateInjective` | find_extract_IGMD.py:68-71 | Different suffixes give different candidate names. |
| `Archive.FirstFree` | find_extract_IGMD.py:66-71 | The probe stops at the smallest suffix from its start whose path does not exist. It terminates for every finite file system. |
| `Archive.SubDir` | find_extract_IGMD.py:64-73 | A name containing "merged"/"chapter" (any case) gets `dest/name-N`, with N the smallest free suffix from 1. Any other name gets `dest/name`, even when it exists. |
| `Archive.SubDirUnderDest` | find_extract_IGMD.py:64-73 | The chosen directory lies inside the destination's tree: it starts with `dest/`, so a sibling such as `/out2` of `/out` is never chosen. |
| `Archive.ImageEntriesKept` | find_extract_IGMD.py:78 | The kept entries are exactly the names ending in .jpg/.jpeg/.png/.webp, in any case. |
| `Archive.OutputName` | find_extract_IGMD.py:109 | The output name `<dir>-<entry>` is a single path component. |
| `Archive.OutputIsNotTemp` | find_extract_IGMD.py:102-110 | The output path is never the temporary path, so the cleanup never removes an output. |
| `Archive.TryBodyCopies` | find_extract_IGMD.py:104-115 | On two distinct paths, the `try` reports a match exactly when the temporary file can be written, the classifier accepts the bytes and the output can be written. Apart from the temporary file it adds the output when it matched and nothing else, and it changes no directory. |
| `Archive.TryBodyOutcome` | find_extract_IGMD.py:104-115 | The `try` reports a match exactly when the classifier accepts the entry and both the temporary file and the output can be written. Its only lasting change is the output. |
| `Archive.EntryTask` | find_extract_IGMD.py:97-121 | A missing entry escapes with no progress. Otherwise progress advances by one and the temporary file is gone. The verdict is the match condition, and only the output is added. The task fails only when a directory sits at the temporary path. |
| `Archive.RunEntries` | find_extract_IGMD.py:81-85 | There is one verdict per kept entry, in order, and the progress counts every entry. Directories are untouched. The run fails iff an entry is unreadable or the temporary path is a directory. |
| `Archive.RunEntriesOriginAt` | find_extract_IGMD.py:97-121 | Any one file after the entry tasks was there before with the same bytes, or is the output of a matching entry holding that entry's bytes. |
| `Archive.RunEntriesKeeps` | find_extract_IGMD.py:97-121 | The entry tasks remove no file but the temporary one. |
| `Archive.RunEntriesOutputs` | find_extract_IGMD.py:97-121 | After the entry tasks, the output of every matching entry is present. |
| `Archive.RunEntriesFiles` | find_extract_IGMD.py:97-121 | Entry tasks add only the outputs of matching entries, with the entry's bytes. They remove only the temporary file, and every matching output is present afterwards. |
| `Archive.ExtractEntries` | find_extract_IGMD.py:78-95 | In an existing directory, extraction fails iff an entry is unreadable or the temporary path is a directory. Otherwise directories and denied paths are unchanged, the progress counts the kept entries, and the verdict is `any` over the per-entry matches. |
| `Archive.RunInto` | find_extract_IGMD.py:75-95 | The run fails iff `makedirs` raises (and then with its error), an entry is unreadable, or the temporary path is a directory. Otherwise the directory exists afterwards and the progress counts the kept entries. The verdict is `any` over the per-entry matches on the file system `makedirs` left. |
| `Archive.MatchesInNewDirectory` | find_extract_IGMD.py:75-115 | In the directory `makedirs` just made, an entry matches exactly when it is readable, the classifier accepts its bytes, and neither the temporary path nor the output is an existing directory or a denied path. |
| `Archive.ExtractInto` | find_extract_IGMD.py:64-95 | The run goes into the directory the naming rule picks. It fails iff `makedirs` of that directory raises (with its error), an image entry is unreadable, or the temporary path there is a directory. Otherwise the directory exists afterwards, a suffixed directory did not exist before, the progress counts the image entries, and the verdict is `any` over their matches. |
| `Archive.ArchiveKindOf` | find_extract_IGMD.py:57-62 | Zip iff the lowered path ends in `.cbz`. Rar iff it ends in `.cbr`. |
| `Archive.ProcessArchive` | find_extract_IGMD.py:44-95 | An unreadable file, an unsupported extension (`ValueError`) and a container that fails to open each escape before any directory is made. A readable `.cbz`/`.cbr` whose container opens is extracted, and the result is exactly that extraction's. |
| `Archive.EmptyArchiveGetsDirectory` | find_extract_IGMD.py:75-95 | An archive without image entries succeeds exactly when `makedirs` does. It leaves just the new directories behind, and its verdict is `False`. |
| `Archive.RunIntoWritesUnder` | find_extract_IGMD.py:75-121 | A run into a directory inside `dest`'s tree keeps every file outside that tree byte-for-byte, including a sibling such as `/out2/x` of `/out`. It removes no directory. |
| `Archive.ProcessArchiveWritesUnder` | find_extract_IGMD.py:44-121 | A successful archive run changes no file outside the destination's tree and removes no directory. |
| `Orchestrator.CopyThroughHandle` | find_extract_IGMD.py:30-33 | The copy succeeds exactly when the output can be opened for writing and the source then exists. The output ends up with the source's bytes, or empty when it is the source. Nothing else changes. |
| `Orchestrator.ProcessImage` | find_extract_IGMD.py:20-36 | An unreadable file raises. The image is copied to `dest/basename(path)`, and `True` returned, exactly when the classifier accepts its bytes. Nothing else changes. |
| `Orchestrator.CopyPathUnder` | find_extract_IGMD.py:27-28 | Loose images are copied into the destination's tree. |
| `Orchestrator.ProcessImageWritesUnder` | find_extract_IGMD.py:20-36 | An image task changes no directory and no file outside the destination's tree. |
| `Orchestrator.ImageCopyIsExact` | find_extract_IGMD.py:30-33 | A copy to another path is byte-for-byte. |
| `Orchestrator.ImageSelfCopyEmpties` | find_extract_IGMD.py:30-33 | Copying an accepted image onto itself leaves it empty, because the output is truncated before the input is read. |
| `Orchestrator.LogNonMetadata` | find_extract_IGMD.py:148-180 | A file without metadata gets exiftool's output and a newline appended to the log when exiftool succeeds. Every other case leaves the files alone, and the append fails only where writing fails. |
| `Orchestrator.LogInMissingDirectoryRaises` | find_extract_IGMD.py:175-177 | A log file in a directory that does not exist cannot be opened, so logging a file without metadata raises. |
| `Orchestrator.Extension` | find_extract_IGMD.py:135 | The dispatch extension holds no dot. |
| `Orchestrator.ExtensionOfDotted` | find_extract_IGMD.py:135 | The extension of `stem.ext` is `ext` lowered. |
| `Orchestrator.BareArchiveNameDispatch` | find_extract_IGMD.py:135-140 | A file named just `cbz` is dispatched to the archive handler. |
| `Orchestrator.BareNameHasNoArchiveSuffix` | find_extract_IGMD.py:57-62 | A path whose last component is `cbz` ends in neither `.cbz` nor `.cbr`. |
| `Orchestrator.BareArchiveNameFails` | find_extract_IGMD.py:57-62 | Such a file makes `process_archive` raise `ValueError`. |
| `Orchestrator.FileTasks` | find_extract_IGMD.py:134-143 | A file gets an image task iff its extension is an image one, and an archive task iff it is cbz/cbr. With logging on it gets exactly one log task. |
| `Orchestrator.DirTasksMembership` | find_extract_IGMD.py:133-143 | A directory's tasks are exactly the tasks of its files. |
| `Orchestrator.PlanTasksMembership` | find_extract_IGMD.py:131-143 | The gathered tasks are exactly the tasks of the walked files. |
| `Orchestrator.DirTasksLogCount` | find_extract_IGMD.py:142-143 | A directory contributes one log task per file when logging is on, and none otherwise. |
| `Orchestrator.PlanTasksLogCount` | find_extract_IGMD.py:131-143 | The plan holds one log task per walked file when logging is on, and none otherwise. |
| `Orchestrator.PlanTasksLogTargets` | find_extract_IGMD.py:142-143 | The only file a log task writes is the configured log. |
| `Orchestrator.RunTask` | find_extract_IGMD.py:137-143 | A task removes no directory and changes no file outside the destination's tree other than its own log file. |
| `Orchestrator.RunTasks` | find_extract_IGMD.py:145 | The gathered tasks together change no file outside the destination's tree other than their log files. |
| `Orchestrator.ProcessFiles` | find_extract_IGMD.py:123-146 | A completed run keeps every file outside the destination's tree, other than the log, byte-for-byte. |
| `Cli.Position` | find_extract_IGMD.py:246 | `argv.index(flag)` is the first occurrence. |
| `Cli.ValueAfter` | find_extract_IGMD.py:246-258 | The value after a flag exists iff the flag occurs before the last word. Then it is the word after the first occurrence. |
| `Cli.ParseArgs` | find_extract_IGMD.py:240-258 | Help with status 0 iff `--help` is present or there are fewer than five words. Help with status 1 iff a required value, or the value of a given log flag, is missing. Otherwise the values follow their flags. |
| `Cli.Prepare` | find_extract_IGMD.py:206-212 | A missing scan directory exits. A missing destination is created together with its missing parents, and when `makedirs` cannot create them its error escapes. The run proceeds exactly when neither happens, and nothing else changes. |
| `Cli.ValidateAsWritten` | find_extract_IGMD.py:201-223 | As written, a destination is rejected only when its normal form equals the scan directory's. The log check compares `commonpath` with the raw argument strings. |
| `Cli.AsWrittenRejectsOnlySameDirectory` | find_extract_IGMD.py:214-217 | The written destination check fires only when the two directories contain each other, that is, are the same directory. |
| `Cli.Validate` | find_extract_IGMD.py:201-223 | Corrected check: it passes iff the preparation passes, the destination is not at or below the scan directory, the scan directory is not below the destination, and a log file is at or below neither directory. It also says which rejection fires. |
| `Cli.LogWithinCommonPath` | find_extract_IGMD.py:219-223 | The log check's `commonpath` calls raise exactly on mixed absolute and relative paths. They equal a directory's normal form exactly when the log lies within it. |
| `Cli.ValidateStricter` | find_extract_IGMD.py:214-217 | The corrected check rejects every destination the written check rejects. |
| `Cli.NestedDestinationAccepted` | find_extract_IGMD.py:214 | Scan `/n` with destination `/n/m` passes the written check and is refused by the corrected one. |
| `Cli.NestedScanAccepted` | find_extract_IGMD.py:214 | Scan `/n/m` with destination `/n` passes the written check and is refused by the corrected one. |
| `Cli.PrepareExistingDestWithSlash` | find_extract_IGMD.py:205-211 | A destination `/out/` with `/out` existing is not created again, and nothing changes. |
| `Cli.TrailingSlashLogAccepted` | find_extract_IGMD.py:205-223 | With `/n` existing, scan `/n/`, destination `/o` and log `/n/m` get past lines 205-211 and pass the written check, and the corrected one refuses the log. |
| `Cli.TrailingSlashLogRuns` | find_extract_IGMD.py:205-264 | With `/n` existing, that run goes on to process files as written. |
| `Cli.PrepareScanWithSlash` | find_extract_IGMD.py:205-211 | A scan directory `/data/` gets past the existence test when `/data` exists. |
| `Cli.LogBelowUnnormalizedScan` | find_extract_IGMD.py:214-223 | A log file below a scan directory that is not written in normal form passes the written check, since line 220 compares with the raw argument. The corrected check refuses it. |
| `Cli.AcceptedAsWrittenRuns` | find_extract_IGMD.py:240-264 | A run whose arguments pass the written check does not exit; it goes on to process files. |
| `Cli.RefusedWhenCorrectedExits` | find_extract_IGMD.py:240-264 | With the corrected check, a refusal that does not raise exits with status 1 and leaves the prepared file system. |
| `Cli.Conclude` | find_extract_IGMD.py:261-264 | After validation: an uncaught `commonpath` or `makedirs` error crashes, any other rejection exits with status 1 and keeps the prepared file system, and processing runs only after a pass. |
| `Cli.RunScript` | find_extract_IGMD.py:240-264 | As written. Help and a missing exiftool exit with their codes and change nothing. The run exits exactly when `validate_directories` as written rejects the directories without raising, and an exit leaves every file as it was but keeps a destination it created. A completed run had an existing scan directory whose normal form differs from the destination's, and it kept every file outside the destination's tree, other than the log, as it was. |
| `Cli.RunScriptCorrected` | find_extract_IGMD.py:240-264 | With the corrected check: the run exits exactly when that check rejects without raising. A completed run had a destination and a scan directory outside each other and a log file outside both, and it kept every file outside the destination's tree, other than the log, as it was. |
| `Cli.NestedDestinationRuns` | find_extract_IGMD.py:214 | Scan `/n` with destination `/n/m` goes on to process files as written. With the corrected check it exits with status 1 and leaves the created destination behind. |
| `Bench.CheckMetadataIgnoresCase` | scan_for_metadata/test_cbz_performance.py:54 | The keyword test gives the same verdict on an output and its lower-cased form. |
| `Bench.CheckMetadataGrows` | scan_for_metadata/test_cbz_performance.py:45-58 | Output that contains a keyword keeps it when more output is added on either side. |
| `Bench.SortFilesBySize` | scan_for_metadata/test_cbz_performance.py:83-84 | The sorted entries are a permutation of `infolist()`. |
| `Bench.SortFilesBySizeOrdered` | scan_for_metadata/test_cbz_performance.py:83-84 | Sizes do not increase along the list, and entries of equal size keep their `infolist` order. |
| `Bench.SubmittedEntriesMembership` | scan_for_metadata/test_cbz_performance.py:146 | The pooled methods submit exactly the entries whose lowered name ends in .png/.jpg/.jpeg/.bmp/.gif. |
| `Bench.Chunks` | scan_for_metadata/test_cbz_performance.py:236-237 | A zero step raises, and a negative one gives no chunks. Otherwise the chunks concatenate to the input, each is non-empty and at most the step long, and all but the last are full. |
| `Bench.ProcessAndCheck` | scan_for_metadata/test_cbz_performance.py:61-76 | Each entry bumps exactly one counter. When the member is readable and `output_dir/filename` can be opened for writing, a keyword hit is found and a miss is not found, and the copy is removed. Any failure is a non-image and leaves the files alone. |
| `Bench.DirectoryEntryCountsNonImage` | scan_for_metadata/test_cbz_performance.py:61-76 | A directory entry such as `ch1/` cannot be opened for writing, so it counts as a non-image and writes nothing. |
| `Bench.NestedEntryCountsNonImage` | scan_for_metadata/test_cbz_performance.py:61-76 | An entry such as `ch1/001.png` whose sub-folder does not exist under `output_dir` counts as a non-image and writes nothing. |
| `Bench.RunItems` | scan_for_metadata/test_cbz_performance.py:140-191 | With in-process workers the counters grow by the number of items. With child processes the parent's counters stay as they were. |
| `Bench.RunItemsConcat` | scan_for_metadata/test_cbz_performance.py:236-245 | Running two batches one after the other is running their concatenation. |
| `Bench.RunChunks` | scan_for_metadata/test_cbz_performance.py:236-245 | Running the chunks in order is running their entries in order. |
| `Bench.ManualChunking` | scan_for_metadata/test_cbz_performance.py:225-250 | Chunking processes every entry, largest first, and its counters add up to the number of entries. A zero chunk size raises. |
| `Bench.PooledMethod` | scan_for_metadata/test_cbz_performance.py:132-222 | The thread pool's counters add up to the number of submitted entries. The process pool and the async pool leave them at zero. |
| `Bench.LogProcessingSpeeds` | scan_for_metadata/test_cbz_performance.py:101-122 | The total is found + not found + non-image. No timings give an all-zero summary, and otherwise the counters are copied. |
| `Bench.SortLog` | scan_for_metadata/test_cbz_performance.py:87-98 | A missing log is left alone. Otherwise the log becomes three header lines followed by a permutation of its lines. |
| `Bench.SortLogOrdered` | scan_for_metadata/test_cbz_performance.py:91 | The body is ordered by each line's last space-separated word, stripped. Lines with equal keys keep their order. |
| `Bench.HeaderCountsReadBack` | scan_for_metadata/test_cbz_performance.py:95 | The counters printed in the header read back as the summary's numbers. |

## Left out

- Concurrency. `asyncio.gather`, `asyncio.to_thread`, the thread and process pools, `aiomultiprocess` and the tqdm progress bars are not modelled. Tasks run one after another in list order. When one task raises, the tasks `gather` has already started keep running in the tool, but the model stops at the first exception. `gather` also interleaves the entry tasks of one archive, and they all write, test and remove the same `sub_dir/temp_image` (find_extract_IGMD.py:102-118). In the tool an entry's verdict can therefore be computed on another entry's bytes, or its temporary file removed by another entry; the model runs each entry's write, test and removal without interruption.
- Real I/O. `aiofiles`, `open`, `os.remove`, `os.path.exists` and `os.makedirs` act on the abstract file system. Paths are compared as strings: `.` and `..` components, repeated slashes inside a path and symbolic links are not resolved. `os.path.exists` and `open` accept a directory spelled with or without trailing slashes; `open` finds its directory under the text before the last `/`. `makedirs` creates every prefix that ends just before a `/`.
- `os.walk` and `os.listdir` are given as their listing, in the order they produced it.
- PIL, `zipfile` and `rarfile` are given as function values: `Decoder` and `Codec`. The archive is opened through `BytesIO`, which the script never imports. The codec stands for the open step the code evidently intends.
- The exiftool subprocess is a function value. Its standard output is taken as bytes for the log and as text for the keyword check, without modelling `decode()`.
- `check_requirements` is modelled only through whether exiftool is installed. Its module imports, and the benchmark's `pre_check` (pip install and `exiftool -ver`), are left out.
- `HashFunctions` and `ModelScanner` are hashing and library calls.
- Timing and floating point: `time.time()` and the numpy speeds in `log_processing_speeds`. They are given as parameters, and so is their two-decimal text in the log header.
- Logging output, `debug` prints, `print_help` text, verbosity (`set_verbose_output`) and `initialize_logging`.
- The thin drivers `test_diffusion_scan_directory.py` and `test_diffusion_single_file.py`, and `hello.py`.
- Python's `str.lower()` is modelled for ASCII letters only.
- `Cli.Validate`: compares normal forms of the paths as given. It does not resolve relative paths against the working directory, so a relative and an absolute spelling of the same directory are treated as different. Its two-path `commonpath` on the destination and the scan directory raises when one is absolute and the other relative. The source's line 214 uses one-path `commonpath` calls, which never raise, so this crash is one the corrected check adds; `Cli.RunScript` models the source's check and does not have it.
- `Archive.OutputName`: only states that the output name is one path component. Its exact text `<basename(sub_dir)>-<basename(name)>` is the definition itself, and `Archive.RunEntriesFiles` states where the output lands.
- `Bench.HeaderCountsReadBack`: states that the counters round-trip through their decimal text. It does not parse the header line itself.

## Findings

| source | as written | input that shows it | evidently intended | confidence | as-written member | corrected member |
|---|---|---|---|---|---|---|
| find_extract_IGMD.py:214 | `commonpath([scan_dir]) == commonpath([dest_dir])` compares the normal forms of the two directories, so it rejects only a destination equal to the scan directory | scan `/data`, destination `/data/out`: accepted, and the output tree lies inside the tree being walked | reject a destination at or below the scan directory, as the error message says, and also a scan directory below the destination (scan `/data/in`, destination `/data`) | not executed | `Cli.ValidateAsWritten` (`Cli.NestedDestinationAccepted`, `Cli.NestedScanAccepted`, `Cli.AsWrittenRejectsOnlySameDirectory`, `Cli.RunScript`, `Cli.NestedDestinationRuns`) | `Cli.Validate`, `Cli.RunScriptCorrected` |
| find_extract_IGMD.py:220 | `commonpath([log_file, scan_dir]) == scan_dir` compares a normalized path with the raw argument, so a trailing slash on the directory defeats the check | scan `/data/`, destination `/out`, log `/data/log.txt`: accepted, and the log is written inside the scanned tree | compare with the normal form of the directory | not executed | `Cli.ValidateAsWritten` (`Cli.LogBelowUnnormalizedScan`, `Cli.TrailingSlashLogAccepted`, `Cli.TrailingSlashLogRuns`) | `Cli.Validate`, `Cli.RunScriptCorrected` |

=== FILE: archive.dfy ===
/** `process_archive` and `process_image_in_archive` of find_extract_IGMD.py: destination naming
    with the collision-suffix probe, the image-entry filter, the per-entry task (temporary file,
    classification, conditional copy, cleanup in `finally`) and the archive verdict. The entry
    tasks, gathered concurrently in the tool, run here one after another in list order. */
module Archive {
  import opened Results
  import opened Text
  import opened Seqs
  import opened Paths
  import opened FileSystem
  import opened Metadata

  datatype ArchiveKind = Zip | Rar

  /** An opened container: `namelist()` in order, and the bytes `read(name)` returns; reading a
      name that is not a key of `members` raises. */
  datatype Container = Container(names: seq<string>, members: map<string, Bytes>)

  /** `zipfile.ZipFile` / `rarfile.RarFile` over the archive's bytes; `None` when opening raises. */
  type Codec = (ArchiveKind, Bytes) -> Option<Container>

  /** What escapes an archive's processing. */
  datatype Fault =
    | Io(error: IoError)
    | UnsupportedArchive(path: string)
    | CorruptArchive(path: string)
    | EntryRead(name: string)

  // ---- destination naming ----

  /** `os.path.splitext(os.path.basename(path))[0]`. */
  function ArchiveBaseName(path: string): (r: string)
    ensures '/' !in r
  {
    var b := Basename(path);
    var r := Splitext(b).0;
    assert r == b[..|r|];
    r
  }

  /** The base name of `dir/n.e` is `n` when `n` is not made of dots alone. */
  lemma ArchiveBaseNameOfDotted(dir: string, n: string, e: string)
    requires '/' !in n && '.' !in e && '/' !in e
    requires exists k :: 0 <= k < |n| && n[k] != '.'
    ensures ArchiveBaseName(Join(dir, n + "." + e)) == n
  {
    var k :| 0 <= k < |n| && n[k] != '.';
    assert '/' !in n[k..];
    assert '/' !in n + "." + e;
    BasenameOfJoin(dir, n + "." + e);
    SplitextOfDotted(n, e);
  }

  /** The base name of `dir/n` is `n` itself when `n` has no dot. */
  lemma ArchiveBaseNameWithoutDot(dir: string, n: string)
    requires '/' !in n && '.' !in n
    ensures ArchiveBaseName(Join(dir, n)) == n
  {
    BasenameOfJoin(dir, n);
    SplitextWithoutDot(n);
  }

  predicate IsTriggerName(name: string) {
    Contains(Lower(name), "merged") || Contains(Lower(name), "chapter")
  }

  /** `f"{sub_dir_base}-{count}"`. */
  function Candidate(base: string, n: nat): string {
    base + "-" + NatToString(n)
  }

  lemma CandidateInjective(base: string, m: nat, n: nat)
    ensures Candidate(base, m) == Candidate(base, n) ==> m == n
  {
    if Candidate(base, m) == Candidate(base, n) {
      assert Candidate(base, m)[|base| + 1..] == NatToString(m);
      assert Candidate(base, n)[|base| + 1..] == NatToString(n);
      NatToStringInjective(m, n);
    }
  }

  /** The existing paths the probe may still meet from suffix `n` on; a finite set. */
  ghost function Taken(fs: FS, base: string, n: nat): set<string> {
    set p | p in fs.dirs + fs.files.Keys && exists j: nat :: j >= n && p == Candidate(base, j)
  }

  lemma SubsetCardinality<T>(a: set<T>, b: set<T>)
    requires a <= b
    ensures |a| <= |b|
  {
    assert b == a + (b - a);
  }

  lemma TakenShrinks(fs: FS, base: string, n: nat)
    requires fs.Exists(Candidate(base, n))
    ensures |Taken(fs, base, n + 1)| < |Taken(fs, base, n)|
  {
    var c := Candidate(base, n);
    assert c in Taken(fs, base, n);
    forall p | p in Taken(fs, base, n + 1)
      ensures p in Taken(fs, base, n) - {c}
    {
      var j: nat :| j >= n + 1 && p == Candidate(base, j);
      CandidateInjective(base, j, n);
    }
    SubsetCardinality(Taken(fs, base, n + 1), Taken(fs, base, n) - {c});
  }

  /** The `while os.path.exists(sub_dir)` probe from suffix `n`: the first suffix whose path does
      not exist. It terminates because only finitely many paths exist. */
  function FirstFree(fs: FS, base: string, n: nat): (k: nat)
    ensures n <= k && !fs.Exists(Candidate(base, k))
    ensures forall j :: n <= j < k ==> fs.Exists(Candidate(base, j))
    decreases |Taken(fs, base, n)|
  {
    if fs.Exists(Candidate(base, n)) then
      TakenShrinks(fs, base, n);
      FirstFree(fs, base, n + 1)
    else n
  }

  /** The directory an archive named `name` extracts into: for a name containing "merged" or
      "chapter" (any case), `dest/name-N` with the smallest N >= 1 that does not exist;
      otherwise `dest/name`, whether or not it exists. */
  function SubDir(fs: FS, dest: string, name: string): (d: string)
    ensures IsTriggerName(name) ==>
      && d == Candidate(Join(dest, name), FirstFree(fs, Join(dest, name), 1))
      && !fs.Exists(d)
      && forall j :: 1 <= j < FirstFree(fs, Join(dest, name), 1) ==> fs.Exists(Candidate(Join(dest, name), j))
    ensures !IsTriggerName(name) ==> d == Join(dest, name)
  {
    var base := Join(dest, name);
    if IsTriggerName(name) then Candidate(base, FirstFree(fs, base, 1)) else base
  }

  // ---- the per-entry task ----

  const TEMP_NAME := "temp_image"

  const IMAGE_ENTRY_EXTENSIONS: seq<string> := [".jpg", ".jpeg", ".png", ".webp"]

  /** `name.lower().endswith(('.jpg', '.jpeg', '.png', '.webp'))`. */
  predicate IsImageEntry(name: string) {
    exists ext :: ext in IMAGE_ENTRY_EXTENSIONS && EndsWith(Lower(name), ext)
  }

  function ImageEntries(names: seq<string>): seq<string> {
    Filter(names, IsImageEntry)
  }

  /** The kept entries are exactly the image entries of the name list; the other names get no task. */
  lemma ImageEntriesKept(names: seq<string>, n: string)
    ensures n in ImageEntries(names) <==> n in names && IsImageEntry(n)
  {
    if n in names && IsImageEntry(n) {
      var i :| 0 <= i < |names| && names[i] == n;
    }
  }

  function TempPath(subDir: string): string {
    Join(subDir, TEMP_NAME)
  }

  /** `f"{os.path.basename(sub_dir)}-{os.path.basename(name)}"`. */
  function OutputName(subDir: string, entry: string): (r: string)
    ensures '/' !in r
  {
    Basename(subDir) + "-" + Basename(entry)
  }

  function OutputPath(subDir: string, entry: string): string {
    Join(subDir, OutputName(subDir, entry))
  }

  /** The copy never lands on the temporary file, so the cleanup cannot remove it. */
  lemma OutputIsNotTemp(subDir: string, entry: string)
    ensures OutputPath(subDir, entry) != TempPath(subDir)
  {
    var o := OutputName(subDir, entry);
    assert o != TEMP_NAME by {
      assert o[|Basename(subDir)|] == '-';
      assert '-' !in TEMP_NAME;
    }
    assert '/' !in TEMP_NAME;
    BasenameOfJoin(subDir, o);
    BasenameOfJoin(subDir, TEMP_NAME);
  }

  /** Joined paths are longer than their directory, so they are never the directory itself. */
  lemma JoinLonger(d: string, n: string)
    requires '/' !in n && |n| > 0
    ensures |Join(d, n)| > |d|
  {
    assert n[0] != '/';
  }

  /** What an entry's task state is: the file system and the archive's progress counter. */
  datatype TaskState = TaskState(fs: FS, progress: nat)

  /** The `try` body: write the temporary file, classify it, copy the entry when it matches.
      An `OSError` inside is caught and gives `False`. */
  function TryBody(fs: FS, temp: string, out: string, content: Bytes, dec: Decoder): (FS, bool) {
    match WriteFile(fs, temp, content)
    case Err(_) => (fs, false)
    case Ok(fs1) =>
      if ContainsMetadata(fs1, temp, dec) then
        match WriteFile(fs1, out, content)
        case Err(_) => (fs1, false)
        case Ok(fs2) => (fs2, true)
      else (fs1, false)
  }

  /** The `finally` clause: remove the temporary file if it exists; removing a directory raises. */
  function Cleanup(fs: FS, temp: string): Result<FS, IoError> {
    if fs.Exists(temp) then RemoveFile(fs, temp) else Ok(fs)
  }

  /** Whether the entry's task reports a match: the classifier accepts its bytes and both the
      temporary file and the output can be written. */
  predicate EntryMatches(fs: FS, c: Container, entry: string, subDir: string, dec: Decoder) {
    && entry in c.members
    && Classify(dec, c.members[entry])
    && fs.Writable(TempPath(subDir))
    && fs.Writable(OutputPath(subDir, entry))
  }

  /** The files after a task on `entry`: the temporary file gone, and the output added when it matched. */
  function AfterTask(files: map<string, Bytes>, subDir: string, entry: string, content: Bytes, matched: bool): map<string, Bytes> {
    var cleaned := files - {TempPath(subDir)};
    if matched then cleaned[OutputPath(subDir, entry) := content] else cleaned
  }

  /** The `try` body on any two distinct paths: it reports a match exactly when both can be
      written and the classifier accepts the bytes, and apart from the temporary file it adds
      the copy when it matched and nothing else. */
  lemma TryBodyCopies(fs: FS, temp: string, out: string, content: Bytes, dec: Decoder)
    requires temp != out
    ensures var r := TryBody(fs, temp, out, content, dec);
      && r.1 == (fs.Writable(temp) && Classify(dec, content) && fs.Writable(out))
      && r.0.dirs == fs.dirs && r.0.denied == fs.denied
      && r.0.files - {temp} == (if r.1 then (fs.files - {temp})[out := content] else fs.files - {temp})
  {
    if fs.Writable(temp) {
      var fs1 := fs.(files := fs.files[temp := content]);
      ContainsMetadataReadsContent(fs1, temp, dec);
      if Classify(dec, content) && fs.Writable(out) {
        assert fs1.files[out := content] - {temp} == (fs.files - {temp})[out := content];
      } else {
        assert fs1.files - {temp} == fs.files - {temp};
      }
    }
  }

  lemma TryBodyOutcome(fs: FS, c: Container, entry: string, subDir: string, dec: Decoder)
    requires entry in c.members
    ensures var r := TryBody(fs, TempPath(subDir), OutputPath(subDir, entry), c.members[entry], dec);
      && r.1 == EntryMatches(fs, c, entry, subDir, dec)
      && r.0.dirs == fs.dirs && r.0.denied == fs.denied
      && r.0.files - {TempPath(subDir)} == AfterTask(fs.files, subDir, entry, c.members[entry], r.1)
  {
    OutputIsNotTemp(subDir, entry);
    TryBodyCopies(fs, TempPath(subDir), OutputPath(subDir, entry), c.members[entry], dec);
  }

  /** `process_image_in_archive`. Reading the entry happens before the `try`, so a read failure
      escapes with no progress update. Otherwise the progress advances by exactly one and the
      temporary file is gone afterwards, whatever happened inside the `try`; only a directory
      sitting at the temporary path makes the cleanup itself raise. */
  function EntryTask(st: TaskState, c: Container, entry: string, subDir: string, dec: Decoder)
    : (r: Result<(TaskState, bool), Fault>)
    ensures entry !in c.members ==> r == Err(EntryRead(entry))
    ensures r.Ok? <==> entry in c.members && TempPath(subDir) !in st.fs.dirs
    ensures r.Ok? ==>
      && r.value.0.progress == st.progress + 1
      && !r.value.0.fs.Exists(TempPath(subDir))
      && r.value.1 == EntryMatches(st.fs, c, entry, subDir, dec)
      && r.value.0.fs == st.fs.(files := AfterTask(st.fs.files, subDir, entry, c.members[entry], r.value.1))
  {
    if entry !in c.members then Err(EntryRead(entry))
    else
      var content := c.members[entry];
      var temp := TempPath(subDir);
      var out := OutputPath(subDir, entry);
      var (fsTry, matched) := TryBody(st.fs, temp, out, content, dec);
      TryBodyOutcome(st.fs, c, entry, subDir, dec);
      match Cleanup(fsTry, temp)
      case Err(e) => Err(Io(e))
      case Ok(fs2) => Ok((TaskState(fs2, st.progress + 1), matched))
  }

  /** `asyncio.gather` over the entry tasks, run in list order; the first escaping fault ends the run. */
  function RunEntries(st: TaskState, c: Container, names: seq<string>, subDir: string, dec: Decoder)
    : (r: Result<(TaskState, seq<bool>), Fault>)
    ensures r.Ok? <==>
      (forall i :: 0 <= i < |names| ==> names[i] in c.members) && (|names| == 0 || TempPath(subDir) !in st.fs.dirs)
    ensures r.Ok? ==>
      && |r.value.1| == |names|
      && r.value.0.progress == st.progress + |names|
      && r.value.0.fs.dirs == st.fs.dirs && r.value.0.fs.denied == st.fs.denied
      && (|names| > 0 ==> !r.value.0.fs.Exists(TempPath(subDir)))
      && forall i :: 0 <= i < |names| ==> r.value.1[i] == EntryMatches(st.fs, c, names[i], subDir, dec)
    decreases |names|
  {
    if |names| == 0 then Ok((st, []))
    else
      match EntryTask(st, c, names[0], subDir, dec)
      case Err(f) => Err(f)
      case Ok((st1, v)) =>
        match RunEntries(st1, c, names[1..], subDir, dec)
        case Err(f) => Err(f)
        case Ok((st2, vs)) =>
          EntryVerdictsCons(st.fs, st1.fs, c, names, subDir, dec, v, vs);
          Ok((st2, [v] + vs))
  }

  /** The first entry's verdict followed by the rest's, taken after the first task, are the
      verdicts of every entry on the starting file system, since a task changes only files. */
  lemma EntryVerdictsCons(fs: FS, fs1: FS, c: Container, names: seq<string>, subDir: string, dec: Decoder,
                          v: bool, vs: seq<bool>)
    requires |names| > 0 && fs1.dirs == fs.dirs && fs1.denied == fs.denied
    requires v == EntryMatches(fs, c, names[0], subDir, dec)
    requires |vs| == |names| - 1
    requires forall i :: 0 <= i < |vs| ==> vs[i] == EntryMatches(fs1, c, names[1..][i], subDir, dec)
    ensures forall i :: 0 <= i < |names| ==> ([v] + vs)[i] == EntryMatches(fs, c, names[i], subDir, dec)
  {
    forall i | 0 < i < |names|
      ensures ([v] + vs)[i] == EntryMatches(fs, c, names[i], subDir, dec)
    {
      assert ([v] + vs)[i] == vs[i - 1] && names[1..][i - 1] == names[i];
    }
  }

  /** A file left by one entry task was there before with the same bytes, or is that entry's
      output holding its bytes. */
  lemma AfterTaskOrigin(files: map<string, Bytes>, subDir: string, entry: string, content: Bytes, matched: bool,
                        p: string)
    requires p in AfterTask(files, subDir, entry, content, matched)
    ensures p != TempPath(subDir)
    ensures || (p in files && AfterTask(files, subDir, entry, content, matched)[p] == files[p])
            || (matched && p == OutputPath(subDir, entry) && AfterTask(files, subDir, entry, content, matched)[p] == content)
  {
    OutputIsNotTemp(subDir, entry);
  }

  /** Where one file after the entry tasks comes from: it was there before with the same bytes,
      or it is the output of a matching entry holding that entry's bytes. */
  lemma {:induction false} RunEntriesOriginAt(st: TaskState, c: Container, names: seq<string>, subDir: string,
                                               dec: Decoder, p: string)
    requires RunEntries(st, c, names, subDir, dec).Ok?
    requires p in RunEntries(st, c, names, subDir, dec).value.0.fs.files
    ensures var (st', vs) := RunEntries(st, c, names, subDir, dec).value;
      || (p in st.fs.files && st'.fs.files[p] == st.fs.files[p])
      || (exists i :: 0 <= i < |names| && vs[i] && p == OutputPath(subDir, names[i])
                      && st'.fs.files[p] == c.members[names[i]])
    decreases |names|
  {
    if |names| > 0 {
      var (st1, v) := EntryTask(st, c, names[0], subDir, dec).value;
      var (st', vs) := RunEntries(st, c, names, subDir, dec).value;
      var vs1 := RunEntries(st1, c, names[1..], subDir, dec).value.1;
      assert vs == [v] + vs1;
      RunEntriesOriginAt(st1, c, names[1..], subDir, dec, p);
      if exists i :: 0 <= i < |names[1..]| && vs1[i] && p == OutputPath(subDir, names[1..][i])
                     && st'.fs.files[p] == c.members[names[1..][i]] {
        var i :| 0 <= i < |names[1..]| && vs1[i] && p == OutputPath(subDir, names[1..][i])
                 && st'.fs.files[p] == c.members[names[1..][i]];
        assert vs[i + 1] && names[i + 1] == names[1..][i];
      } else {
        AfterTaskOrigin(st.fs.files, subDir, names[0], c.members[names[0]], v, p);
        if v && p == OutputPath(subDir, names[0]) {
          assert vs[0];
        }
      }
    }
  }

  /** The entry tasks remove no file but the temporary one. */
  lemma {:induction false} RunEntriesKeeps(st: TaskState, c: Container, names: seq<string>, subDir: string, dec: Decoder)
    requires RunEntries(st, c, names, subDir, dec).Ok?
    ensures forall p :: p in st.fs.files && p != TempPath(subDir) ==> p in RunEntries(st, c, names, subDir, dec).value.0.fs.files
    decreases |names|
  {
    if |names| > 0 {
      var st1 := EntryTask(st, c, names[0], subDir, dec).value.0;
      RunEntriesKeeps(st1, c, names[1..], subDir, dec);
    }
  }

  /** After the entry tasks, the output of every matching entry is present. */
  lemma {:induction false} RunEntriesOutputs(st: TaskState, c: Container, names: seq<string>, subDir: string, dec: Decoder)
    requires RunEntries(st, c, names, subDir, dec).Ok?
    ensures var (st', vs) := RunEntries(st, c, names, subDir, dec).value;
      forall i :: 0 <= i < |names| && vs[i] ==> OutputPath(subDir, names[i]) in st'.fs.files
    decreases |names|
  {
    if |names| > 0 {
      var (st1, v) := EntryTask(st, c, names[0], subDir, dec).value;
      RunEntriesOutputs(st1, c, names[1..], subDir, dec);
      RunEntriesKeeps(st1, c, names[1..], subDir, dec);
      var (st', vs) := RunEntries(st, c, names, subDir, dec).value;
      var vs1 := RunEntries(st1, c, names[1..], subDir, dec).value.1;
      assert vs == [v] + vs1;
      OutputIsNotTemp(subDir, names[0]);
      forall i | 0 <= i < |names| && vs[i]
        ensures OutputPath(subDir, names[i]) in st'.fs.files
      {
        if i > 0 {
          assert vs1[i - 1] && names[1..][i - 1] == names[i];
        }
      }
    }
  }

  /** Nothing but the outputs of matching entries is added, nothing but the temporary file is
      removed, and every matching entry's output is present afterwards. */
  lemma RunEntriesFiles(st: TaskState, c: Container, names: seq<string>, subDir: string, dec: Decoder)
    requires RunEntries(st, c, names, subDir, dec).Ok?
    ensures var (st', vs) := RunEntries(st, c, names, subDir, dec).value;
      && (forall p :: p in st'.fs.files ==>
            || (p in st.fs.files && st'.fs.files[p] == st.fs.files[p])
            || (exists i :: 0 <= i < |names| && vs[i] && p == OutputPath(subDir, names[i])
                            && st'.fs.files[p] == c.members[names[i]]))
      && (forall p :: p in st.fs.files && p != TempPath(subDir) ==> p in st'.fs.files)
      && (forall i :: 0 <= i < |names| && vs[i] ==> OutputPath(subDir, names[i]) in st'.fs.files)
  {
    forall p | p in RunEntries(st, c, names, subDir, dec).value.0.fs.files {
      RunEntriesOriginAt(st, c, names, subDir, dec, p);
    }
    RunEntriesKeeps(st, c, names, subDir, dec);
    RunEntriesOutputs(st, c, names, subDir, dec);
  }

  /** A run of the archive: the file system afterwards, the chosen directory, the progress count
      and the verdict `process_archive` returns. */
  datatype ArchiveRun = ArchiveRun(fs: FS, subDir: string, progress: nat, matched: bool)

  /** Keeping the image entries of an archive whose directory exists, running one task per kept
      entry and OR-ing the verdicts. */
  function ExtractEntries(fs: FS, c: Container, subDir: string, dec: Decoder): (r: Result<ArchiveRun, Fault>)
    requires subDir in fs.dirs
    ensures var kept := ImageEntries(c.names);
      r.Ok? <==> (forall i :: 0 <= i < |kept| ==> kept[i] in c.members) && (|kept| == 0 || TempPath(subDir) !in fs.dirs)
    ensures r.Ok? ==>
      && r.value.subDir == subDir
      && r.value.fs.dirs == fs.dirs && r.value.fs.denied == fs.denied
      && r.value.progress == |ImageEntries(c.names)|
      && (r.value.matched <==>
            exists i :: 0 <= i < |ImageEntries(c.names)| && EntryMatches(fs, c, ImageEntries(c.names)[i], subDir, dec))
  {
    var kept := ImageEntries(c.names);
    match RunEntries(TaskState(fs, 0), c, kept, subDir, dec)
    case Err(f) => Err(f)
    case Ok((st, results)) =>
      assert (true in results) <==> exists i :: 0 <= i < |kept| && results[i];
      Ok(ArchiveRun(st.fs, subDir, st.progress, true in results))
  }

  /** Creating `subDir` with its missing parents, then extracting into it; the verdicts are those
      of the file system the `makedirs` left. */
  function RunInto(fs: FS, c: Container, subDir: string, dec: Decoder): (r: Result<ArchiveRun, Fault>)
    ensures MakeDirs(fs, subDir).Err? ==> r == Err(Io(MakeDirs(fs, subDir).error))
    ensures var kept := ImageEntries(c.names);
      r.Ok? <==> MakeDirs(fs, subDir).Ok? && (forall i :: 0 <= i < |kept| ==> kept[i] in c.members)
                 && (|kept| == 0 || TempPath(subDir) !in fs.dirs)
    ensures r.Ok? ==>
      var fs1 := MakeDirs(fs, subDir).value;
      var kept := ImageEntries(c.names);
      && r.value.subDir == subDir
      && subDir in r.value.fs.dirs
      && r.value.progress == |kept|
      && (r.value.matched <==> exists i :: 0 <= i < |kept| && EntryMatches(fs1, c, kept[i], subDir, dec))
  {
    match MakeDirs(fs, subDir)
    case Err(e) => Err(Io(e))
    case Ok(fs1) =>
      TempPathNotMade(fs, subDir);
      ExtractEntries(fs1, c, subDir, dec)
  }

  /** `process_archive` after the container is open: the run goes into the directory the
      naming rule picks for the archive's base name. It fails iff `makedirs` of that directory
      raises (with its error), an image entry is unreadable, or the temporary path there is a
      directory; otherwise the verdict is `any` over the image entries' matches. */
  function ExtractInto(fs: FS, c: Container, path: string, dest: string, dec: Decoder): (r: Result<ArchiveRun, Fault>)
    ensures var d := SubDir(fs, dest, ArchiveBaseName(path));
      MakeDirs(fs, d).Err? ==> r == Err(Io(MakeDirs(fs, d).error))
    ensures var d := SubDir(fs, dest, ArchiveBaseName(path));
      var kept := ImageEntries(c.names);
      r.Ok? <==> MakeDirs(fs, d).Ok? && (forall i :: 0 <= i < |kept| ==> kept[i] in c.members)
                 && (|kept| == 0 || TempPath(d) !in fs.dirs)
    ensures r.Ok? ==>
      var d := SubDir(fs, dest, ArchiveBaseName(path));
      var kept := ImageEntries(c.names);
      && r.value.progress == |kept|
      && (r.value.matched <==> exists i :: 0 <= i < |kept| && EntryMatches(MakeDirs(fs, d).value, c, kept[i], d, dec))
    ensures r.Ok? ==>
      && r.value.subDir == SubDir(fs, dest, ArchiveBaseName(path))
      && r.value.subDir in r.value.fs.dirs
      && (IsTriggerName(ArchiveBaseName(path)) ==> !fs.Exists(r.value.subDir))
      && (!IsTriggerName(ArchiveBaseName(path)) ==> r.value.subDir == Join(dest, ArchiveBaseName(path)))
  {
    RunInto(fs, c, SubDir(fs, dest, ArchiveBaseName(path)), dec)
  }

  /** `makedirs` of `subDir` creates only `subDir` and its ancestors, all shorter than the
      temporary path inside it. */
  lemma TempPathNotMade(fs: FS, subDir: string)
    requires MakeDirs(fs, subDir).Ok?
    ensures TempPath(subDir) in MakeDirs(fs, subDir).value.dirs <==> TempPath(subDir) in fs.dirs
  {
    JoinLonger(subDir, TEMP_NAME);
  }

  /** In the directory `makedirs` just made, an entry's task matches iff the entry is readable,
      the classifier accepts its bytes, and neither the temporary path nor the output is a
      directory or closed to writing: the new directories are all shorter than either path. */
  lemma MatchesInNewDirectory(fs: FS, c: Container, entry: string, subDir: string, dec: Decoder)
    requires MakeDirs(fs, subDir).Ok?
    ensures var fs1 := MakeDirs(fs, subDir).value;
      var temp := TempPath(subDir);
      var out := OutputPath(subDir, entry);
      EntryMatches(fs1, c, entry, subDir, dec) <==>
        && entry in c.members && Classify(dec, c.members[entry])
        && temp !in fs.dirs && temp !in fs.denied
        && out !in fs.dirs && out !in fs.denied
  {
    var fs1 := MakeDirs(fs, subDir).value;
    var o := OutputName(subDir, entry);
    assert o[|Basename(subDir)|] == '-';
    JoinLonger(subDir, TEMP_NAME);
    JoinLonger(subDir, o);
    WritableInDir(fs1, subDir, TEMP_NAME);
    WritableInDir(fs1, subDir, o);
  }

  /** The container format chosen by the archive's extension, in any case. */
  function ArchiveKindOf(path: string): (k: Option<ArchiveKind>)
    ensures k == Some(Zip) <==> EndsWith(Lower(path), ".cbz")
    ensures k == Some(Rar) <==> EndsWith(Lower(path), ".cbr")
  {
    if EndsWith(Lower(path), ".cbz") then Some(Zip)
    else if EndsWith(Lower(path), ".cbr") then Some(Rar)
    else None
  }

  /** `process_archive(file_path, dest_dir)`. Reading the archive file, an extension other than
      .cbz/.cbr (`ValueError`) and a container that fails to open all escape before any directory
      is created. */
  function ProcessArchive(fs: FS, path: string, dest: string, codec: Codec, dec: Decoder): (r: Result<ArchiveRun, Fault>)
    ensures path !in fs.files ==> r.Err? && r.error.Io?
    ensures path in fs.files && ArchiveKindOf(path).None? ==> r == Err(UnsupportedArchive(path))
    ensures path in fs.files && ArchiveKindOf(path).Some? && codec(ArchiveKindOf(path).value, fs.files[path]).None?
            ==> r == Err(CorruptArchive(path))
    ensures r.Ok? ==>
      && path in fs.files && ArchiveKindOf(path).Some?
      && var c := codec(ArchiveKindOf(path).value, fs.files[path]);
      && c.Some?
      && r == ExtractInto(fs, c.value, path, dest, dec)
    ensures path in fs.files && ArchiveKindOf(path).Some? && codec(ArchiveKindOf(path).value, fs.files[path]).Some? ==>
      r == ExtractInto(fs, codec(ArchiveKindOf(path).value, fs.files[path]).value, path, dest, dec)
  {
    match ReadFile(fs, path)
    case Err(e) => Err(Io(e))
    case Ok(data) =>
      match ArchiveKindOf(path)
      case None => Err(UnsupportedArchive(path))
      case Some(kind) =>
        match codec(kind, data)
        case None => Err(CorruptArchive(path))
        case Some(c) => ExtractInto(fs, c, path, dest, dec)
  }

  /** An archive without image entries still gets its directory, and its verdict is `False`. */
  lemma EmptyArchiveGetsDirectory(fs: FS, c: Container, subDir: string, dec: Decoder)
    requires ImageEntries(c.names) == []
    ensures var r := RunInto(fs, c, subDir, dec);
      && (r.Ok? <==> MakeDirs(fs, subDir).Ok?)
      && (r.Ok? ==> r.value.fs == MakeDirs(fs, subDir).value && !r.value.matched && r.value.progress == 0)
  {
  }

  /** Every candidate directory lies inside the destination's tree: it starts with `dest/`. */
  lemma SubDirUnderDest(fs: FS, dest: string, name: string)
    requires '/' !in name
    ensures Below(SubDir(fs, dest, name), dest)
  {
    var base := Join(dest, name);
    if |name| > 0 {
      assert name[0] != '/';
    }
    JoinUnder(dest, name);
    if IsTriggerName(name) {
      var d := Candidate(base, FirstFree(fs, base, 1));
      assert d[..|base|] == base;
      BelowTransitive(d, base, dest);
    }
  }

  /** The temporary file and an entry's output lie inside every tree that holds `subDir`. */
  lemma TaskPathsBelow(subDir: string, dest: string, entry: string)
    requires Below(subDir, dest)
    ensures Below(TempPath(subDir), dest) && Below(OutputPath(subDir, entry), dest)
  {
    assert TEMP_NAME[0] == 't';
    JoinUnder(subDir, TEMP_NAME);
    BelowTransitive(TempPath(subDir), subDir, dest);
    var o := OutputName(subDir, entry);
    assert o[|Basename(subDir)|] == '-';
    JoinUnder(subDir, o);
    BelowTransitive(OutputPath(subDir, entry), subDir, dest);
  }

  /** A run into a directory inside `dest`'s tree leaves every file outside that tree as it was. */
  lemma RunIntoWritesUnder(fs: FS, c: Container, subDir: string, dest: string, dec: Decoder)
    requires Below(subDir, dest)
    requires RunInto(fs, c, subDir, dec).Ok?
    ensures var fs' := RunInto(fs, c, subDir, dec).value.fs;
      && fs'.denied == fs.denied && fs.dirs <= fs'.dirs
      && forall p :: p in fs.files && !Below(p, dest) ==> p in fs'.files && fs'.files[p] == fs.files[p]
  {
    var fs1 := MakeDirs(fs, subDir).value;
    var kept := ImageEntries(c.names);
    var st := TaskState(fs1, 0);
    var fs' := RunEntries(st, c, kept, subDir, dec).value.0.fs;
    assert fs' == RunInto(fs, c, subDir, dec).value.fs;
    RunEntriesFiles(st, c, kept, subDir, dec);
    forall p | p in fs.files && !Below(p, dest)
      ensures p in fs'.files && fs'.files[p] == fs.files[p]
    {
      TaskPathsBelow(subDir, dest, "");
      forall i | 0 <= i < |kept|
        ensures p != OutputPath(subDir, kept[i])
      {
        TaskPathsBelow(subDir, dest, kept[i]);
      }
      assert p in fs1.files && p != TempPath(subDir);
    }
  }

  /** A successful archive run creates directories and writes files only inside the destination's
      tree: every file outside it keeps its bytes, and no directory disappears. */
  lemma ProcessArchiveWritesUnder(fs: FS, path: string, dest: string, codec: Codec, dec: Decoder)
    requires ProcessArchive(fs, path, dest, codec, dec).Ok?
    ensures var fs' := ProcessArchive(fs, path, dest, codec, dec).value.fs;
      && fs'.denied == fs.denied && fs.dirs <= fs'.dirs
      && forall p :: p in fs.files && !Below(p, dest) ==> p in fs'.files && fs'.files[p] == fs.files[p]
  {
    var c := codec(ArchiveKindOf(path).value, fs.files[path]).value;
    var subDir := SubDir(fs, dest, ArchiveBaseName(path));
    SubDirUnderDest(fs, dest, ArchiveBaseName(path));
    RunIntoWritesUnder(fs, c, subDir, dest, dec);
  }
}

=== FILE: bench.dfy ===
/** The helpers of scan_for_metadata/test_cbz_performance.py: the exiftool keyword test, the
    per-entry check with its three counters, ordering entries by size, the entries each method
    submits, manual chunking, the speed summary and the rewrite of the log sorted by file name.
    The pools run their work items one after another here. */
module Bench {
  import opened Results
  import opened Text
  import opened Seqs
  import opened Sorting
  import opened FileSystem
  import opened Paths

  // ---- check_metadata ----

  const KEYWORDS: seq<string> := ["model", "lora", "negative", "prompt"]

  /** `check_metadata`: `output` is exiftool's standard output, `None` when running it raises. */
  predicate CheckMetadata(output: Option<string>) {
    output.Some? && exists w :: w in KEYWORDS && Contains(Lower(output.value), w)
  }

  /** The keyword test ignores case. */
  lemma CheckMetadataIgnoresCase(s: string)
    ensures CheckMetadata(Some(Lower(s))) == CheckMetadata(Some(s))
  {
    LowerIdempotent(s);
  }

  /** More output never loses a keyword. */
  lemma CheckMetadataGrows(s: string, t: string)
    requires CheckMetadata(Some(s))
    ensures CheckMetadata(Some(s + t)) && CheckMetadata(Some(t + s))
  {
    var w :| w in KEYWORDS && Contains(Lower(s), w);
    LowerConcat(s, t);
    LowerConcat(t, s);
    ContainsAppend(Lower(s), Lower(t), w);
    ContainsPrepend(Lower(t), Lower(s), w);
  }

  // ---- entries and their order ----

  /** A `ZipInfo`: the member's name and its uncompressed size. */
  datatype ZipInfo = ZipInfo(filename: string, fileSize: nat)

  function Size(f: ZipInfo): int {
    f.fileSize
  }

  /** The order `reverse=True` sorts in. */
  function AtLeast(a: int, b: int): bool {
    a >= b
  }

  lemma AtLeastTotalOrder()
    ensures TotalOrder(AtLeast)
  {
  }

  /** `sort_files_by_size`: `sorted(infolist(), key=file_size, reverse=True)`. */
  function SortFilesBySize(infos: seq<ZipInfo>): (r: seq<ZipInfo>)
    ensures multiset(r) == multiset(infos)
  {
    SortBy(infos, Size, AtLeast)
  }

  /** Largest first; entries of equal size keep their `infolist` order. */
  lemma SortFilesBySizeOrdered(infos: seq<ZipInfo>, n: int)
    ensures forall i, j :: 0 <= i < j < |SortFilesBySize(infos)| ==>
      SortFilesBySize(infos)[i].fileSize >= SortFilesBySize(infos)[j].fileSize
    ensures Filter(SortFilesBySize(infos), HasKey(Size, n)) == Filter(infos, HasKey(Size, n))
  {
    AtLeastTotalOrder();
    SortBySorted(infos, Size, AtLeast);
    SortByStable(infos, Size, AtLeast, n);
  }

  const SUBMIT_EXTENSIONS: seq<string> := [".png", ".jpg", ".jpeg", ".bmp", ".gif"]

  /** The thread, process and async methods submit only entries with an image extension. */
  predicate Submittable(f: ZipInfo) {
    exists ext :: ext in SUBMIT_EXTENSIONS && EndsWith(Lower(f.filename), ext)
  }

  function SubmittedEntries(infos: seq<ZipInfo>): seq<ZipInfo> {
    Filter(SortFilesBySize(infos), Submittable)
  }

  /** An entry is submitted exactly when it is in the archive and has an image extension. */
  lemma SubmittedEntriesMembership(infos: seq<ZipInfo>, f: ZipInfo)
    ensures f in SubmittedEntries(infos) <==> f in infos && Submittable(f)
  {
    var sorted := SortFilesBySize(infos);
    assert f in sorted <==> f in multiset(sorted);
    if f in sorted && Submittable(f) {
      var i :| 0 <= i < |sorted| && sorted[i] == f;
    }
  }

  // ---- manual chunking ----

  datatype ChunkError = ZeroStep

  /** `[s[i:i + size] for i in range(0, len(s), size)]`: `range` raises for a zero step and is
      empty for a negative one. The slices put back together give `s`; each is non-empty and at
      most `size` long, and all but the last hold exactly `size` entries. */
  method Chunks<T>(s: seq<T>, size: int) returns (r: Result<seq<seq<T>>, ChunkError>)
    ensures size == 0 <==> r.Err?
    ensures size < 0 ==> r == Ok([])
    ensures size > 0 ==> r.Ok? && Flatten(r.value) == s
    ensures r.Ok? ==> forall k :: 0 <= k < |r.value| ==> 0 < |r.value[k]| <= size
    ensures r.Ok? ==> forall k :: 0 <= k < |r.value| - 1 ==> |r.value[k]| == size
  {
    if size == 0 {
      return Err(ZeroStep);
    }
    if size < 0 {
      return Ok([]);
    }
    var acc: seq<seq<T>> := [];
    var i := 0;
    while i < |s|
      invariant 0 <= i <= |s|
      invariant Flatten(acc) == s[..i]
      invariant forall k :: 0 <= k < |acc| ==> 0 < |acc[k]| <= size
      invariant forall k :: 0 <= k < |acc| ==> |acc[k]| == size || (k == |acc| - 1 && i == |s|)
      decreases |s| - i
    {
      var j := if i + size <= |s| then i + size else |s|;
      FlattenSnoc(acc, s[i..j]);
      assert s[..j] == s[..i] + s[i..j];
      acc := acc + [s[i..j]];
      i := j;
    }
    assert s[..i] == s;
    return Ok(acc);
  }

  // ---- process_and_check_metadata ----

  datatype Counts = Counts(found: nat, notFound: nat, nonImage: nat)

  function Total(c: Counts): nat {
    c.found + c.notFound + c.nonImage
  }

  /** exiftool's standard output for the file at a path holding given bytes (its report names the
      file too); `None` when running it raises. */
  type ExifReport = (string, Bytes) -> Option<string>

  /** `process_and_check_metadata`: write the member to `output_dir/filename`, count a keyword hit
      as found and a miss as not found, remove the copy; any exception on the way (the archive or
      member cannot be read, the copy cannot be written) counts as a non-image. `members` is
      `None` when the archive cannot be opened. */
  function ProcessAndCheck(fs: FS, members: Option<map<string, Bytes>>, info: ZipInfo, outputDir: string,
                           exiftool: ExifReport, counts: Counts): (r: (FS, Counts))
    ensures Total(r.1) == Total(counts) + 1
    ensures var temp := Join(outputDir, info.filename);
      if members.Some? && info.filename in members.value && fs.Writable(temp) then
        var hit := CheckMetadata(exiftool(temp, members.value[info.filename]));
        && r.1 == (if hit then counts.(found := counts.found + 1) else counts.(notFound := counts.notFound + 1))
        && r.0 == fs.(files := fs.files - {temp})
      else
        r == (fs, counts.(nonImage := counts.nonImage + 1))
  {
    var failed := (fs, counts.(nonImage := counts.nonImage + 1));
    match members
    case None => failed
    case Some(m) =>
      if info.filename !in m then failed
      else
        var temp := Join(outputDir, info.filename);
        var content := m[info.filename];
        match WriteFile(fs, temp, content)
        case Err(_) => failed
        case Ok(fs1) =>
          var counted :=
            if CheckMetadata(exiftool(temp, content)) then counts.(found := counts.found + 1)
            else counts.(notFound := counts.notFound + 1);
          (RemoveFile(fs1, temp).value, counted)
  }

  /** A directory entry such as `ch1/` names no file: opening it for writing raises, so it counts
      as a non-image and nothing is written. */
  lemma DirectoryEntryCountsNonImage(fs: FS, members: Option<map<string, Bytes>>, info: ZipInfo, outputDir: string,
                                     exiftool: ExifReport, counts: Counts)
    requires |info.filename| > 0 && info.filename[|info.filename| - 1] == '/'
    ensures ProcessAndCheck(fs, members, info, outputDir, exiftool, counts) == (fs, counts.(nonImage := counts.nonImage + 1))
  {
    var temp := Join(outputDir, info.filename);
    assert EndsWith(temp, info.filename);
    assert temp[|temp| - 1] == temp[|temp| - |info.filename|..][|info.filename| - 1];
    TrailingSlashNotWritable(fs, temp);
  }

  /** An entry in a sub-folder such as `ch1/001.png` is written to `output_dir/ch1/001.png`; when
      that sub-folder does not exist, `open` raises and the entry counts as a non-image. */
  lemma NestedEntryCountsNonImage(fs: FS, members: Option<map<string, Bytes>>, info: ZipInfo, outputDir: string,
                                  exiftool: ExifReport, counts: Counts, d: string, n: string)
    requires d != "" && '/' !in d && '/' !in n && info.filename == d + "/" + n
    requires Join(outputDir, d) !in fs.dirs && Join(outputDir, d) + "/" !in fs.dirs
    ensures ProcessAndCheck(fs, members, info, outputDir, exiftool, counts) == (fs, counts.(nonImage := counts.nonImage + 1))
  {
    assert d[0] != '/' && info.filename[0] != '/';
    var sub := Join(outputDir, d);
    assert Join(outputDir, info.filename) == sub + "/" + n;
    MissingDirNotWritable(fs, sub, n);
  }

  /** How the pool runs its work items: in this process (the thread pool, and manual chunking's
      `to_thread`), or in child processes (the process pool and `aiomultiprocess`), where each item
      updates its own copy of the `counts` dictionary and the parent's stays as it was. */
  datatype Workers = InProcess | ChildProcesses

  /** The work items of one method, one after another. */
  function RunItems(fs: FS, members: Option<map<string, Bytes>>, items: seq<ZipInfo>, outputDir: string,
                    exiftool: ExifReport, workers: Workers, counts: Counts): (r: (FS, Counts))
    ensures workers == InProcess ==> Total(r.1) == Total(counts) + |items|
    ensures workers == ChildProcesses ==> r.1 == counts
    decreases |items|
  {
    if |items| == 0 then (fs, counts)
    else
      var (fs1, c1) := ProcessAndCheck(fs, members, items[0], outputDir, exiftool, counts);
      var next := if workers == InProcess then c1 else counts;
      RunItems(fs1, members, items[1..], outputDir, exiftool, workers, next)
  }

  /** Running two batches one after the other is running their concatenation. */
  lemma {:induction false} RunItemsConcat(fs: FS, members: Option<map<string, Bytes>>, a: seq<ZipInfo>, b: seq<ZipInfo>,
                                          outputDir: string, exiftool: ExifReport, workers: Workers, counts: Counts)
    ensures var (fs1, c1) := RunItems(fs, members, a, outputDir, exiftool, workers, counts);
      RunItems(fs1, members, b, outputDir, exiftool, workers, c1) == RunItems(fs, members, a + b, outputDir, exiftool, workers, counts)
    decreases |a|
  {
    if |a| == 0 {
      assert a + b == b;
    } else {
      assert (a + b)[0] == a[0] && (a + b)[1..] == a[1..] + b;
      var (fs1, c1) := ProcessAndCheck(fs, members, a[0], outputDir, exiftool, counts);
      var next := if workers == InProcess then c1 else counts;
      RunItemsConcat(fs1, members, a[1..], b, outputDir, exiftool, workers, next);
    }
  }

  /** Running the chunks in order is running the entries in order. */
  lemma {:induction false} RunChunks(fs: FS, members: Option<map<string, Bytes>>, chunks: seq<seq<ZipInfo>>,
                                     outputDir: string, exiftool: ExifReport, counts: Counts)
    ensures RunChunked(fs, members, chunks, outputDir, exiftool, counts)
         == RunItems(fs, members, Flatten(chunks), outputDir, exiftool, InProcess, counts)
    decreases |chunks|
  {
    if |chunks| > 0 {
      var (fs1, c1) := RunItems(fs, members, chunks[0], outputDir, exiftool, InProcess, counts);
      RunChunks(fs1, members, chunks[1..], outputDir, exiftool, c1);
      RunItemsConcat(fs, members, chunks[0], Flatten(chunks[1..]), outputDir, exiftool, InProcess, counts);
    }
  }

  function RunChunked(fs: FS, members: Option<map<string, Bytes>>, chunks: seq<seq<ZipInfo>>, outputDir: string,
                      exiftool: ExifReport, counts: Counts): (FS, Counts)
    decreases |chunks|
  {
    if |chunks| == 0 then (fs, counts)
    else
      var (fs1, c1) := RunItems(fs, members, chunks[0], outputDir, exiftool, InProcess, counts);
      RunChunked(fs1, members, chunks[1..], outputDir, exiftool, c1)
  }

  /** `manual_chunking_method`'s processing: every entry, largest first, chunk by chunk; its
      counters add up to the number of entries. */
  method ManualChunking(fs: FS, members: Option<map<string, Bytes>>, infos: seq<ZipInfo>, outputDir: string,
                        exiftool: ExifReport, chunkSize: int) returns (r: Result<(FS, Counts), ChunkError>)
    ensures chunkSize == 0 <==> r.Err?
    ensures chunkSize > 0 ==>
      r == Ok(RunItems(fs, members, SortFilesBySize(infos), outputDir, exiftool, InProcess, Counts(0, 0, 0)))
    ensures chunkSize > 0 ==> Total(r.value.1) == |infos|
  {
    var sorted := SortFilesBySize(infos);
    var chunks := Chunks(sorted, chunkSize);
    if chunks.Err? {
      return Err(ZeroStep);
    }
    RunChunks(fs, members, chunks.value, outputDir, exiftool, Counts(0, 0, 0));
    assert |sorted| == |infos| by {
      assert |multiset(sorted)| == |multiset(infos)|;
    }
    return Ok(RunChunked(fs, members, chunks.value, outputDir, exiftool, Counts(0, 0, 0)));
  }

  /** The processing of the thread-pool, process-pool and async methods: the submittable entries,
      largest first. */
  function PooledMethod(fs: FS, members: Option<map<string, Bytes>>, infos: seq<ZipInfo>, outputDir: string,
                        exiftool: ExifReport, workers: Workers): (r: (FS, Counts))
    ensures workers == InProcess ==> Total(r.1) == |SubmittedEntries(infos)|
    ensures workers == ChildProcesses ==> r.1 == Counts(0, 0, 0)
  {
    RunItems(fs, members, SubmittedEntries(infos), outputDir, exiftool, workers, Counts(0, 0, 0))
  }

  // ---- log_processing_speeds ----

  /** The summary dictionary. The three speeds are numpy floats computed from the timings; they
      are given here as `speeds` (maximum, minimum, mean). */
  datatype Summary = Summary(maxSpeed: real, minSpeed: real, meanSpeed: real,
                             found: nat, notFound: nat, nonImage: nat, total: nat)

  function LogProcessingSpeeds(times: seq<real>, counts: Counts, speeds: (real, real, real)): (s: Summary)
    ensures s.total == s.found + s.notFound + s.nonImage
    ensures times == [] ==> s == Summary(0.0, 0.0, 0.0, 0, 0, 0, 0)
    ensures times != [] ==>
      && s.found == counts.found && s.notFound == counts.notFound && s.nonImage == counts.nonImage
      && s.total == Total(counts)
  {
    if times == [] then Summary(0.0, 0.0, 0.0, 0, 0, 0, 0)
    else Summary(speeds.0, speeds.1, speeds.2, counts.found, counts.notFound, counts.nonImage, Total(counts))
  }

  // ---- sort_log_by_filename ----

  /** `line.split(" ")[-1].strip()`. */
  function LogKey(line: string): string {
    Strip(LastPiece(line, ' '))
  }

  lemma LexLeTotalOrder()
    ensures TotalOrder(LexLe)
  {
    forall a, b ensures LexLe(a, b) || LexLe(b, a) {
      LexLeTotal(a, b);
    }
    forall a, b | LexLe(a, b) && LexLe(b, a) ensures a == b {
      LexLeAntisymmetric(a, b);
    }
    forall a, b, c | LexLe(a, b) && LexLe(b, c) ensures LexLe(a, c) {
      LexLeTransitive(a, b, c);
    }
  }

  /** The three header lines. The speeds appear with two decimals; their text is given as
      `speedText` (fastest, slowest, mean). */
  function Header(cbzPath: string, s: Summary, speedText: (string, string, string)): seq<string> {
    [ "CBZ File: " + cbzPath + "\n",
      "Fastest items/sec: " + speedText.0 + " | Slowest items/sec: " + speedText.1
        + " | Mean items/sec: " + speedText.2 + "\n",
      "Keys found: " + NatToString(s.found) + " | Keys not found: " + NatToString(s.notFound)
        + " | Number of Non-Images: " + NatToString(s.nonImage) + " | Total files: " + NatToString(s.total) + "\n" ]
  }

  /** `sort_log_by_filename` on the log's lines (`None` for a missing log, which is left alone):
      the header, then the original lines ordered by their last space-separated word. */
  function SortLog(lines: Option<seq<string>>, cbzPath: string, s: Summary, speedText: (string, string, string))
    : (r: Option<seq<string>>)
    ensures lines.None? <==> r.None?
    ensures r.Some? ==>
      && |r.value| == 3 + |lines.value|
      && r.value[..3] == Header(cbzPath, s, speedText)
      && multiset(r.value[3..]) == multiset(lines.value)
  {
    match lines
    case None => None
    case Some(ls) =>
      var sorted := SortBy(ls, LogKey, LexLe);
      assert (Header(cbzPath, s, speedText) + sorted)[3..] == sorted;
      Some(Header(cbzPath, s, speedText) + sorted)
  }

  /** The body of the rewritten log is ordered by key, and lines with the same key keep their
      order. */
  lemma SortLogOrdered(ls: seq<string>, cbzPath: string, s: Summary, speedText: (string, string, string), k: string)
    ensures var body := SortLog(Some(ls), cbzPath, s, speedText).value[3..];
      && (forall i, j :: 0 <= i < j < |body| ==> LexLe(LogKey(body[i]), LogKey(body[j])))
      && Filter(body, HasKey(LogKey, k)) == Filter(ls, HasKey(LogKey, k))
  {
    LexLeTotalOrder();
    SortBySorted(ls, LogKey, LexLe);
    SortByStable(ls, LogKey, LexLe, k);
    assert SortLog(Some(ls), cbzPath, s, speedText).value[3..] == SortBy(ls, LogKey, LexLe);
  }

  /** The counters in the third header line read back as the summary's numbers. */
  lemma HeaderCountsReadBack(s: Summary)
    ensures ParseDigits(NatToString(s.found)) == s.found
    ensures ParseDigits(NatToString(s.notFound)) == s.notFound
    ensures ParseDigits(NatToString(s.nonImage)) == s.nonImage
    ensures ParseDigits(NatToString(s.total)) == s.total
  {
    ParseNatToString(s.found);
    ParseNatToString(s.notFound);
    ParseNatToString(s.nonImage);
    ParseNatToString(s.total);
  }
}

=== FILE: cli.dfy ===
/** The command line of find_extract_IGMD.py: argument parsing, the requirements check,
    `validate_directories` (as written, and corrected), and the script's overall outcome. */
module Cli {
  import opened Results
  import opened Text
  import opened Paths
  import opened FileSystem
  import opened FileScan
  import opened Archive
  import opened Orchestrator

  // ---- arguments ----

  datatype Command = ShowHelp(code: int) | Start(scan: string, dest: string, log: Option<string>)

  /** `argv.index(flag)`: the first occurrence. */
  function Position(argv: seq<string>, flag: string): (i: nat)
    requires flag in argv
    ensures i < |argv| && argv[i] == flag && flag !in argv[..i]
  {
    if argv[0] == flag then 0
    else
      var i := Position(argv[1..], flag);
      assert argv[..i + 1] == [argv[0]] + argv[1..][..i];
      i + 1
  }

  /** `argv[argv.index(flag) + 1]`, or `None` where that raises `ValueError` (no such flag) or
      `IndexError` (the flag is the last word). */
  function ValueAfter(argv: seq<string>, flag: string): (r: Option<string>)
    ensures r.Some? <==> exists i :: 0 <= i < |argv| - 1 && argv[i] == flag && flag !in argv[..i]
    ensures r.Some? ==> exists i :: 0 <= i < |argv| - 1 && argv[i] == flag && flag !in argv[..i] && r.value == argv[i + 1]
  {
    if flag !in argv then None
    else
      var i := Position(argv, flag);
      if i + 1 < |argv| then Some(argv[i + 1])
      else None
  }

  const HELP_FLAG := "--help"
  const SCAN_FLAG := "--scan_dir"
  const DEST_FLAG := "--dest_dir"
  const LOG_FLAG := "--log_non-igmd"

  /** The `__main__` block's reading of `sys.argv` (program name included): help with status 0
      for `--help` anywhere or fewer than five words; help with status 1 when the scan or
      destination value, or the value of a given log flag, is missing. */
  function ParseArgs(argv: seq<string>): (c: Command)
    ensures c == ShowHelp(0) <==> HELP_FLAG in argv || |argv| < 5
    ensures c == ShowHelp(1) <==>
      && !(HELP_FLAG in argv || |argv| < 5)
      && (|| ValueAfter(argv, SCAN_FLAG).None?
          || ValueAfter(argv, DEST_FLAG).None?
          || (LOG_FLAG in argv && ValueAfter(argv, LOG_FLAG).None?))
    ensures c.Start? ==>
      && Some(c.scan) == ValueAfter(argv, SCAN_FLAG)
      && Some(c.dest) == ValueAfter(argv, DEST_FLAG)
      && (c.log.Some? <==> LOG_FLAG in argv)
      && (c.log.Some? ==> c.log == ValueAfter(argv, LOG_FLAG))
  {
    if HELP_FLAG in argv || |argv| < 5 then ShowHelp(0)
    else
      match (ValueAfter(argv, SCAN_FLAG), ValueAfter(argv, DEST_FLAG))
      case (Some(scan), Some(dest)) =>
        if LOG_FLAG in argv then
          match ValueAfter(argv, LOG_FLAG)
          case None => ShowHelp(1)
          case Some(log) => Start(scan, dest, Some(log))
        else Start(scan, dest, None)
      case _ => ShowHelp(1)
  }

  // ---- validate_directories ----

  datatype Rejection =
    | ScanMissing
    | DestInsideScan
    | ScanInsideDest
    | LogInsideDirs
    | CommonPathRaised(error: PathError)
    | MakeDirsRaised(ioError: IoError)
  {
    /** The check raised instead of calling `sys.exit(1)`. */
    predicate Raises() {
      CommonPathRaised? || MakeDirsRaised?
    }
  }

  /** Lines 206-212: the scan directory must exist; a missing destination is created together
      with its missing parents, and `makedirs` raises when it cannot create one of them. */
  function Prepare(fs: FS, scan: string, dest: string): (r: Result<FS, Rejection>)
    ensures r.Ok? <==> fs.Exists(scan) && (fs.Exists(dest) || MakeDirs(fs, dest).Ok?)
    ensures !fs.Exists(scan) ==> r == Err(ScanMissing)
    ensures fs.Exists(scan) && !fs.Exists(dest) && MakeDirs(fs, dest).Err? ==>
      r == Err(MakeDirsRaised(MakeDirs(fs, dest).error))
    ensures r.Ok? ==> r.value.Exists(dest) && r.value.files == fs.files && r.value.denied == fs.denied
    ensures r.Ok? ==> r.value.dirs == fs.dirs + (if fs.Exists(dest) then {} else Ancestors(dest) + {dest})
  {
    if !fs.Exists(scan) then Err(ScanMissing)
    else if fs.Exists(dest) then Ok(fs)
    else
      match MakeDirs(fs, dest)
      case Err(e) => Err(MakeDirsRaised(e))
      case Ok(fs1) => Ok(fs1)
  }

  /** A destination spelled with a trailing slash names an existing directory, so nothing is
      created: for example, destination `/out/` when `/out` exists. */
  lemma PrepareExistingDestWithSlash(fs: FS, scan: string, d: string)
    requires fs.Exists(scan) && d in fs.dirs
    ensures Prepare(fs, scan, d + "/") == Ok(fs)
  {
    ExistsWithSlash(fs, d);
  }

  /** A scan directory spelled with a trailing slash passes lines 205-208 when the directory
      exists: for example, scan `/data/` when `/data` exists. */
  lemma PrepareScanWithSlash(fs: FS, d: string, dest: string)
    requires d in fs.dirs
    requires fs.Exists(dest) || MakeDirs(fs, dest).Ok?
    ensures Prepare(fs, d + "/", dest).Ok?
  {
    ExistsWithSlash(fs, d);
  }

  /** `validate_directories` as written: line 214 compares the normal forms of the two
      directories, and line 220 compares `commonpath` results with the raw argument strings. */
  function ValidateAsWritten(fs: FS, scan: string, dest: string, log: Option<string>): (r: Result<FS, Rejection>)
    ensures r.Ok? <==>
      && Prepare(fs, scan, dest).Ok?
      && Normalize(scan) != Normalize(dest)
      && (LogEnabled(log) ==>
            && CommonPath([log.value, scan]).Ok? && CommonPath([log.value, scan]) != Ok(scan)
            && CommonPath([log.value, dest]).Ok? && CommonPath([log.value, dest]) != Ok(dest))
    ensures r == Err(DestInsideScan) <==> Prepare(fs, scan, dest).Ok? && Normalize(scan) == Normalize(dest)
    ensures Prepare(fs, scan, dest).Err? ==> r == Prepare(fs, scan, dest)
    ensures r.Ok? ==> r == Prepare(fs, scan, dest)
  {
    CommonPathSingle(scan);
    CommonPathSingle(dest);
    match Prepare(fs, scan, dest)
    case Err(e) => Err(e)
    case Ok(fs1) =>
      if CommonPath([scan]) == CommonPath([dest]) then Err(DestInsideScan)
      else if LogEnabled(log) then
        match CommonPath([log.value, scan])
        case Err(e) => Err(CommonPathRaised(e))
        case Ok(c1) =>
          if c1 == scan then Err(LogInsideDirs)
          else
            match CommonPath([log.value, dest])
            case Err(e) => Err(CommonPathRaised(e))
            case Ok(c2) => if c2 == dest then Err(LogInsideDirs) else Ok(fs1)
      else Ok(fs1)
  }

  /** Line 214 as written rejects a destination only when it names the scan directory itself. */
  lemma AsWrittenRejectsOnlySameDirectory(fs: FS, scan: string, dest: string, log: Option<string>)
    requires ValidateAsWritten(fs, scan, dest, log) == Err(DestInsideScan)
    ensures Within(dest, scan) && Within(scan, dest)
  {
    NormalizeInjective(scan, dest);
  }

  /** `validate_directories` with both comparisons made against normal forms, which is what its
      messages promise: a destination at or below the scan directory is rejected, and so is a
      scan directory below the destination and a log file at or below either directory. */
  function Validate(fs: FS, scan: string, dest: string, log: Option<string>): (r: Result<FS, Rejection>)
    ensures r.Ok? <==>
      && Prepare(fs, scan, dest).Ok?
      && IsAbs(dest) == IsAbs(scan) && !Within(dest, scan) && !Within(scan, dest)
      && (LogEnabled(log) ==>
            && IsAbs(log.value) == IsAbs(scan) && !Within(log.value, scan)
            && IsAbs(log.value) == IsAbs(dest) && !Within(log.value, dest))
    ensures Prepare(fs, scan, dest).Err? ==> r == Prepare(fs, scan, dest)
    ensures r == Err(DestInsideScan) <==> Prepare(fs, scan, dest).Ok? && Within(dest, scan)
    ensures r == Err(ScanInsideDest) <==>
      Prepare(fs, scan, dest).Ok? && !Within(dest, scan) && Within(scan, dest)
    ensures r == Err(LogInsideDirs) <==>
      && Prepare(fs, scan, dest).Ok? && IsAbs(dest) == IsAbs(scan) && !Within(dest, scan) && !Within(scan, dest)
      && LogEnabled(log)
      && (Within(log.value, scan) || (IsAbs(log.value) == IsAbs(scan) && Within(log.value, dest)))
    ensures r.Ok? ==> r == Prepare(fs, scan, dest)
  {
    WithinCommonPath(dest, scan);
    WithinCommonPath(scan, dest);
    LogWithinCommonPath(log, scan, dest);
    match Prepare(fs, scan, dest)
    case Err(e) => Err(e)
    case Ok(fs1) =>
      match CommonPath([dest, scan])
      case Err(e) => Err(CommonPathRaised(e))
      case Ok(c0) =>
        if c0 == Normalize(scan) then Err(DestInsideScan)
        else if CommonPath([scan, dest]) == Ok(Normalize(dest)) then Err(ScanInsideDest)
        else if LogEnabled(log) then
          match CommonPath([log.value, scan])
          case Err(e) => Err(CommonPathRaised(e))
          case Ok(c1) =>
            if c1 == Normalize(scan) then Err(LogInsideDirs)
            else
              match CommonPath([log.value, dest])
              case Err(e) => Err(CommonPathRaised(e))
              case Ok(c2) => if c2 == Normalize(dest) then Err(LogInsideDirs) else Ok(fs1)
        else Ok(fs1)
  }

  lemma LogWithinCommonPath(log: Option<string>, scan: string, dest: string)
    ensures log.Some? ==>
      && (CommonPath([log.value, scan]).Ok? <==> IsAbs(log.value) == IsAbs(scan))
      && (CommonPath([log.value, dest]).Ok? <==> IsAbs(log.value) == IsAbs(dest))
      && (CommonPath([log.value, scan]) == Ok(Normalize(scan)) <==> Within(log.value, scan))
      && (CommonPath([log.value, dest]) == Ok(Normalize(dest)) <==> Within(log.value, dest))
  {
    if log.Some? {
      WithinCommonPath(log.value, scan);
      WithinCommonPath(log.value, dest);
    }
  }

  /** The corrected check rejects every destination the written one rejects. */
  lemma ValidateStricter(fs: FS, scan: string, dest: string, log: Option<string>)
    requires ValidateAsWritten(fs, scan, dest, log) == Err(DestInsideScan)
    ensures Validate(fs, scan, dest, log) == Err(DestInsideScan)
  {
    NormalizeInjective(scan, dest);
  }

  /** A destination nested in the scan directory passes the check as written; the corrected check
      refuses it. For example, scan directory `/data` and destination `/data/out`. */
  lemma NestedDestinationAccepted(fs: FS, n: string, m: string)
    requires '/' !in n && IsComponent(n) && '/' !in m && IsComponent(m)
    requires Prepare(fs, "/" + n, "/" + n + "/" + m).Ok?
    ensures ValidateAsWritten(fs, "/" + n, "/" + n + "/" + m, None).Ok?
    ensures Validate(fs, "/" + n, "/" + n + "/" + m, None) == Err(DestInsideScan)
  {
    ComponentsOfOne(n);
    ComponentsOfTwo(n, m);
    assert Components("/" + n) == Components("/" + n + "/" + m)[..1];
  }

  /** A scan directory nested in the destination passes the check as written; the corrected check
      refuses it. For example, scan directory `/data/in` and destination `/data`. */
  lemma NestedScanAccepted(fs: FS, n: string, m: string)
    requires '/' !in n && IsComponent(n) && '/' !in m && IsComponent(m)
    requires Prepare(fs, "/" + n + "/" + m, "/" + n).Ok?
    ensures ValidateAsWritten(fs, "/" + n + "/" + m, "/" + n, None).Ok?
    ensures Validate(fs, "/" + n + "/" + m, "/" + n, None) == Err(ScanInsideDest)
  {
    ComponentsOfOne(n);
    ComponentsOfTwo(n, m);
    assert Components("/" + n) == Components("/" + n + "/" + m)[..1];
  }

  /** Line 220 as written compares with the raw scan argument, so a log file below a scan directory
      written other than in normal form passes it; the corrected check refuses that log. */
  lemma LogBelowUnnormalizedScan(fs: FS, scan: string, dest: string, log: string)
    requires Prepare(fs, scan, dest).Ok?
    requires IsAbs(scan) && IsAbs(dest) && IsAbs(log)
    requires !Within(dest, scan) && !Within(scan, dest)
    requires Within(log, scan) && !Within(log, dest)
    requires Normalize(scan) != scan && Normalize(dest) == dest
    ensures ValidateAsWritten(fs, scan, dest, Some(log)).Ok?
    ensures Validate(fs, scan, dest, Some(log)) == Err(LogInsideDirs)
  {
    if Normalize(scan) == Normalize(dest) {
      NormalizeInjective(scan, dest);
      assert false;
    }
    LogWithinCommonPath(Some(log), scan, dest);
  }

  /** A trailing slash on the scan directory lets a log file inside it through the check as
      written; the corrected check refuses it. For example, scan directory `/data/`, destination
      `/out` and log file `/data/log.txt`. */
  lemma TrailingSlashLogAccepted(fs: FS, n: string, m: string, o: string)
    requires '/' !in n && IsComponent(n) && '/' !in m && IsComponent(m) && '/' !in o && IsComponent(o)
    requires n != o
    requires "/" + n in fs.dirs
    requires fs.Exists("/" + o) || MakeDirs(fs, "/" + o).Ok?
    ensures Prepare(fs, "/" + n + "/", "/" + o).Ok?
    ensures ValidateAsWritten(fs, "/" + n + "/", "/" + o, Some("/" + n + "/" + m)).Ok?
    ensures Validate(fs, "/" + n + "/", "/" + o, Some("/" + n + "/" + m)) == Err(LogInsideDirs)
  {
    var scan, dest, log := "/" + n + "/", "/" + o, "/" + n + "/" + m;
    PrepareScanWithSlash(fs, "/" + n, dest);
    ComponentsOfOne(n);
    ComponentsOfOneSlash(n);
    ComponentsOfOne(o);
    ComponentsOfTwo(n, m);
    assert Components(scan) == Components(log)[..1];
    assert Components(dest)[0] != Components(log)[0];
    assert Components(dest)[0] != Components(scan)[0];
    assert |Normalize(scan)| < |scan|;
    LogBelowUnnormalizedScan(fs, scan, dest, log);
  }

  // ---- the script ----

  /** How a run ends: `sys.exit` with a status (leaving behind whatever directory it had created),
      an uncaught exception, or completion. */
  datatype Outcome = Exited(code: int, fs: FS) | Crashed | Completed(fs: FS)

  /** The part of the `__main__` block after `validate_directories`: `prepared` is the file system
      once the destination exists, and `verdict` is the check's result. */
  function Conclude(prepared: FS, dest: string, log: Option<string>, verdict: Result<FS, Rejection>,
                    walk: seq<WalkEntry>, env: Env): (o: Outcome)
    ensures o.Exited? <==> verdict.Err? && !verdict.error.Raises()
    ensures o.Exited? ==> o == Exited(1, prepared)
    ensures o.Completed? ==>
      && verdict.Ok? && prepared.denied == o.fs.denied && prepared.dirs <= o.fs.dirs
      && forall p :: p in prepared.files && !Below(p, dest) && !(LogEnabled(log) && p == log.value) ==>
           p in o.fs.files && o.fs.files[p] == prepared.files[p]
  {
    match verdict
    case Err(e) => if e.Raises() then Crashed else Exited(1, prepared)
    case Ok(_) =>
      match ProcessFiles(prepared, dest, log, walk, env)
      case Err(_) => Crashed
      case Ok(fs2) => Completed(fs2)
  }

  /** The `__main__` block as written: parse, require exiftool, `validate_directories` as written
      (lines 206-212 create the destination before lines 214-223 can reject it), process. `walk`
      is the listing `os.walk` gives of the scan directory. A run that exits leaves every file as
      it was; a completed run leaves every file outside the destination directory, other than the
      log file, as it was. */
  function RunScript(argv: seq<string>, fs: FS, exiftoolInstalled: bool, walk: seq<WalkEntry>, env: Env): (o: Outcome)
    ensures ParseArgs(argv).ShowHelp? ==> o == Exited(ParseArgs(argv).code, fs)
    ensures ParseArgs(argv).Start? && !exiftoolInstalled ==> o == Exited(1, fs)
    ensures o.Exited? ==> o.fs.files == fs.files && o.fs.denied == fs.denied && fs.dirs <= o.fs.dirs
    ensures ParseArgs(argv).Start? && exiftoolInstalled ==>
      var c := ParseArgs(argv);
      var v := ValidateAsWritten(fs, c.scan, c.dest, c.log);
      && (o.Exited? <==> v.Err? && !v.error.Raises())
      && (o.Crashed? <==> (v.Err? && v.error.Raises()) || (v.Ok? && ProcessFiles(v.value, c.dest, c.log, walk, env).Err?))
      && (fs.Exists(c.scan) ==> !o.Exited? || o.fs.Exists(c.dest))
    ensures o.Completed? ==>
      var c := ParseArgs(argv);
      && c.Start? && exiftoolInstalled && ValidateAsWritten(fs, c.scan, c.dest, c.log).Ok?
      && fs.Exists(c.scan) && Normalize(c.scan) != Normalize(c.dest)
      && fs.denied == o.fs.denied && fs.dirs <= o.fs.dirs
      && forall p :: p in fs.files && !Below(p, c.dest) && !(LogEnabled(c.log) && p == c.log.value) ==>
           p in o.fs.files && o.fs.files[p] == fs.files[p]
  {
    match ParseArgs(argv)
    case ShowHelp(code) => Exited(code, fs)
    case Start(scan, dest, log) =>
      if !exiftoolInstalled then Exited(1, fs)
      else
        match Prepare(fs, scan, dest)
        case Err(e) => if e.Raises() then Crashed else Exited(1, fs)
        case Ok(prepared) => Conclude(prepared, dest, log, ValidateAsWritten(fs, scan, dest, log), walk, env)
  }

  /** The `__main__` block with the corrected check: a completed run also had a destination
      outside the scan directory and a log file outside both. */
  function RunScriptCorrected(argv: seq<string>, fs: FS, exiftoolInstalled: bool, walk: seq<WalkEntry>, env: Env): (o: Outcome)
    ensures ParseArgs(argv).ShowHelp? ==> o == Exited(ParseArgs(argv).code, fs)
    ensures ParseArgs(argv).Start? && !exiftoolInstalled ==> o == Exited(1, fs)
    ensures o.Exited? ==> o.fs.files == fs.files && o.fs.denied == fs.denied && fs.dirs <= o.fs.dirs
    ensures ParseArgs(argv).Start? && exiftoolInstalled ==>
      var c := ParseArgs(argv);
      var v := Validate(fs, c.scan, c.dest, c.log);
      && (o.Exited? <==> v.Err? && !v.error.Raises())
      && (fs.Exists(c.scan) ==> !o.Exited? || o.fs.Exists(c.dest))
    ensures o.Completed? ==>
      var c := ParseArgs(argv);
      && c.Start? && exiftoolInstalled
      && fs.Exists(c.scan) && !Within(c.dest, c.scan) && !Within(c.scan, c.dest)
      && (LogEnabled(c.log) ==> !Within(c.log.value, c.scan) && !Within(c.log.value, c.dest))
      && fs.denied == o.fs.denied && fs.dirs <= o.fs.dirs
      && forall p :: p in fs.files && !Below(p, c.dest) && !(LogEnabled(c.log) && p == c.log.value) ==>
           p in o.fs.files && o.fs.files[p] == fs.files[p]
  {
    match ParseArgs(argv)
    case ShowHelp(code) => Exited(code, fs)
    case Start(scan, dest, log) =>
      if !exiftoolInstalled then Exited(1, fs)
      else
        match Prepare(fs, scan, dest)
        case Err(e) => if e.Raises() then Crashed else Exited(1, fs)
        case Ok(prepared) => Conclude(prepared, dest, log, Validate(fs, scan, dest, log), walk, env)
  }

  /** A run whose arguments pass the check as written goes on to process files. */
  lemma AcceptedAsWrittenRuns(argv: seq<string>, fs: FS, walk: seq<WalkEntry>, env: Env)
    requires ParseArgs(argv).Start?
    requires ValidateAsWritten(fs, ParseArgs(argv).scan, ParseArgs(argv).dest, ParseArgs(argv).log).Ok?
    ensures !RunScript(argv, fs, true, walk, env).Exited?
  {
  }

  /** A run whose arguments the corrected check refuses without raising exits with status 1,
      leaving the destination it created. */
  lemma RefusedWhenCorrectedExits(argv: seq<string>, fs: FS, walk: seq<WalkEntry>, env: Env)
    requires ParseArgs(argv).Start?
    requires var c := ParseArgs(argv);
      Validate(fs, c.scan, c.dest, c.log).Err? && !Validate(fs, c.scan, c.dest, c.log).error.Raises()
    requires Prepare(fs, ParseArgs(argv).scan, ParseArgs(argv).dest).Ok?
    ensures RunScriptCorrected(argv, fs, true, walk, env)
            == Exited(1, Prepare(fs, ParseArgs(argv).scan, ParseArgs(argv).dest).value)
  {
  }

  /** A run whose destination is nested in its scan directory goes ahead as written and exits with
      status 1 under the corrected check, leaving the destination it created behind. */
  lemma NestedDestinationRuns(argv: seq<string>, fs: FS, n: string, m: string, walk: seq<WalkEntry>, env: Env)
    requires '/' !in n && IsComponent(n) && '/' !in m && IsComponent(m)
    requires ParseArgs(argv) == Start("/" + n, "/" + n + "/" + m, None)
    requires Prepare(fs, "/" + n, "/" + n + "/" + m).Ok?
    ensures !RunScript(argv, fs, true, walk, env).Exited?
    ensures RunScriptCorrected(argv, fs, true, walk, env) == Exited(1, Prepare(fs, "/" + n, "/" + n + "/" + m).value)
  {
    NestedDestinationAccepted(fs, n, m);
  }

  /** With a trailing slash on an existing scan directory, a run whose log file is inside it goes
      ahead as written; the corrected check refuses it (`TrailingSlashLogAccepted`). */
  lemma TrailingSlashLogRuns(argv: seq<string>, fs: FS, n: string, m: string, o: string,
                             walk: seq<WalkEntry>, env: Env)
    requires '/' !in n && IsComponent(n) && '/' !in m && IsComponent(m) && '/' !in o && IsComponent(o)
    requires n != o
    requires ParseArgs(argv) == Start("/" + n + "/", "/" + o, Some("/" + n + "/" + m))
    requires "/" + n in fs.dirs
    requires fs.Exists("/" + o) || MakeDirs(fs, "/" + o).Ok?
    ensures !RunScript(argv, fs, true, walk, env).Exited?
  {
    TrailingSlashLogAccepted(fs, n, m, o);
    AcceptedAsWrittenRuns(argv, fs, walk, env);
  }
}

=== FILE: filescan.dfy ===
/** `MetadataScanner` of scan_for_metadata/diffusion_scanner.py: which paths `get_files` returns,
    `get_file`, and `scan`. The directory walk (`os.walk`) and listing (`os.listdir`) are given. */
module FileScan {
  import opened Results
  import opened Text
  import opened Seqs
  import opened Paths
  import opened FileSystem
  import opened Metadata

  /** One `(root, dirs, files)` triple produced by `os.walk`, without the sub-directory names. */
  datatype WalkEntry = WalkEntry(root: string, files: seq<string>)

  /** `exclude_paths and any(root.startswith(p) for p in exclude_paths)`. */
  predicate Excluded(root: string, exclude: Option<seq<string>>) {
    exclude.Some? && exists i :: 0 <= i < |exclude.value| && StartsWith(root, exclude.value[i])
  }

  /** `[os.path.join(root, f) for f in names if f.endswith(ext)]`. */
  function Matching(root: string, names: seq<string>, ext: string): (r: seq<string>)
    ensures forall x :: x in r <==> exists f :: f in names && EndsWith(f, ext) && x == Join(root, f)
  {
    if |names| == 0 then []
    else
      var rest := Matching(root, names[1..], ext);
      assert forall f :: f in names <==> f == names[0] || f in names[1..];
      (if EndsWith(names[0], ext) then [Join(root, names[0])] else []) + rest
  }

  /** The walk loop for one extension, skipping excluded roots. */
  function WalkMatches(walk: seq<WalkEntry>, ext: string, exclude: Option<seq<string>>): (r: seq<string>)
    ensures forall x :: x in r <==>
      exists w, f :: w in walk && !Excluded(w.root, exclude) && f in w.files && EndsWith(f, ext) && x == Join(w.root, f)
  {
    if |walk| == 0 then []
    else
      var here := if Excluded(walk[0].root, exclude) then [] else Matching(walk[0].root, walk[0].files, ext);
      assert forall w :: w in walk <==> w == walk[0] || w in walk[1..];
      here + WalkMatches(walk[1..], ext, exclude)
  }

  /** The candidates for one extension, from the walk or from the flat listing. */
  function ForExtension(directory: string, ext: string, recursive: bool, exclude: Option<seq<string>>,
                        walk: seq<WalkEntry>, listing: seq<string>): seq<string> {
    if recursive then WalkMatches(walk, ext, exclude) else Matching(directory, listing, ext)
  }

  /** The outer loop over the comma-separated extensions. */
  function Collect(exts: seq<string>, directory: string, recursive: bool, exclude: Option<seq<string>>,
                   walk: seq<WalkEntry>, listing: seq<string>): seq<string> {
    if |exts| == 0 then []
    else ForExtension(directory, exts[0], recursive, exclude, walk, listing)
         + Collect(exts[1..], directory, recursive, exclude, walk, listing)
  }

  function NotIgnored(ignore: set<string>): string -> bool {
    f => f !in ignore
  }

  /** `get_files`. An empty ignore set is falsy and filters nothing, as does `None`. */
  function GetFiles(directory: string, extensions: string, ignore: Option<set<string>>, recursive: bool,
                    exclude: Option<seq<string>>, walk: seq<WalkEntry>, listing: seq<string>): seq<string> {
    var files := Collect(Split(extensions, ','), directory, recursive, exclude, walk, listing);
    if ignore.Some? && ignore.value != {} then Filter(files, NotIgnored(ignore.value)) else files
  }

  /** Where a path returned for extension `ext` comes from. */
  ghost predicate FoundFor(x: string, ext: string, directory: string, recursive: bool,
                           exclude: Option<seq<string>>, walk: seq<WalkEntry>, listing: seq<string>) {
    if recursive then
      exists w, f :: w in walk && !Excluded(w.root, exclude) && f in w.files && EndsWith(f, ext) && x == Join(w.root, f)
    else
      exists f :: f in listing && EndsWith(f, ext) && x == Join(directory, f)
  }

  ghost predicate Selected(x: string, directory: string, extensions: string, ignore: Option<set<string>>,
                           recursive: bool, exclude: Option<seq<string>>, walk: seq<WalkEntry>, listing: seq<string>) {
    && (ignore.None? || x !in ignore.value)
    && exists ext :: ext in Split(extensions, ',') && FoundFor(x, ext, directory, recursive, exclude, walk, listing)
  }

  lemma ForExtensionMember(x: string, ext: string, directory: string, recursive: bool,
                            exclude: Option<seq<string>>, walk: seq<WalkEntry>, listing: seq<string>)
    ensures x in ForExtension(directory, ext, recursive, exclude, walk, listing)
            <==> FoundFor(x, ext, directory, recursive, exclude, walk, listing)
  {
  }

  lemma {:induction false} CollectMember(x: string, exts: seq<string>, directory: string, recursive: bool,
                                         exclude: Option<seq<string>>, walk: seq<WalkEntry>, listing: seq<string>)
    ensures x in Collect(exts, directory, recursive, exclude, walk, listing) <==>
      exists ext :: ext in exts && FoundFor(x, ext, directory, recursive, exclude, walk, listing)
    decreases |exts|
  {
    if |exts| > 0 {
      CollectMember(x, exts[1..], directory, recursive, exclude, walk, listing);
      ForExtensionMember(x, exts[0], directory, recursive, exclude, walk, listing);
      assert forall e :: e in exts <==> e == exts[0] || e in exts[1..];
      if exists ext :: ext in exts && FoundFor(x, ext, directory, recursive, exclude, walk, listing) {
        var ext :| ext in exts && FoundFor(x, ext, directory, recursive, exclude, walk, listing);
        if ext != exts[0] {
          assert ext in exts[1..];
        }
      }
    }
  }

  /** A path is returned exactly when it is not ignored and some listed file under a root that
      is not excluded ends, case-sensitively, with one of the comma-separated extensions. */
  lemma GetFilesMembership(x: string, directory: string, extensions: string, ignore: Option<set<string>>,
                           recursive: bool, exclude: Option<seq<string>>, walk: seq<WalkEntry>, listing: seq<string>)
    ensures x in GetFiles(directory, extensions, ignore, recursive, exclude, walk, listing)
            <==> Selected(x, directory, extensions, ignore, recursive, exclude, walk, listing)
  {
    var exts := Split(extensions, ',');
    var files := Collect(exts, directory, recursive, exclude, walk, listing);
    CollectMember(x, exts, directory, recursive, exclude, walk, listing);
    if ignore.Some? && ignore.value != {} {
      var r := Filter(files, NotIgnored(ignore.value));
      if x in r {
        var i :| 0 <= i < |r| && r[i] == x;
      }
      if x in files && x !in ignore.value {
        var i :| 0 <= i < |files| && files[i] == x;
      }
    }
  }

  /** Every returned path ends with one of the extensions, since `join` keeps the file name last. */
  lemma GetFilesEndWithExtension(x: string, directory: string, extensions: string, ignore: Option<set<string>>,
                                 recursive: bool, exclude: Option<seq<string>>, walk: seq<WalkEntry>, listing: seq<string>)
    requires x in GetFiles(directory, extensions, ignore, recursive, exclude, walk, listing)
    ensures exists ext :: ext in Split(extensions, ',') && EndsWith(x, ext)
  {
    GetFilesMembership(x, directory, extensions, ignore, recursive, exclude, walk, listing);
    var ext :| ext in Split(extensions, ',') && FoundFor(x, ext, directory, recursive, exclude, walk, listing);
    var f: string;
    if recursive {
      var w, f' :| w in walk && !Excluded(w.root, exclude) && f' in w.files && EndsWith(f', ext) && x == Join(w.root, f');
      f := f';
    } else {
      var f' :| f' in listing && EndsWith(f', ext) && x == Join(directory, f');
      f := f';
    }
    assert x[|x| - |f|..][|f| - |ext|..] == x[|x| - |ext|..];
  }

  lemma {:induction false} SplitCons(first: string, rest: string, sep: char)
    requires sep !in first
    ensures Split(first + [sep] + rest, sep) == [first] + Split(rest, sep)
  {
    var s := first + [sep] + rest;
    assert s[|first|] == sep && s[..|first|] == first;
    IndexOfUnique(s, sep, |first|);
    assert s[|first| + 1..] == rest;
  }

  /** Results are grouped by extension in the order given: the files for "a,rest" are those for
      "a" followed by those for "rest". */
  lemma GetFilesGroupedByExtension(first: string, rest: string, directory: string, ignore: Option<set<string>>,
                                   recursive: bool, exclude: Option<seq<string>>, walk: seq<WalkEntry>, listing: seq<string>)
    requires ',' !in first
    ensures GetFiles(directory, first + "," + rest, ignore, recursive, exclude, walk, listing)
         == GetFiles(directory, first, ignore, recursive, exclude, walk, listing)
          + GetFiles(directory, rest, ignore, recursive, exclude, walk, listing)
  {
    SplitCons(first, rest, ',');
    assert Split(first, ',') == [first];
    var a := ForExtension(directory, first, recursive, exclude, walk, listing);
    var b := Collect(Split(rest, ','), directory, recursive, exclude, walk, listing);
    assert Collect([first], directory, recursive, exclude, walk, listing) == a;
    assert ([first] + Split(rest, ','))[1..] == Split(rest, ',');
    if ignore.Some? && ignore.value != {} {
      FilterConcat(a, b, NotIgnored(ignore.value));
    }
  }

  /** `get_file`: the first path `get_files` returns, or `None`. */
  function GetFile(directory: string, extensions: string, ignore: Option<set<string>>, recursive: bool,
                   exclude: Option<seq<string>>, walk: seq<WalkEntry>, listing: seq<string>): Option<string> {
    var files := GetFiles(directory, extensions, ignore, recursive, exclude, walk, listing);
    if |files| > 0 then Some(files[0]) else None
  }

  /** `get_file` returns a selected path, and `None` only when no path is selected. */
  lemma GetFileSelected(directory: string, extensions: string, ignore: Option<set<string>>, recursive: bool,
                        exclude: Option<seq<string>>, walk: seq<WalkEntry>, listing: seq<string>)
    ensures var r := GetFile(directory, extensions, ignore, recursive, exclude, walk, listing);
      && (r.Some? ==> Selected(r.value, directory, extensions, ignore, recursive, exclude, walk, listing))
      && (r.None? ==> forall x :: !Selected(x, directory, extensions, ignore, recursive, exclude, walk, listing))
  {
    var files := GetFiles(directory, extensions, ignore, recursive, exclude, walk, listing);
    if |files| > 0 {
      GetFilesMembership(files[0], directory, extensions, ignore, recursive, exclude, walk, listing);
    } else {
      forall x
        ensures !Selected(x, directory, extensions, ignore, recursive, exclude, walk, listing)
      {
        GetFilesMembership(x, directory, extensions, ignore, recursive, exclude, walk, listing);
      }
    }
  }

  function Readable(fs: FS): string -> bool {
    p => p in fs.files
  }

  /** `scan`: one record per file whose `read_metadata` did not raise, in input order. */
  function Scan(fs: FS, files: seq<string>, dec: Decoder): (r: seq<FileParameters>)
    ensures var kept := Filter(files, Readable(fs));
      && |r| == |kept|
      && forall i :: 0 <= i < |r| ==> kept[i] in fs.files && r[i] == Parse(kept[i], fs.files[kept[i]], dec)
  {
    if |files| == 0 then []
    else
      var rest := Scan(fs, files[1..], dec);
      match ReadMetadata(fs, files[0], dec)
      case Err(_) => rest
      case Ok(p) => [p] + rest
  }
}

=== FILE: filesystem.dfy ===
/** An abstract file system: the directories that exist, the bytes of every file, and the
    paths the process may not write. Reads, writes, removals and `makedirs` are pure
    transitions that either give the next state or the `OSError` they raise. */
module FileSystem {
  import opened Results
  import opened Text
  import opened Paths

  newtype byte = x: int | 0 <= x < 256

  type Bytes = seq<byte>

  datatype FS = FS(dirs: set<string>, files: map<string, Bytes>, denied: set<string>) {
    /** `os.path.exists(p)`: a file, or a directory under any of its spellings with trailing
        slashes. The empty path does not exist. */
    predicate Exists(p: string) {
      p in files || (p != "" && DirIn(dirs, p))
    }

    /** Opening `p` for writing succeeds. */
    predicate Writable(p: string) {
      WritableIn(dirs, denied, p)
    }
  }

  /** The directory `open` looks the last component of `p` up in exists. The last component is
      dropped one character at a time; what remains ends in `/` (or is empty, for the current
      directory) and is then looked up by `DirIn`. */
  predicate ParentIn(dirs: set<string>, p: string) {
    ParentBefore(dirs, p, |p|)
  }

  /** `ParentIn` of the first `k` characters of `p`. */
  predicate ParentBefore(dirs: set<string>, p: string, k: nat)
    requires k <= |p|
    decreases k
  {
    if k == 0 then true
    else if p[k - 1] != '/' then ParentBefore(dirs, p, k - 1)
    else DirIn(dirs, p[..k])
  }

  /** `d` names an existing directory: it is one of `dirs` written with or without some of its
      trailing slashes (every spelling names one directory), or it is all slashes (the root) or
      empty (the current directory). */
  predicate DirIn(dirs: set<string>, d: string)
    decreases |d|
  {
    if d in dirs || |d| == 0 then true
    else d[|d| - 1] == '/' && DirIn(dirs, d[..|d| - 1])
  }

  /** A path not ending in `/` exists exactly when it is a directory or a file. */
  lemma ExistsPlainName(fs: FS, p: string)
    requires |p| > 0 && p[|p| - 1] != '/'
    ensures fs.Exists(p) <==> p in fs.dirs || p in fs.files
  {
  }

  /** An existing directory also exists spelled with a trailing slash, as `os.path.exists("/data/")`
      does for a directory `/data`. */
  lemma {:induction false} ExistsWithSlash(fs: FS, d: string)
    requires d in fs.dirs
    ensures fs.Exists(d + "/")
  {
    assert (d + "/")[..|d + "/"| - 1] == d;
  }

  /** With directories `dirs` and denied paths `denied`, opening `p` for writing succeeds: its
      last component is a name (so `p` does not end in `/`), its directory exists, and `p` is
      neither a directory nor a denied path. */
  predicate WritableIn(dirs: set<string>, denied: set<string>, p: string) {
    |p| > 0 && p[|p| - 1] != '/' && ParentIn(dirs, p) && p !in dirs && p !in denied
  }

  datatype IoError =
    | FileNotFound(path: string)
    | IsADirectory(path: string)
    | PermissionDenied(path: string)
    | FileExists(path: string)

  /** `open(p, 'rb').read()`. */
  function ReadFile(fs: FS, p: string): (r: Result<Bytes, IoError>)
    ensures r.Ok? <==> p in fs.files
    ensures r.Ok? ==> r.value == fs.files[p]
  {
    if p in fs.files then Ok(fs.files[p])
    else if p in fs.dirs then Err(IsADirectory(p))
    else Err(FileNotFound(p))
  }

  /** The `OSError` that `open(p, 'wb')` or `open(p, 'a')` raises when `p` is not writable: a
      name ending in `/` or naming a directory, a denied path, and otherwise a missing directory. */
  function OpenError(fs: FS, p: string): IoError {
    if p == "" then FileNotFound(p)
    else if p in fs.dirs || p[|p| - 1] == '/' then IsADirectory(p)
    else if p in fs.denied then PermissionDenied(p)
    else FileNotFound(p)
  }

  /** Dropping a last component without `/` leaves the directory part unchanged. */
  lemma {:induction false} ParentInSkipsName(dirs: set<string>, q: string, n: string)
    requires '/' !in n
    ensures ParentIn(dirs, q + n) == ParentIn(dirs, q)
  {
    ParentBeforeSkipsName(dirs, q, n, |n|);
    ParentBeforePrefix(dirs, q, n, |q|);
  }

  lemma {:induction false} ParentBeforeSkipsName(dirs: set<string>, q: string, n: string, k: nat)
    requires '/' !in n && k <= |n|
    ensures ParentBefore(dirs, q + n, |q| + k) == ParentBefore(dirs, q + n, |q|)
    decreases k
  {
    if k > 0 {
      assert (q + n)[|q| + k - 1] == n[k - 1];
      ParentBeforeSkipsName(dirs, q, n, k - 1);
    }
  }

  /** `ParentBefore` looks only at the characters before `k`. */
  lemma {:induction false} ParentBeforePrefix(dirs: set<string>, q: string, n: string, k: nat)
    requires k <= |q|
    ensures ParentBefore(dirs, q + n, k) == ParentBefore(dirs, q, k)
    decreases k
  {
    if k > 0 {
      assert (q + n)[k - 1] == q[k - 1];
      assert (q + n)[..k] == q[..k];
      ParentBeforePrefix(dirs, q, n, k - 1);
    }
  }

  /** A path ending in `/` is looked up as a directory itself. */
  lemma ParentInOfDir(dirs: set<string>, q: string)
    requires |q| > 0 && q[|q| - 1] == '/'
    ensures ParentIn(dirs, q) == DirIn(dirs, q)
  {
    assert q[..|q|] == q;
  }

  /** A name joined to an existing directory can be opened for writing unless it is itself a
      directory or a denied path. */
  lemma WritableInDir(fs: FS, d: string, n: string)
    requires d in fs.dirs && n != "" && '/' !in n
    ensures fs.Writable(Join(d, n)) <==> Join(d, n) !in fs.dirs && Join(d, n) !in fs.denied
  {
    assert n[0] != '/';
    var p := Join(d, n);
    assert p[|p| - 1] == n[|n| - 1];
    if |d| == 0 {
      ParentInSkipsName(fs.dirs, "", n);
      assert "" + n == n;
    } else if d[|d| - 1] == '/' {
      ParentInSkipsName(fs.dirs, d, n);
      ParentInOfDir(fs.dirs, d);
    } else {
      ParentInSkipsName(fs.dirs, d + "/", n);
      ParentInOfDir(fs.dirs, d + "/");
      assert (d + "/")[..|d|] == d;
      assert DirIn(fs.dirs, d + "/");
    }
  }

  /** A path ending in `/` cannot be opened for writing. */
  lemma TrailingSlashNotWritable(fs: FS, p: string)
    requires |p| > 0 && p[|p| - 1] == '/'
    ensures !fs.Writable(p)
  {
  }

  /** A name inside a sub-directory that exists under neither spelling cannot be opened for
      writing. */
  lemma MissingDirNotWritable(fs: FS, d: string, n: string)
    requires d != "" && d[|d| - 1] != '/' && d !in fs.dirs && d + "/" !in fs.dirs && '/' !in n
    ensures !fs.Writable(d + "/" + n)
  {
    ParentInSkipsName(fs.dirs, d + "/", n);
    ParentInOfDir(fs.dirs, d + "/");
    assert (d + "/")[..|d|] == d;
    assert !DirIn(fs.dirs, d);
    assert !DirIn(fs.dirs, d + "/");
  }

  /** `open(p, 'wb').write(b)`: replaces or creates the file. */
  function WriteFile(fs: FS, p: string, b: Bytes): (r: Result<FS, IoError>)
    ensures r.Ok? <==> fs.Writable(p)
    ensures r.Ok? ==> r.value == fs.(files := fs.files[p := b])
  {
    if fs.Writable(p) then Ok(fs.(files := fs.files[p := b])) else Err(OpenError(fs, p))
  }

  /** `open(p, 'a').write(b)`: extends the file, creating it when absent. */
  function AppendFile(fs: FS, p: string, b: Bytes): (r: Result<FS, IoError>)
    ensures r.Ok? <==> fs.Writable(p)
    ensures r.Ok? ==> p in r.value.files && r.value.files[p] == (if p in fs.files then fs.files[p] else []) + b
    ensures r.Ok? ==> r.value.dirs == fs.dirs && r.value.files.Keys == fs.files.Keys + {p}
  {
    if fs.Writable(p) then Ok(fs.(files := fs.files[p := (if p in fs.files then fs.files[p] else []) + b]))
    else Err(OpenError(fs, p))
  }

  /** `os.remove(p)`. */
  function RemoveFile(fs: FS, p: string): (r: Result<FS, IoError>)
    ensures r.Ok? <==> p in fs.files && p !in fs.dirs
    ensures r.Ok? ==> r.value == fs.(files := fs.files - {p})
  {
    if p in fs.dirs then Err(IsADirectory(p))
    else if p !in fs.files then Err(FileNotFound(p))
    else Ok(fs.(files := fs.files - {p}))
  }

  /** The directories `os.makedirs(p)` has to create: `p` and its ancestors, less those that
      already exist. */
  function NewDirs(fs: FS, p: string): set<string> {
    (Ancestors(p) + {p}) - fs.dirs
  }

  /** `os.makedirs(p, exist_ok=True)`: creates `p` and its missing ancestors, and raises when `p`
      is empty or one of them is an existing file or a path the process may not write. */
  function MakeDirs(fs: FS, p: string): (r: Result<FS, IoError>)
    ensures r.Ok? <==> p != "" && NewDirs(fs, p) !! fs.files.Keys && NewDirs(fs, p) !! fs.denied
    ensures p in fs.files && p !in fs.dirs ==> r.Err?
    ensures p in fs.denied && p !in fs.dirs ==> r.Err?
    ensures r.Ok? ==> p in r.value.dirs && r.value.files == fs.files && r.value.denied == fs.denied
    ensures r.Ok? ==> r.value.dirs == fs.dirs + Ancestors(p) + {p}
  {
    var made := NewDirs(fs, p);
    if p == "" then Err(FileNotFound(p))
    else if !(made !! fs.files.Keys) then Err(FileExists(p))
    else if !(made !! fs.denied) then Err(PermissionDenied(p))
    else Ok(fs.(dirs := fs.dirs + Ancestors(p) + {p}))
  }

  /** Calling `makedirs` a second time changes nothing. */
  lemma MakeDirsIdempotent(fs: FS, p: string)
    requires MakeDirs(fs, p).Ok?
    ensures MakeDirs(MakeDirs(fs, p).value, p) == MakeDirs(fs, p)
  {
    var fs1 := MakeDirs(fs, p).value;
    assert NewDirs(fs1, p) == {};
    assert fs1.dirs + Ancestors(p) + {p} == fs1.dirs;
  }
}

=== FILE: metadata.dfy ===
/** `ImageGenerationMetadata` of scan_for_metadata/diffusion_scanner.py: file-type detection from
    magic bytes, the fields each reader fills, and the "has generation metadata" verdict.
    What PIL decodes from the bytes (PNG text chunks, the EXIF table, UTF-8 decoding) is given
    as a `Decoder`. */
module Metadata {
  import opened Results
  import opened Text
  import opened FileSystem

  datatype FileType = PNG | JPEG | WebP | Other

  const HEADER_LENGTH: nat := 12
  const PNG_MAGIC: Bytes := [0x89, 0x50, 0x4E, 0x47]     // "\x89PNG"
  const JPEG_MAGIC: Bytes := [0xFF, 0xD8, 0xFF]
  const RIFF_MAGIC: Bytes := [0x52, 0x49, 0x46, 0x46]    // "RIFF"
  const WEBP_TAG: Bytes := [0x57, 0x45, 0x42, 0x50]      // "WEBP"

  /** Python slicing `s[i:j]`, which clamps out-of-range bounds. */
  function Slice(s: Bytes, i: nat, j: nat): Bytes {
    var hi := if j <= |s| then j else |s|;
    var lo := if i <= hi then i else hi;
    s[lo..hi]
  }

  predicate HasPrefix(s: Bytes, prefix: Bytes) {
    |prefix| <= |s| && s[..|prefix|] == prefix
  }

  /** `f.read(12)`. */
  function Header(content: Bytes): Bytes {
    Slice(content, 0, HEADER_LENGTH)
  }

  predicate IsWebP(content: Bytes) {
    |content| >= 12 && content[..4] == RIFF_MAGIC && content[8..12] == WEBP_TAG
  }

  /** The tests on the 12-byte header agree with the same tests on the whole file, and the three
      magic numbers exclude each other. */
  lemma HeaderTests(content: Bytes)
    ensures HasPrefix(Header(content), PNG_MAGIC) <==> HasPrefix(content, PNG_MAGIC)
    ensures HasPrefix(Header(content), JPEG_MAGIC) <==> HasPrefix(content, JPEG_MAGIC)
    ensures (Slice(Header(content), 0, 4) == RIFF_MAGIC && Slice(Header(content), 8, 12) == WEBP_TAG) <==> IsWebP(content)
    ensures HasPrefix(content, PNG_MAGIC) ==> !HasPrefix(content, JPEG_MAGIC) && !IsWebP(content)
    ensures HasPrefix(content, JPEG_MAGIC) ==> !IsWebP(content)
  {
    var header := Header(content);
    assert |content| >= 4 ==> header[..4] == content[..4];
    assert |content| >= 3 ==> header[..3] == content[..3];
    assert |content| >= 12 ==> header[8..12] == content[8..12];
    assert HasPrefix(content, PNG_MAGIC) ==> content[..4][0] == 0x89;
    assert HasPrefix(content, JPEG_MAGIC) ==> content[..3][0] == 0xFF;
    assert IsWebP(content) ==> content[..4][0] == 0x52 && content[..3][0] == 0x52;
    assert Slice(header, 0, 4) == RIFF_MAGIC ==> |content| >= 4 && header[..4] == content[..4];
    assert Slice(header, 8, 12) == WEBP_TAG ==> |content| >= 12;
  }

  /** `get_file_type`: the type is decided from the 12-byte header alone. A header too short
      for a magic number does not match it, so short files are `Other`. */
  function FileTypeOf(content: Bytes): (t: FileType)
    ensures t == PNG <==> HasPrefix(content, PNG_MAGIC)
    ensures t == JPEG <==> HasPrefix(content, JPEG_MAGIC)
    ensures t == WebP <==> IsWebP(content)
    ensures |content| < 3 ==> t == Other
  {
    var header := Header(content);
    HeaderTests(content);
    if HasPrefix(header, PNG_MAGIC) then PNG
    else if HasPrefix(header, JPEG_MAGIC) then JPEG
    else if Slice(header, 0, 4) == RIFF_MAGIC && Slice(header, 8, 12) == WEBP_TAG then WebP
    else Other
  }

  /** Two files whose first 12 bytes agree have the same type. */
  lemma FileTypeDependsOnHeaderOnly(a: Bytes, b: Bytes)
    requires Header(a) == Header(b)
    ensures FileTypeOf(a) == FileTypeOf(b)
  {
    assert |a| >= 4 ==> a[..4] == Header(a)[..4];
    assert |b| >= 4 ==> b[..4] == Header(b)[..4];
    assert |a| >= 3 ==> a[..3] == Header(a)[..3];
    assert |b| >= 3 ==> b[..3] == Header(b)[..3];
    assert |a| >= 12 ==> a[8..12] == Header(a)[8..12];
    assert |b| >= 12 ==> b[8..12] == Header(b)[8..12];
  }

  /** `FileParameters`: every field but `path` starts out as `None`. */
  datatype FileParameters = FileParameters(
    path: string,
    prompt: Option<string>,
    negativePrompt: Option<string>,
    steps: Option<int>,
    sampler: Option<string>,
    cfgScale: Option<real>,
    seed: Option<int>,
    width: Option<int>,
    height: Option<int>,
    modelHash: Option<string>,
    model: Option<string>,
    batchSize: Option<int>,
    batchPos: Option<int>,
    otherParameters: Option<string>,
    parameters: Option<string>,
    aestheticScore: Option<real>,
    hyperNetwork: Option<string>,
    hyperNetworkStrength: Option<real>,
    clipSkip: Option<int>,
    ensd: Option<int>,
    promptStrength: Option<real>,
    fileSize: Option<int>,
    noMetadata: bool)

  function Blank(path: string): FileParameters {
    FileParameters(path, None, None, None, None, None, None, None, None, None, None, None, None,
                   None, None, None, None, None, None, None, None, None, false)
  }

  /** A PNG text-chunk value as PIL returns it: text, or raw bytes the reader decodes. */
  datatype InfoValue = Text(text: string) | Raw(raw: Bytes)

  /** An EXIF value: bytes, or anything else (which has no `.decode`). */
  datatype ExifValue = ExifBytes(bytes: Bytes) | NotBytes

  /** What the image library makes of a file's bytes. `pngInfo` is `None` when `Image.open`
      raises or the image is not a PNG image; `exif` is `None` when opening or `_getexif()`
      raises or there is no EXIF block; `utf8` is `bytes.decode('utf-8', errors='replace')`. */
  datatype Decoder = Decoder(
    pngInfo: Bytes -> Option<seq<(string, InfoValue)>>,
    exif: Bytes -> Option<seq<(int, ExifValue)>>,
    utf8: Bytes -> string)

  /** The EXIF tag number `PIL.ExifTags.TAGS` names "UserComment". */
  const USER_COMMENT_TAG: int := 0x9286

  function TextOf(v: InfoValue, utf8: Bytes -> string): string {
    match v
    case Text(s) => s
    case Raw(b) => utf8(b)
  }

  predicate IsParametersKey(key: string) {
    Lower(key) in ["parameters", "prompt", "workflow"]
  }

  /** The loop of `_read_png_metadata` over `image.info.items()`, carrying `parameters`. */
  function PngParameters(acc: Option<string>, info: seq<(string, InfoValue)>, utf8: Bytes -> string): Option<string>
    decreases |info|
  {
    if |info| == 0 then acc
    else
      var next := if IsParametersKey(info[0].0) then Some(TextOf(info[0].1, utf8)) else acc;
      PngParameters(next, info[1..], utf8)
  }

  ghost predicate IsLastParametersKey(info: seq<(string, InfoValue)>, i: int) {
    && 0 <= i < |info|
    && IsParametersKey(info[i].0)
    && forall j :: i < j < |info| ==> !IsParametersKey(info[j].0)
  }

  /** With no key named parameters/prompt/workflow, the carried value is kept. */
  lemma {:induction false} PngNoKeyKeeps(acc: Option<string>, info: seq<(string, InfoValue)>, utf8: Bytes -> string)
    requires forall j :: 0 <= j < |info| ==> !IsParametersKey(info[j].0)
    ensures PngParameters(acc, info, utf8) == acc
    decreases |info|
  {
    if |info| > 0 {
      assert !IsParametersKey(info[0].0);
      forall j | 0 <= j < |info[1..]|
        ensures !IsParametersKey(info[1..][j].0)
      {
        assert info[1..][j] == info[j + 1];
      }
      PngNoKeyKeeps(acc, info[1..], utf8);
    }
  }

  /** The value at the last key named parameters/prompt/workflow is the result. */
  lemma {:induction false} PngLastKeyAt(acc: Option<string>, info: seq<(string, InfoValue)>, utf8: Bytes -> string, i: int)
    requires IsLastParametersKey(info, i)
    ensures PngParameters(acc, info, utf8) == Some(TextOf(info[i].1, utf8))
    decreases |info|
  {
    var next := if IsParametersKey(info[0].0) then Some(TextOf(info[0].1, utf8)) else acc;
    if i > 0 {
      assert IsLastParametersKey(info[1..], i - 1) by {
        forall j | i - 1 < j < |info[1..]|
          ensures !IsParametersKey(info[1..][j].0)
        {
          assert info[1..][j] == info[j + 1];
        }
      }
      PngLastKeyAt(next, info[1..], utf8, i - 1);
    } else {
      PngNoKeyKeeps(next, info[1..], utf8);
    }
  }

  /** The value of the last key named parameters/prompt/workflow (any case) wins; with no such
      key the carried value is kept. */
  lemma PngLastKeyWins(acc: Option<string>, info: seq<(string, InfoValue)>, utf8: Bytes -> string)
    ensures (forall j :: 0 <= j < |info| ==> !IsParametersKey(info[j].0)) ==> PngParameters(acc, info, utf8) == acc
    ensures forall i :: IsLastParametersKey(info, i) ==> PngParameters(acc, info, utf8) == Some(TextOf(info[i].1, utf8))
  {
    if forall j :: 0 <= j < |info| ==> !IsParametersKey(info[j].0) {
      PngNoKeyKeeps(acc, info, utf8);
    }
    forall i | IsLastParametersKey(info, i)
      ensures PngParameters(acc, info, utf8) == Some(TextOf(info[i].1, utf8))
    {
      PngLastKeyAt(acc, info, utf8, i);
    }
  }

  /** `_read_png_metadata`: only `parameters` is ever set. */
  function ReadPng(path: string, info: Option<seq<(string, InfoValue)>>, utf8: Bytes -> string): FileParameters {
    match info
    case None => Blank(path)
    case Some(items) => Blank(path).(parameters := PngParameters(None, items, utf8))
  }

  /** The loop of `_read_jpeg_metadata` over the EXIF items, carrying `prompt`. A UserComment
      value that is not bytes raises inside the `try`, which ends the loop and keeps the
      prompt found so far. */
  function JpegPrompt(acc: Option<string>, exif: seq<(int, ExifValue)>, utf8: Bytes -> string): Option<string>
    decreases |exif|
  {
    if |exif| == 0 then acc
    else if exif[0].0 != USER_COMMENT_TAG then JpegPrompt(acc, exif[1..], utf8)
    else match exif[0].1
      case ExifBytes(b) => JpegPrompt(Some(utf8(b)), exif[1..], utf8)
      case NotBytes => acc
  }

  /** The prompt is unset or the decoding of some UserComment value, and unset when there is none. */
  lemma {:induction false} JpegPromptFromUserComment(exif: seq<(int, ExifValue)>, utf8: Bytes -> string)
    ensures var r := JpegPrompt(None, exif, utf8);
      r.Some? ==> exists i :: 0 <= i < |exif| && exif[i].0 == USER_COMMENT_TAG && exif[i].1.ExifBytes?
                             && r.value == utf8(exif[i].1.bytes)
    ensures (forall i :: 0 <= i < |exif| ==> exif[i].0 != USER_COMMENT_TAG) ==> JpegPrompt(None, exif, utf8).None?
  {
    JpegPromptCarry(None, exif, utf8);
  }

  lemma {:induction false} JpegPromptCarry(acc: Option<string>, exif: seq<(int, ExifValue)>, utf8: Bytes -> string)
    ensures var r := JpegPrompt(acc, exif, utf8);
      r == acc || exists i :: 0 <= i < |exif| && exif[i].0 == USER_COMMENT_TAG && exif[i].1.ExifBytes?
                              && r == Some(utf8(exif[i].1.bytes))
    ensures (forall i :: 0 <= i < |exif| ==> exif[i].0 != USER_COMMENT_TAG) ==> JpegPrompt(acc, exif, utf8) == acc
    decreases |exif|
  {
    if |exif| > 0 {
      var r := JpegPrompt(acc, exif, utf8);
      if exif[0].0 != USER_COMMENT_TAG {
        JpegPromptCarry(acc, exif[1..], utf8);
        if r != acc {
          var i :| 0 <= i < |exif[1..]| && exif[1..][i].0 == USER_COMMENT_TAG && exif[1..][i].1.ExifBytes?
                   && r == Some(utf8(exif[1..][i].1.bytes));
          assert exif[i + 1] == exif[1..][i];
        }
      } else if exif[0].1.ExifBytes? {
        var next := Some(utf8(exif[0].1.bytes));
        JpegPromptCarry(next, exif[1..], utf8);
        if r != next {
          var i :| 0 <= i < |exif[1..]| && exif[1..][i].0 == USER_COMMENT_TAG && exif[1..][i].1.ExifBytes?
                   && r == Some(utf8(exif[1..][i].1.bytes));
          assert exif[i + 1] == exif[1..][i];
        }
      }
    }
  }

  /** The UserComment that decides the prompt: bytes-valued, with no UserComment after it and no
      non-bytes UserComment (which would end the loop) before it. */
  ghost predicate IsDecisiveComment(exif: seq<(int, ExifValue)>, i: int) {
    && 0 <= i < |exif|
    && exif[i].0 == USER_COMMENT_TAG && exif[i].1.ExifBytes?
    && (forall j :: 0 <= j < i && exif[j].0 == USER_COMMENT_TAG ==> exif[j].1.ExifBytes?)
    && (forall j :: i < j < |exif| ==> exif[j].0 != USER_COMMENT_TAG)
  }

  /** The prompt is the decoding of the decisive UserComment, whatever was carried before. */
  lemma {:induction false} JpegLastCommentWins(acc: Option<string>, exif: seq<(int, ExifValue)>, utf8: Bytes -> string)
    ensures forall i :: IsDecisiveComment(exif, i) ==> JpegPrompt(acc, exif, utf8) == Some(utf8(exif[i].1.bytes))
    decreases |exif|
  {
    if |exif| > 0 {
      if exif[0].0 != USER_COMMENT_TAG {
        JpegLastCommentWins(acc, exif[1..], utf8);
        forall i | IsDecisiveComment(exif, i)
          ensures JpegPrompt(acc, exif, utf8) == Some(utf8(exif[i].1.bytes))
        {
          assert IsDecisiveComment(exif[1..], i - 1);
        }
      } else if exif[0].1.ExifBytes? {
        var next := Some(utf8(exif[0].1.bytes));
        JpegLastCommentWins(next, exif[1..], utf8);
        JpegPromptCarry(next, exif[1..], utf8);
        forall i | IsDecisiveComment(exif, i)
          ensures JpegPrompt(acc, exif, utf8) == Some(utf8(exif[i].1.bytes))
        {
          if i > 0 {
            assert IsDecisiveComment(exif[1..], i - 1);
          } else {
            assert forall j :: 0 <= j < |exif[1..]| ==> exif[1..][j].0 != USER_COMMENT_TAG;
          }
        }
      }
    }
  }

  /** A UserComment that is not bytes ends the loop: later items no longer matter. */
  lemma {:induction false} JpegStopsAtNonBytes(acc: Option<string>, exif: seq<(int, ExifValue)>, utf8: Bytes -> string, k: nat)
    requires k < |exif| && exif[k].0 == USER_COMMENT_TAG && exif[k].1.NotBytes?
    ensures JpegPrompt(acc, exif, utf8) == JpegPrompt(acc, exif[..k], utf8)
    decreases k
  {
    if k > 0 {
      assert exif[..k][0] == exif[0] && exif[..k][1..] == exif[1..][..k - 1];
      if exif[0].0 != USER_COMMENT_TAG {
        JpegStopsAtNonBytes(acc, exif[1..], utf8, k - 1);
      } else if exif[0].1.ExifBytes? {
        JpegStopsAtNonBytes(Some(utf8(exif[0].1.bytes)), exif[1..], utf8, k - 1);
      }
    }
  }

  /** `_read_jpeg_metadata`: only `prompt` is ever set. */
  function ReadJpeg(path: string, exif: Option<seq<(int, ExifValue)>>, utf8: Bytes -> string): FileParameters {
    match exif
    case None => Blank(path)
    case Some(items) => Blank(path).(prompt := JpegPrompt(None, items, utf8))
  }

  /** `read_metadata` once the file's bytes are in hand: dispatch on the type, then record the size. */
  function Parse(path: string, content: Bytes, dec: Decoder): (p: FileParameters)
    ensures p.path == path && p.fileSize == Some(|content|)
    ensures p == Blank(path).(prompt := p.prompt, parameters := p.parameters, fileSize := p.fileSize)
    ensures FileTypeOf(content) != PNG ==> p.parameters.None?
    ensures FileTypeOf(content) != JPEG ==> p.prompt.None?
  {
    var base :=
      match FileTypeOf(content)
      case PNG => ReadPng(path, dec.pngInfo(content), dec.utf8)
      case JPEG => ReadJpeg(path, dec.exif(content), dec.utf8)
      case _ => Blank(path);
    base.(fileSize := Some(|content|))
  }

  /** `read_metadata(path)`: raises when the file cannot be opened. */
  function ReadMetadata(fs: FS, path: string, dec: Decoder): (r: Result<FileParameters, IoError>)
    ensures r.Ok? <==> path in fs.files
    ensures r.Ok? ==> r.value == Parse(path, fs.files[path], dec)
  {
    match ReadFile(fs, path)
    case Err(e) => Err(e)
    case Ok(content) => Ok(Parse(path, content, dec))
  }

  // ---- Python truthiness of optional fields ----

  predicate TruthyText(v: Option<string>) {
    v.Some? && v.value != ""
  }

  predicate TruthyInt(v: Option<int>) {
    v.Some? && v.value != 0
  }

  predicate TruthyReal(v: Option<real>) {
    v.Some? && v.value != 0.0
  }

  /** The `any([...])` of `contains_image_generation_metadata` over its ten fields. */
  predicate HasMetadata(p: FileParameters) {
    || TruthyText(p.prompt)
    || TruthyText(p.negativePrompt)
    || TruthyText(p.sampler)
    || TruthyInt(p.seed)
    || TruthyReal(p.cfgScale)
    || TruthyText(p.model)
    || TruthyText(p.modelHash)
    || TruthyInt(p.width)
    || TruthyInt(p.height)
    || TruthyText(p.parameters)
  }

  /** Fields outside the ten (steps, batch size, file size, path, ...) never affect the verdict. */
  lemma HasMetadataIgnoresOtherFields(p: FileParameters, q: FileParameters)
    requires p.prompt == q.prompt && p.negativePrompt == q.negativePrompt && p.sampler == q.sampler
    requires p.seed == q.seed && p.cfgScale == q.cfgScale && p.model == q.model
    requires p.modelHash == q.modelHash && p.width == q.width && p.height == q.height
    requires p.parameters == q.parameters
    ensures HasMetadata(p) == HasMetadata(q)
  {
  }

  /** `contains_image_generation_metadata(path)`: any exception gives `False`. */
  function ContainsMetadata(fs: FS, path: string, dec: Decoder): bool {
    match ReadMetadata(fs, path, dec)
    case Err(_) => false
    case Ok(p) => HasMetadata(p)
  }

  /** The verdict the classifier reaches on a file holding `content`. */
  function Classify(dec: Decoder, content: Bytes): bool {
    HasMetadata(Parse("", content, dec))
  }

  /** The verdict depends only on the file's bytes: it is the classifier's verdict on the
      content, and `False` when the file cannot be read. */
  lemma ContainsMetadataReadsContent(fs: FS, path: string, dec: Decoder)
    ensures ContainsMetadata(fs, path, dec) == (path in fs.files && Classify(dec, fs.files[path]))
  {
    if path in fs.files {
      HasMetadataIgnoresOtherFields(Parse(path, fs.files[path], dec), Parse("", fs.files[path], dec));
    }
  }

  /** A file has generation metadata exactly when it is a PNG whose last parameters/prompt/workflow
      text is non-empty, or a JPEG whose decoded UserComment is non-empty. WebP and other files
      never do. */
  lemma ClassifyCharacterization(dec: Decoder, content: Bytes)
    ensures Classify(dec, content) <==>
      || (FileTypeOf(content) == PNG && dec.pngInfo(content).Some?
          && TruthyText(PngParameters(None, dec.pngInfo(content).value, dec.utf8)))
      || (FileTypeOf(content) == JPEG && dec.exif(content).Some?
          && TruthyText(JpegPrompt(None, dec.exif(content).value, dec.utf8)))
    ensures FileTypeOf(content) in {WebP, Other} ==> !Classify(dec, content)
  {
  }
}

=== FILE: orchestrator.dfy ===
/** The driver of find_extract_IGMD.py: copying loose images, dispatching walked files to their
    handlers, logging files without generation metadata through exiftool, and `process_files`,
    which runs one task per handled file (and one log task per file when logging is on). The
    tasks, gathered concurrently in the tool, run here one after another in list order. */
module Orchestrator {
  import opened Results
  import opened Text
  import opened Seqs
  import opened Paths
  import opened FileSystem
  import opened Metadata
  import opened FileScan
  import opened Archive

  // ---- process_image ----

  /** `os.path.join(dest_dir, os.path.basename(file_path))`. */
  function CopyPath(dest: string, path: string): string {
    Join(dest, Basename(path))
  }

  /** The bytes the copy ends up holding. The destination is opened (and truncated) before the
      source is read, and the bytes are written through that open handle, so copying a file onto
      itself reads it back empty. */
  function CopiedBytes(fs: FS, dest: string, path: string): Bytes
    requires path in fs.files
  {
    if CopyPath(dest, path) == path then [] else fs.files[path]
  }

  /** Lines 30-33: open `out` for writing (truncating it), then read `path` and write its bytes
      through the open handle. Reading happens after the truncation, so a copy onto itself
      writes nothing back. */
  function CopyThroughHandle(fs: FS, path: string, out: string): (r: Result<FS, IoError>)
    ensures r.Ok? <==> fs.Writable(out) && (path in fs.files || path == out)
    ensures r.Ok? ==> r.value == fs.(files := fs.files[out := if path == out then [] else fs.files[path]])
  {
    match WriteFile(fs, out, [])
    case Err(e) => Err(e)
    case Ok(fs1) =>
      match ReadFile(fs1, path)
      case Err(e) => Err(e)
      case Ok(content) => Ok(fs1.(files := fs1.files[out := content]))
  }

  /** `process_image(file_path, dest_dir, scanner)`: `read_metadata` runs first and raises for a
      file that cannot be read; the copy happens, and `True` is returned, exactly when the
      classifier accepts the file's bytes. */
  function ProcessImage(fs: FS, path: string, dest: string, dec: Decoder): (r: Result<(FS, bool), IoError>)
    ensures path !in fs.files ==> r.Err?
    ensures r.Ok? <==> path in fs.files && (Classify(dec, fs.files[path]) ==> fs.Writable(CopyPath(dest, path)))
    ensures r.Ok? ==>
      && r.value.1 == Classify(dec, fs.files[path])
      && r.value.0 == (if r.value.1 then fs.(files := fs.files[CopyPath(dest, path) := CopiedBytes(fs, dest, path)]) else fs)
  {
    ContainsMetadataReadsContent(fs, path, dec);
    match ReadMetadata(fs, path, dec)
    case Err(e) => Err(e)
    case Ok(_) =>
      if !ContainsMetadata(fs, path, dec) then Ok((fs, false))
      else
        match CopyThroughHandle(fs, path, CopyPath(dest, path))
        case Err(e) => Err(e)
        case Ok(fs1) => Ok((fs1, true))
  }

  /** Loose images are copied into `dest` itself, so into its tree. */
  lemma CopyPathUnder(dest: string, path: string)
    ensures Below(CopyPath(dest, path), dest)
  {
    if |Basename(path)| > 0 {
      assert Basename(path)[0] != '/';
    }
    JoinUnder(dest, Basename(path));
  }

  /** An image task changes no file outside the destination's tree and no directory. */
  lemma ProcessImageWritesUnder(fs: FS, path: string, dest: string, dec: Decoder)
    requires ProcessImage(fs, path, dest, dec).Ok?
    ensures var fs' := ProcessImage(fs, path, dest, dec).value.0;
      && fs'.dirs == fs.dirs && fs'.denied == fs.denied
      && forall p :: p in fs.files && !Below(p, dest) ==> p in fs'.files && fs'.files[p] == fs.files[p]
  {
    CopyPathUnder(dest, path);
  }

  /** A copy into another path is byte-for-byte. */
  lemma ImageCopyIsExact(fs: FS, path: string, dest: string, dec: Decoder)
    requires ProcessImage(fs, path, dest, dec).Ok? && ProcessImage(fs, path, dest, dec).value.1
    requires CopyPath(dest, path) != path
    ensures var fs' := ProcessImage(fs, path, dest, dec).value.0;
      CopyPath(dest, path) in fs'.files && fs'.files[CopyPath(dest, path)] == fs.files[path]
  {
  }

  /** When the destination is the file's own directory, an accepted image is emptied. */
  lemma ImageSelfCopyEmpties(fs: FS, path: string, dest: string, dec: Decoder)
    requires ProcessImage(fs, path, dest, dec).Ok? && ProcessImage(fs, path, dest, dec).value.1
    requires CopyPath(dest, path) == path
    ensures ProcessImage(fs, path, dest, dec).value.0.files[path] == []
  {
  }

  // ---- log_non_igmd_files ----

  const NEWLINE: Bytes := [10]

  /** The log's bytes before an append: empty for a log that does not exist yet. */
  function Prior(fs: FS, p: string): Bytes {
    if p in fs.files then fs.files[p] else []
  }

  /** `exiftool -FileName -Parameters ... file_path`: its standard output when it exits with
      status 0, `None` otherwise. */
  type ExifTool = string -> Option<Bytes>

  /** `log_non_igmd_files`: a file the classifier rejects gets exiftool's output and a newline
      appended to the log, when exiftool succeeds; anything else leaves the file system alone. */
  function LogNonMetadata(fs: FS, path: string, logFile: string, dec: Decoder, exiftool: ExifTool): (r: Result<FS, IoError>)
    ensures var logs := !(path in fs.files && Classify(dec, fs.files[path])) && exiftool(path).Some?;
      && (!logs ==> r == Ok(fs))
      && (logs ==> (r.Ok? <==> fs.Writable(logFile)))
      && (logs && r.Ok? ==>
            r.value == fs.(files := fs.files[logFile := Prior(fs, logFile) + exiftool(path).value + NEWLINE]))
  {
    ContainsMetadataReadsContent(fs, path, dec);
    if ContainsMetadata(fs, path, dec) then Ok(fs)
    else
      match exiftool(path)
      case None => Ok(fs)
      case Some(out) =>
        match AppendFile(fs, logFile, out)
        case Err(e) => Err(e)
        case Ok(fs1) =>
          match AppendFile(fs1, logFile, NEWLINE)
          case Err(e) => Err(e)
          case Ok(fs2) =>
            assert Prior(fs, logFile) + out + NEWLINE == fs2.files[logFile];
            Ok(fs2)
  }

  /** A log file in a directory that does not exist cannot be opened for appending, so a file
      that should be logged makes the log task raise. */
  lemma LogInMissingDirectoryRaises(fs: FS, path: string, d: string, n: string, dec: Decoder, exiftool: ExifTool)
    requires !(path in fs.files && Classify(dec, fs.files[path])) && exiftool(path).Some?
    requires d != "" && d[|d| - 1] != '/' && d !in fs.dirs && d + "/" !in fs.dirs && '/' !in n
    ensures LogNonMetadata(fs, path, d + "/" + n, dec, exiftool).Err?
  {
    MissingDirNotWritable(fs, d, n);
  }

  // ---- dispatch ----

  /** `file.lower().split('.')[-1]`: the text after the last dot, or the whole name without one. */
  function Extension(file: string): (e: string)
    ensures '.' !in e
  {
    LastPiece(Lower(file), '.')
  }

  datatype Handler = ImageHandler | ArchiveHandler | NoHandler

  const IMAGE_EXTENSIONS: seq<string> := ["jpg", "jpeg", "png", "webp"]
  const ARCHIVE_EXTENSIONS: seq<string> := ["cbz", "cbr"]

  function HandlerFor(file: string): Handler {
    var ext := Extension(file);
    if ext in IMAGE_EXTENSIONS then ImageHandler
    else if ext in ARCHIVE_EXTENSIONS then ArchiveHandler
    else NoHandler
  }

  /** A dotted name's extension is its last dotted part, lowered. */
  lemma ExtensionOfDotted(stem: string, ext: string)
    requires '.' !in ext
    ensures Extension(stem + "." + ext) == Lower(ext)
  {
    LowerConcat(stem + ".", ext);
    LowerConcat(stem, ".");
    assert '.' !in Lower(ext);
    LastPieceAfterSeparator(Lower(stem + "."), Lower(ext), '.');
  }

  /** A path ending in a component named `cbz` does not end in `.cbz` or `.cbr`. */
  lemma BareNameHasNoArchiveSuffix(root: string)
    ensures !EndsWith(Lower(Join(root, "cbz")), ".cbz") && !EndsWith(Lower(Join(root, "cbz")), ".cbr")
  {
    var x := Join(root, "cbz");
    var l := Lower(x);
    if |x| >= 4 {
      assert x[|x| - 4] == '/';
      assert l[|x| - 4] == '/';
      assert l[|x| - 4..][0] == '/';
    }
  }

  /** A name without a dot is its own extension, so a file called just `cbz` is dispatched to
      the archive handler. */
  lemma BareArchiveNameDispatch()
    ensures HandlerFor("cbz") == ArchiveHandler
  {
    LastPieceAfterSeparator([], "cbz", '.');
    assert Lower("cbz") == "cbz";
    assert Extension("cbz") == "cbz";
    assert "cbz" !in IMAGE_EXTENSIONS;
  }

  /** The archive handler's own extension test fails on such a path, so `ValueError` escapes. */
  lemma BareArchiveNameFails(fs: FS, root: string, dest: string, codec: Codec, dec: Decoder)
    requires Join(root, "cbz") in fs.files
    ensures ProcessArchive(fs, Join(root, "cbz"), dest, codec, dec) == Err(UnsupportedArchive(Join(root, "cbz")))
  {
    BareNameHasNoArchiveSuffix(root);
  }

  // ---- planning ----

  datatype Task =
    | ImageTask(path: string)
    | ArchiveTask(path: string)
    | LogTask(path: string, logFile: string)

  predicate IsLogTask(t: Task) {
    t.LogTask?
  }

  /** `if log_non_igmd:` — a log path given and non-empty. */
  predicate LogEnabled(log: Option<string>) {
    log.Some? && log.value != ""
  }

  /** The tasks one walked file contributes: its handler's task, then a log task when logging. */
  function FileTasks(root: string, file: string, log: Option<string>): (r: seq<Task>)
    ensures forall t :: t in r <==>
      || (t == ImageTask(Join(root, file)) && HandlerFor(file) == ImageHandler)
      || (t == ArchiveTask(Join(root, file)) && HandlerFor(file) == ArchiveHandler)
      || (LogEnabled(log) && t == LogTask(Join(root, file), log.value))
    ensures |Filter(r, IsLogTask)| == if LogEnabled(log) then 1 else 0
  {
    var p := Join(root, file);
    var handled := match HandlerFor(file)
      case ImageHandler => [ImageTask(p)]
      case ArchiveHandler => [ArchiveTask(p)]
      case NoHandler => [];
    var logged := if LogEnabled(log) then [LogTask(p, log.value)] else [];
    FilterConcat(handled, logged, IsLogTask);
    handled + logged
  }

  function DirTasks(root: string, files: seq<string>, log: Option<string>): seq<Task>
    decreases |files|
  {
    if |files| == 0 then [] else FileTasks(root, files[0], log) + DirTasks(root, files[1..], log)
  }

  /** The task list `process_files` gathers for an `os.walk` listing. */
  function PlanTasks(walk: seq<WalkEntry>, log: Option<string>): seq<Task>
    decreases |walk|
  {
    if |walk| == 0 then [] else DirTasks(walk[0].root, walk[0].files, log) + PlanTasks(walk[1..], log)
  }

  function FileCount(walk: seq<WalkEntry>): nat
    decreases |walk|
  {
    if |walk| == 0 then 0 else |walk[0].files| + FileCount(walk[1..])
  }

  /** Every task comes from one walked file, and every walked file contributes its tasks. */
  lemma {:induction false} DirTasksMembership(root: string, files: seq<string>, log: Option<string>, t: Task)
    ensures t in DirTasks(root, files, log) <==> exists j :: 0 <= j < |files| && t in FileTasks(root, files[j], log)
    decreases |files|
  {
    if |files| > 0 {
      DirTasksMembership(root, files[1..], log, t);
      if t in DirTasks(root, files[1..], log) {
        var j :| 0 <= j < |files| - 1 && t in FileTasks(root, files[1..][j], log);
        assert t in FileTasks(root, files[j + 1], log);
      }
      if exists j :: 0 <= j < |files| && t in FileTasks(root, files[j], log) {
        var j :| 0 <= j < |files| && t in FileTasks(root, files[j], log);
        if j > 0 {
          assert t in FileTasks(root, files[1..][j - 1], log);
        }
      }
    }
  }

  lemma {:induction false} PlanTasksMembership(walk: seq<WalkEntry>, log: Option<string>, t: Task)
    ensures t in PlanTasks(walk, log) <==>
      exists i, j :: 0 <= i < |walk| && 0 <= j < |walk[i].files| && t in FileTasks(walk[i].root, walk[i].files[j], log)
    decreases |walk|
  {
    if |walk| > 0 {
      PlanTasksMembership(walk[1..], log, t);
      DirTasksMembership(walk[0].root, walk[0].files, log, t);
      if t in PlanTasks(walk[1..], log) {
        var i, j :| 0 <= i < |walk| - 1 && 0 <= j < |walk[1..][i].files| && t in FileTasks(walk[1..][i].root, walk[1..][i].files[j], log);
        assert walk[1..][i] == walk[i + 1];
      }
      if exists i, j :: 0 <= i < |walk| && 0 <= j < |walk[i].files| && t in FileTasks(walk[i].root, walk[i].files[j], log) {
        var i, j :| 0 <= i < |walk| && 0 <= j < |walk[i].files| && t in FileTasks(walk[i].root, walk[i].files[j], log);
        if i > 0 {
          assert walk[1..][i - 1] == walk[i];
        }
      }
    }
  }

  /** With logging on there is exactly one log task per walked file; with it off there is none. */
  lemma {:induction false} DirTasksLogCount(root: string, files: seq<string>, log: Option<string>)
    ensures |Filter(DirTasks(root, files, log), IsLogTask)| == if LogEnabled(log) then |files| else 0
    decreases |files|
  {
    if |files| > 0 {
      DirTasksLogCount(root, files[1..], log);
      FilterConcat(FileTasks(root, files[0], log), DirTasks(root, files[1..], log), IsLogTask);
    }
  }

  lemma {:induction false} PlanTasksLogCount(walk: seq<WalkEntry>, log: Option<string>)
    ensures |Filter(PlanTasks(walk, log), IsLogTask)| == if LogEnabled(log) then FileCount(walk) else 0
    decreases |walk|
  {
    if |walk| > 0 {
      PlanTasksLogCount(walk[1..], log);
      DirTasksLogCount(walk[0].root, walk[0].files, log);
      FilterConcat(DirTasks(walk[0].root, walk[0].files, log), PlanTasks(walk[1..], log), IsLogTask);
    }
  }

  // ---- running ----

  /** Everything outside the program: the archive codec, the image decoders and exiftool. */
  datatype Env = Env(codec: Codec, dec: Decoder, exiftool: ExifTool)

  /** `p` is not the log file of any task. */
  predicate NotLogTarget(p: string, tasks: seq<Task>) {
    forall i :: 0 <= i < |tasks| && tasks[i].LogTask? ==> tasks[i].logFile != p
  }

  lemma NotLogTargetTail(tasks: seq<Task>)
    requires |tasks| > 0
    ensures forall p :: NotLogTarget(p, tasks) ==> NotLogTarget(p, tasks[1..])
  {
    forall p | NotLogTarget(p, tasks) ensures NotLogTarget(p, tasks[1..]) {
      forall i | 0 <= i < |tasks| - 1 && tasks[1..][i].LogTask? ensures tasks[1..][i].logFile != p {
        assert tasks[1..][i] == tasks[i + 1];
      }
    }
  }

  /** Every log task of a plan writes to the configured log, so only that file is a log target. */
  lemma PlanTasksLogTargets(walk: seq<WalkEntry>, log: Option<string>)
    ensures forall p :: !(LogEnabled(log) && p == log.value) ==> NotLogTarget(p, PlanTasks(walk, log))
  {
    var tasks := PlanTasks(walk, log);
    forall i | 0 <= i < |tasks| && tasks[i].LogTask?
      ensures LogEnabled(log) && tasks[i].logFile == log.value
    {
      PlanTasksMembership(walk, log, tasks[i]);
    }
  }

  /** One task. Every task leaves the denied paths alone, removes no directory, and changes no
      file outside `dest`'s tree other than its own log file. */
  function RunTask(fs: FS, t: Task, dest: string, env: Env): (r: Result<FS, Fault>)
    ensures r.Ok? ==> r.value.denied == fs.denied && fs.dirs <= r.value.dirs
    ensures r.Ok? ==> forall p :: p in fs.files && !Below(p, dest) && (t.LogTask? ==> p != t.logFile) ==>
      p in r.value.files && r.value.files[p] == fs.files[p]
  {
    match t
    case ImageTask(path) =>
      (match ProcessImage(fs, path, dest, env.dec)
       case Err(e) => Err(Io(e))
       case Ok((fs1, _)) =>
         ProcessImageWritesUnder(fs, path, dest, env.dec);
         Ok(fs1))
    case ArchiveTask(path) =>
      (match ProcessArchive(fs, path, dest, env.codec, env.dec)
       case Err(f) => Err(f)
       case Ok(run) =>
         ProcessArchiveWritesUnder(fs, path, dest, env.codec, env.dec);
         Ok(run.fs))
    case LogTask(path, logFile) =>
      (match LogNonMetadata(fs, path, logFile, env.dec, env.exiftool)
       case Err(e) => Err(Io(e))
       case Ok(fs1) => Ok(fs1))
  }

  /** `asyncio.gather(*tasks)`, in list order; the first escaping exception ends the run. */
  function RunTasks(fs: FS, tasks: seq<Task>, dest: string, env: Env): (r: Result<FS, Fault>)
    ensures r.Ok? ==> r.value.denied == fs.denied && fs.dirs <= r.value.dirs
    ensures r.Ok? ==> forall p :: p in fs.files && !Below(p, dest) && NotLogTarget(p, tasks) ==>
      p in r.value.files && r.value.files[p] == fs.files[p]
    decreases |tasks|
  {
    if |tasks| == 0 then Ok(fs)
    else
      match RunTask(fs, tasks[0], dest, env)
      case Err(f) => Err(f)
      case Ok(fs1) =>
        NotLogTargetTail(tasks);
        RunTasks(fs1, tasks[1..], dest, env)
  }

  /** `process_files(scan_dir, dest_dir, log_non_igmd)` over the listing `os.walk(scan_dir)`
      produced. A run that completes keeps every file outside the destination directory, except
      the log file, byte-for-byte, and removes no directory. */
  function ProcessFiles(fs: FS, dest: string, log: Option<string>, walk: seq<WalkEntry>, env: Env): (r: Result<FS, Fault>)
    ensures r.Ok? ==> r.value.denied == fs.denied && fs.dirs <= r.value.dirs
    ensures r.Ok? ==> forall p :: p in fs.files && !Below(p, dest) && !(LogEnabled(log) && p == log.value) ==>
      p in r.value.files && r.value.files[p] == fs.files[p]
  {
    PlanTasksLogTargets(walk, log);
    RunTasks(fs, PlanTasks(walk, log), dest, env)
  }
}

=== FILE: paths.dfy ===
/** The parts of Python's `posixpath` the tool relies on, on `/`-separated strings. */
module Paths {
  import opened Results
  import opened Text
  import opened Seqs

  predicate IsAbs(p: string) {
    StartsWith(p, "/")
  }

  /** `os.path.join(a, b)`: an absolute `b` replaces `a`; otherwise one `/` separates them. */
  function Join(a: string, b: string): (r: string)
    ensures EndsWith(r, b)
  {
    if IsAbs(b) then b
    else if |a| == 0 || a[|a| - 1] == '/' then a + b
    else a + "/" + b
  }

  /** `p` names something inside directory `d`: it starts with `d` and a separating `/`, which
      is `os.path.join(d, "")`. A sibling such as `/out2` is not inside `/out`. */
  predicate Below(p: string, d: string) {
    StartsWith(p, Join(d, ""))
  }

  /** Joining a relative name keeps the directory as a prefix, and puts the result inside it. */
  lemma JoinUnder(a: string, b: string)
    requires !IsAbs(b)
    ensures StartsWith(Join(a, b), a) && Below(Join(a, b), a)
  {
    if |a| == 0 || a[|a| - 1] == '/' {
      assert (a + b)[..|a|] == a;
    } else {
      assert (a + "/" + b)[..|a|] == a;
      assert (a + "/" + b)[..|a| + 1] == a + "/";
    }
  }

  /** Whatever starts with a path inside `d` is inside `d`. */
  lemma BelowTransitive(p: string, q: string, d: string)
    requires StartsWith(p, q) && Below(q, d)
    ensures Below(p, d)
  {
    StartsWithTransitive(p, q, Join(d, ""));
  }

  /** The directories `os.makedirs(p)` creates on the way to `p`: each prefix of `p` that ends
      just before a `/`. */
  function Ancestors(p: string): (r: set<string>)
    ensures forall a :: a in r ==> |a| < |p|
  {
    set i | 0 < i < |p| && p[i] == '/' :: p[..i]
  }

  /** `os.path.basename(p)`: the text after the last `/`. */
  function Basename(p: string): (r: string)
    ensures '/' !in r
  {
    LastPiece(p, '/')
  }

  /** Joining a name without `/` and taking the base name gives the name back. */
  lemma BasenameOfJoin(d: string, n: string)
    requires '/' !in n
    ensures Basename(Join(d, n)) == n
  {
    assert !IsAbs(n) by {
      if |n| > 0 {
        assert n[0] != '/';
      }
    }
    if |d| == 0 || d[|d| - 1] == '/' {
      LastPieceAfterSeparator(d, n, '/');
    } else {
      assert d + "/" + n == (d + "/") + n;
      LastPieceAfterSeparator(d + "/", n, '/');
    }
  }

  /** Two names without `/` joined to the same directory give the same path only if they are equal. */
  lemma JoinInjective(d: string, a: string, b: string)
    requires '/' !in a && '/' !in b
    requires Join(d, a) == Join(d, b)
    ensures a == b
  {
    BasenameOfJoin(d, a);
    BasenameOfJoin(d, b);
  }

  /** `os.path.splitext(p)`: splits at the last dot of the final component, unless every character
      before that dot in the component is itself a dot (so ".bashrc" has no extension). */
  function Splitext(p: string): (r: (string, string))
    ensures r.0 + r.1 == p
    ensures r.1 == "" || (r.1[0] == '.' && '.' !in r.1[1..] && '/' !in r.1)
  {
    var s := AfterLast(p, '/');
    var d := AfterLast(p, '.');
    if d > s && exists k :: s <= k < d - 1 && p[k] != '.' then
      assert p[d - 1..][1..] == p[d..];
      assert p[d - 1..] == p[s..][d - 1 - s..];
      (p[..d - 1], p[d - 1..])
    else (p, "")
  }

  /** A name whose final component has a non-dot character before a last dot-free, slash-free
      suffix `.e` splits into the name and `.e`. */
  lemma SplitextOfDotted(s: string, e: string)
    requires '.' !in e && '/' !in e
    requires exists k :: 0 <= k < |s| && s[k] != '.' && '/' !in s[k..]
    ensures Splitext(s + "." + e) == (s, "." + e)
  {
    var p := s + "." + e;
    var k :| 0 <= k < |s| && s[k] != '.' && '/' !in s[k..];
    assert p[..|s|] == s && p[|s|..] == "." + e && p[|s| + 1..] == e;
    assert p[k..] == s[k..] + "." + e;
    AfterLastAt(p, '.', |s|);
    AfterLastAtMost(p, '/', k);
  }

  /** A path without a dot has no extension. */
  lemma SplitextWithoutDot(p: string)
    requires '.' !in p
    ensures Splitext(p) == (p, "")
  {
    AfterLastAtMost(p, '.', 0);
  }

  // ---- os.path.commonpath ----

  predicate IsComponent(c: string) {
    c != "" && c != "."
  }

  /** The components `commonpath` compares: empty and "." pieces are dropped. */
  function Components(p: string): seq<string> {
    Filter(Split(p, '/'), IsComponent)
  }

  function CommonPrefix(a: seq<string>, b: seq<string>): (c: seq<string>)
    ensures |c| <= |a| && |c| <= |b|
    ensures c == a[..|c|] && c == b[..|c|]
    ensures |c| == |a| || |c| == |b| || a[|c|] != b[|c|]
  {
    if |a| == 0 || |b| == 0 || a[0] != b[0] then []
    else [a[0]] + CommonPrefix(a[1..], b[1..])
  }

  function CommonOfAll(parts: seq<seq<string>>): seq<string>
    requires |parts| >= 1
  {
    if |parts| == 1 then parts[0] else CommonPrefix(parts[0], CommonOfAll(parts[1..]))
  }

  datatype PathError = EmptySequence | MixedAbsoluteAndRelative

  /** `os.path.commonpath(paths)`: the longest common component prefix, with a leading `/`
      when the paths are absolute; raises on an empty list or on a mix of absolute and
      relative paths. */
  function CommonPath(paths: seq<string>): Result<string, PathError> {
    if |paths| == 0 then Err(EmptySequence)
    else if exists i :: 0 <= i < |paths| && IsAbs(paths[i]) != IsAbs(paths[0]) then Err(MixedAbsoluteAndRelative)
    else
      var common := CommonOfAll(seq(|paths|, i requires 0 <= i < |paths| => Components(paths[i])));
      Ok((if IsAbs(paths[0]) then "/" else "") + JoinWith(common, '/'))
  }

  /** The normal form `commonpath([p])` gives a single path. */
  function Normalize(p: string): string {
    (if IsAbs(p) then "/" else "") + JoinWith(Components(p), '/')
  }

  lemma CommonPathSingle(p: string)
    ensures CommonPath([p]) == Ok(Normalize(p))
  {
    assert seq(1, i requires 0 <= i < 1 => Components([p][i])) == [Components(p)];
  }

  predicate IsPrefix(a: seq<string>, b: seq<string>) {
    |a| <= |b| && b[..|a|] == a
  }

  /** `child` is `parent` or lies below it, compared component-wise as `commonpath` does. */
  predicate Within(child: string, parent: string) {
    IsAbs(child) == IsAbs(parent) && IsPrefix(Components(parent), Components(child))
  }

  /** The pieces `Components` keeps: neither empty nor ".", and free of `/`. */
  predicate Clean(cs: seq<string>) {
    forall i :: 0 <= i < |cs| ==> IsComponent(cs[i]) && '/' !in cs[i]
  }

  lemma ComponentsClean(p: string)
    ensures Clean(Components(p))
  {
    var parts := Split(p, '/');
    var cs := Components(p);
    forall i | 0 <= i < |cs|
      ensures IsComponent(cs[i]) && '/' !in cs[i]
    {
      var j :| 0 <= j < |parts| && parts[j] == cs[i];
    }
  }

  /** A join of clean components starts with the first component's first character. */
  lemma JoinCleanHead(cs: seq<string>)
    requires Clean(cs) && |cs| >= 1
    ensures |JoinWith(cs, '/')| > 0 && JoinWith(cs, '/')[0] == cs[0][0]
  {
    assert |cs[0]| > 0;
    if |cs| > 1 {
      assert JoinWith(cs, '/') == cs[0] + ['/'] + JoinWith(cs[1..], '/');
    }
  }

  /** `s.split('/')` at its first separator. */
  lemma SplitAtFirst(s: string, i: nat)
    requires i < |s| && s[i] == '/' && '/' !in s[..i]
    ensures Split(s, '/') == [s[..i]] + Split(s[i + 1..], '/')
  {
    IndexOfUnique(s, '/', i);
  }

  /** Clean component lists are determined by their join. */
  lemma JoinCleanInjective(a: seq<string>, b: seq<string>)
    requires Clean(a) && Clean(b)
    requires JoinWith(a, '/') == JoinWith(b, '/')
    ensures a == b
  {
    if |a| == 0 {
      if |b| > 0 {
        JoinCleanHead(b);
      }
    } else if |b| == 0 {
      JoinCleanHead(a);
    } else {
      SplitJoin(a, '/');
      SplitJoin(b, '/');
    }
  }

  /** A normal form starts with `/` exactly when the path is absolute. */
  lemma NormalizeAbs(p: string)
    ensures (|Normalize(p)| > 0 && Normalize(p)[0] == '/') <==> IsAbs(p)
  {
    ComponentsClean(p);
    if |Components(p)| > 0 {
      JoinCleanHead(Components(p));
    }
    if !IsAbs(p) {
      assert Normalize(p) == JoinWith(Components(p), '/');
    }
  }

  /** Two paths with the same normal form agree on absoluteness and on their components. */
  lemma NormalizeInjective(a: string, b: string)
    requires Normalize(a) == Normalize(b)
    ensures IsAbs(a) == IsAbs(b) && Components(a) == Components(b)
  {
    ComponentsClean(a);
    ComponentsClean(b);
    NormalizeAbs(a);
    NormalizeAbs(b);
    var ja := JoinWith(Components(a), '/');
    var jb := JoinWith(Components(b), '/');
    if IsAbs(a) {
      assert Normalize(a)[1..] == ja && Normalize(b)[1..] == jb;
    } else {
      assert Normalize(a) == ja && Normalize(b) == jb;
    }
    JoinCleanInjective(Components(a), Components(b));
  }

  /** The common prefix with `b` is all of `b` exactly when `b` is a prefix of `a`. */
  lemma CommonPrefixIsAll(a: seq<string>, b: seq<string>)
    ensures CommonPrefix(a, b) == b <==> IsPrefix(b, a)
  {
  }

  /** `commonpath` of two paths of the same kind is their common component prefix. */
  lemma CommonPathOfTwo(a: string, b: string)
    requires IsAbs(a) == IsAbs(b)
    ensures CommonPath([a, b]) ==
      Ok((if IsAbs(b) then "/" else "") + JoinWith(CommonPrefix(Components(a), Components(b)), '/'))
  {
    var ps := [a, b];
    assert forall i :: 0 <= i < |ps| ==> IsAbs(ps[i]) == IsAbs(ps[0]);
    var parts := seq(|ps|, i requires 0 <= i < |ps| => Components(ps[i]));
    assert parts == [Components(a), Components(b)];
    assert parts[1..] == [Components(b)];
    assert CommonOfAll(parts) == CommonPrefix(Components(a), Components(b));
  }

  /** A common prefix of clean component lists is clean. */
  lemma CommonPrefixClean(a: seq<string>, b: seq<string>)
    requires Clean(a)
    ensures Clean(CommonPrefix(a, b))
  {
    var common := CommonPrefix(a, b);
    forall i | 0 <= i < |common| ensures IsComponent(common[i]) && '/' !in common[i] {
      assert common[i] == a[i];
    }
  }

  /** `commonpath([child, parent])` equals the normal form of `parent` exactly when `child` is
      `parent` or lies below it. */
  lemma WithinCommonPath(child: string, parent: string)
    ensures CommonPath([child, parent]).Ok? <==> IsAbs(child) == IsAbs(parent)
    ensures CommonPath([child, parent]) == Ok(Normalize(parent)) <==> Within(child, parent)
  {
    if IsAbs(child) == IsAbs(parent) {
      var cc := Components(child);
      var cp := Components(parent);
      var common := CommonPrefix(cc, cp);
      var pre := if IsAbs(parent) then "/" else "";
      CommonPathOfTwo(child, parent);
      ComponentsClean(child);
      ComponentsClean(parent);
      CommonPrefixClean(cc, cp);
      if JoinWith(common, '/') == JoinWith(cp, '/') {
        JoinCleanInjective(common, cp);
      }
      assert pre + JoinWith(common, '/') == pre + JoinWith(cp, '/') ==> JoinWith(common, '/') == JoinWith(cp, '/') by {
        if pre + JoinWith(common, '/') == pre + JoinWith(cp, '/') {
          assert (pre + JoinWith(common, '/'))[|pre|..] == JoinWith(common, '/');
          assert (pre + JoinWith(cp, '/'))[|pre|..] == JoinWith(cp, '/');
        }
      }
      CommonPrefixIsAll(cc, cp);
    } else {
      assert IsAbs([child, parent][1]) != IsAbs([child, parent][0]);
    }
  }

  /** Splitting after a separator-free first piece. */
  lemma SplitAfter(a: string, b: string)
    requires '/' !in a
    ensures Split(a + "/" + b, '/') == [a] + Split(b, '/')
  {
    var s := a + "/" + b;
    assert s[|a|] == '/' && s[..|a|] == a && s[|a| + 1..] == b;
    SplitAtFirst(s, |a|);
  }

  lemma FilterComponents(parts: seq<string>)
    ensures Filter(parts, IsComponent) == if |parts| == 0 then [] else
      (if IsComponent(parts[0]) then [parts[0]] else []) + Filter(parts[1..], IsComponent)
  {
  }

  lemma FilterComponentsCons(x: string, rest: seq<string>)
    ensures Filter([x] + rest, IsComponent) == (if IsComponent(x) then [x] else []) + Filter(rest, IsComponent)
  {
    FilterComponents([x] + rest);
    assert ([x] + rest)[1..] == rest;
  }

  /** `/n` for a single component `n`. */
  lemma ComponentsOfOne(n: string)
    requires '/' !in n && IsComponent(n)
    ensures Components("/" + n) == [n] && Normalize("/" + n) == "/" + n
  {
    SplitAfter("", n);
    assert "" + "/" + n == "/" + n;
    FilterComponentsCons("", [n]);
    FilterComponentsCons(n, []);
  }

  lemma SlashConcatOne(n: string)
    ensures "" + "/" + (n + "/") == "/" + n + "/" && n + "/" + "" == n + "/"
  {
  }

  /** `/n/` splits at its two slashes, leaving an empty last piece. */
  lemma SplitOfOneSlash(n: string)
    requires '/' !in n
    ensures Split("/" + n + "/", '/') == [""] + ([n] + [""])
  {
    SlashConcatOne(n);
    SplitAfter(n, "");
    assert Split("", '/') == [""];
    SplitAfter("", n + "/");
  }

  /** `/n/` for a single component `n`. */
  lemma ComponentsOfOneSlash(n: string)
    requires '/' !in n && IsComponent(n)
    ensures Components("/" + n + "/") == [n] && Normalize("/" + n + "/") == "/" + n
  {
    SplitOfOneSlash(n);
    FilterComponentsCons("", [n] + [""]);
    FilterComponentsCons(n, [""]);
    FilterComponentsCons("", []);
  }

  lemma SlashConcat(n: string, m: string)
    ensures "" + "/" + (n + "/" + m) == "/" + n + "/" + m
  {
  }

  /** `/n/m` splits at its two slashes. */
  lemma SplitOfTwo(n: string, m: string)
    requires '/' !in n && '/' !in m
    ensures Split("/" + n + "/" + m, '/') == [""] + ([n] + [m])
  {
    SplitAfter(n, m);
    assert Split(m, '/') == [m];
    SplitAfter("", n + "/" + m);
    SlashConcat(n, m);
  }

  /** `/n/m` for components `n` and `m`. */
  lemma ComponentsOfTwo(n: string, m: string)
    requires '/' !in n && IsComponent(n) && '/' !in m && IsComponent(m)
    ensures Components("/" + n + "/" + m) == [n, m]
  {
    SplitOfTwo(n, m);
    FilterComponentsCons("", [n] + [m]);
    FilterComponentsCons(n, [m]);
    FilterComponentsCons(m, []);
  }
}

=== FILE: results.dfy ===
/** Failure-carrying values shared by every module of the model. */
module Results {

  /** An optional value; Python's `None` is `None` here. */
  datatype Option<+T> = None | Some(value: T)

  /** The outcome of a step that can raise: `Err` carries what was raised. */
  datatype Result<+T, +E> = Ok(value: T) | Err(error: E) {
    predicate IsFailure() {
      Err?
    }

    function PropagateFailure<U>(): Result<U, E>
      requires Err?
    {
      Err(error)
    }

    function Extract(): T
      requires Ok?
    {
      value
    }
  }
}

=== FILE: seqs.dfy ===
/** Sequence combinators used by the list comprehensions of the tool. */
module Seqs {

  /** `[x for x in s if p(x)]`. */
  function Filter<T>(s: seq<T>, p: T -> bool): (r: seq<T>)
    ensures |r| <= |s|
    ensures forall i :: 0 <= i < |r| ==> r[i] in s && p(r[i])
    ensures forall i :: 0 <= i < |s| && p(s[i]) ==> s[i] in r
  {
    if |s| == 0 then []
    else (if p(s[0]) then [s[0]] else []) + Filter(s[1..], p)
  }

  lemma {:induction false} FilterConcat<T>(a: seq<T>, b: seq<T>, p: T -> bool)
    ensures Filter(a + b, p) == Filter(a, p) + Filter(b, p)
    decreases |a|
  {
    if |a| > 0 {
      assert (a + b)[1..] == a[1..] + b;
      FilterConcat(a[1..], b, p);
    } else {
      assert a + b == b;
    }
  }

  /** Filtering with a predicate that holds of every element changes nothing. */
  lemma {:induction false} FilterAll<T>(s: seq<T>, p: T -> bool)
    requires forall i :: 0 <= i < |s| ==> p(s[i])
    ensures Filter(s, p) == s
    decreases |s|
  {
    if |s| > 0 {
      FilterAll(s[1..], p);
    }
  }

  /** Concatenation of a sequence of sequences. */
  function Flatten<T>(ss: seq<seq<T>>): seq<T> {
    if |ss| == 0 then [] else ss[0] + Flatten(ss[1..])
  }

  lemma {:induction false} FlattenMember<T>(ss: seq<seq<T>>, x: T)
    ensures x in Flatten(ss) <==> exists i :: 0 <= i < |ss| && x in ss[i]
    decreases |ss|
  {
    if |ss| > 0 {
      FlattenMember(ss[1..], x);
      if x in Flatten(ss[1..]) {
        var i :| 0 <= i < |ss| - 1 && x in ss[1..][i];
        assert x in ss[i + 1];
      }
      if exists i :: 0 <= i < |ss| && x in ss[i] {
        var i :| 0 <= i < |ss| && x in ss[i];
        if i > 0 {
          assert x in ss[1..][i - 1];
        }
      }
    }
  }

  lemma {:induction false} FlattenSnoc<T>(ss: seq<seq<T>>, s: seq<T>)
    ensures Flatten(ss + [s]) == Flatten(ss) + s
    decreases |ss|
  {
    if |ss| == 0 {
      assert ss + [s] == [s];
    } else {
      assert (ss + [s])[1..] == ss[1..] + [s];
      FlattenSnoc(ss[1..], s);
    }
  }

  /** Number of elements of `s` satisfying `p`. */
  function Count<T>(s: seq<T>, p: T -> bool): nat {
    |Filter(s, p)|
  }
}

=== FILE: sorting.dfy ===
/** Python's `sorted(s, key=...)`: a stable sort, modelled as insertion sort. */
module Sorting {
  import opened Seqs

  /** `le` is a total order on keys (reflexivity follows from totality). */
  ghost predicate TotalOrder<K(!new)>(le: (K, K) -> bool) {
    && (forall a, b :: le(a, b) || le(b, a))
    && (forall a, b :: le(a, b) && le(b, a) ==> a == b)
    && (forall a, b, c :: le(a, b) && le(b, c) ==> le(a, c))
  }

  predicate SortedBy<T, K>(s: seq<T>, key: T -> K, le: (K, K) -> bool) {
    forall i, j :: 0 <= i < j < |s| ==> le(key(s[i]), key(s[j]))
  }

  /** Selects the elements whose key is `k`. */
  function HasKey<T, K(==)>(key: T -> K, k: K): T -> bool {
    x => key(x) == k
  }

  /** Inserts `x` in front of the first element it may precede. */
  function Insert<T, K>(x: T, s: seq<T>, key: T -> K, le: (K, K) -> bool): (r: seq<T>)
    ensures multiset(r) == multiset([x] + s)
    ensures |r| == |s| + 1
  {
    if |s| == 0 || le(key(x), key(s[0])) then [x] + s
    else
      assert s == [s[0]] + s[1..];
      [s[0]] + Insert(x, s[1..], key, le)
  }

  function SortBy<T, K>(s: seq<T>, key: T -> K, le: (K, K) -> bool): (r: seq<T>)
    ensures multiset(r) == multiset(s)
    ensures |r| == |s|
  {
    if |s| == 0 then []
    else
      assert s == [s[0]] + s[1..];
      Insert(s[0], SortBy(s[1..], key, le), key, le)
  }

  /** A lower bound of `x` and of every key in `s` bounds every key after the insertion. */
  lemma {:induction false} InsertKeepsLowerBound<T, K>(x: T, s: seq<T>, key: T -> K, le: (K, K) -> bool, k0: K)
    requires le(k0, key(x))
    requires forall m :: 0 <= m < |s| ==> le(k0, key(s[m]))
    ensures forall m :: 0 <= m < |Insert(x, s, key, le)| ==> le(k0, key(Insert(x, s, key, le)[m]))
    decreases |s|
  {
    if |s| > 0 && !le(key(x), key(s[0])) {
      forall m | 0 <= m < |s[1..]|
        ensures le(k0, key(s[1..][m]))
      {
        assert s[1..][m] == s[m + 1];
      }
      InsertKeepsLowerBound(x, s[1..], key, le, k0);
    }
  }

  lemma {:induction false} InsertSorted<T, K(!new)>(x: T, s: seq<T>, key: T -> K, le: (K, K) -> bool)
    requires TotalOrder(le)
    requires SortedBy(s, key, le)
    ensures SortedBy(Insert(x, s, key, le), key, le)
    decreases |s|
  {
    if |s| == 0 || le(key(x), key(s[0])) {
      var r := [x] + s;
      forall i, j | 0 <= i < j < |r|
        ensures le(key(r[i]), key(r[j]))
      {
        if i > 0 {
          assert r[i] == s[i - 1] && r[j] == s[j - 1];
        } else {
          assert r[j] == s[j - 1];
          assert le(key(s[0]), key(s[j - 1])) || j - 1 == 0;
        }
      }
    } else {
      var t := Insert(x, s[1..], key, le);
      InsertSorted(x, s[1..], key, le);
      var r := [s[0]] + t;
      assert le(key(s[0]), key(x));
      forall m | 0 <= m < |s[1..]|
        ensures le(key(s[0]), key(s[1..][m]))
      {
        assert s[1..][m] == s[m + 1];
      }
      InsertKeepsLowerBound(x, s[1..], key, le, key(s[0]));
      forall i, j | 0 <= i < j < |r|
        ensures le(key(r[i]), key(r[j]))
      {
        if i > 0 {
          assert r[i] == t[i - 1] && r[j] == t[j - 1];
        } else {
          assert r[j] == t[j - 1];
        }
      }
    }
  }

  /** The result of `SortBy` is ordered by `le` on keys. */
  lemma {:induction false} SortBySorted<T, K(!new)>(s: seq<T>, key: T -> K, le: (K, K) -> bool)
    requires TotalOrder(le)
    ensures SortedBy(SortBy(s, key, le), key, le)
    decreases |s|
  {
    if |s| > 0 {
      SortBySorted(s[1..], key, le);
      InsertSorted(s[0], SortBy(s[1..], key, le), key, le);
    }
  }

  lemma {:induction false} InsertStable<T, K(!new)>(x: T, s: seq<T>, key: T -> K, le: (K, K) -> bool, k: K)
    requires TotalOrder(le)
    ensures Filter(Insert(x, s, key, le), HasKey(key, k)) == Filter([x] + s, HasKey(key, k))
    decreases |s|
  {
    var p := HasKey(key, k);
    if |s| > 0 && !le(key(x), key(s[0])) {
      assert key(x) != key(s[0]);
      InsertStable(x, s[1..], key, le, k);
      FilterConcat([s[0]], Insert(x, s[1..], key, le), p);
      FilterConcat([x], s[1..], p);
      FilterConcat([x], s, p);
      assert s == [s[0]] + s[1..];
      FilterConcat([s[0]], s[1..], p);
    }
  }

  /** Stability: for every key, the elements with that key keep their input order. */
  lemma {:induction false} SortByStable<T, K(!new)>(s: seq<T>, key: T -> K, le: (K, K) -> bool, k: K)
    requires TotalOrder(le)
    ensures Filter(SortBy(s, key, le), HasKey(key, k)) == Filter(s, HasKey(key, k))
    decreases |s|
  {
    if |s| > 0 {
      var p := HasKey(key, k);
      var rest := SortBy(s[1..], key, le);
      InsertStable(s[0], rest, key, le, k);
      FilterConcat([s[0]], rest, p);
      SortByStable(s[1..], key, le, k);
      FilterConcat([s[0]], s[1..], p);
      assert s == [s[0]] + s[1..];
    }
  }
}

=== FILE: text.dfy ===
/** String helpers with the semantics of the Python `str` methods the tool uses. */
module Text {

  /** `str.lower()` on one character (ASCII letters only). */
  function LowerChar(c: char): char {
    if 'A' <= c <= 'Z' then (c as int + 32) as char else c
  }

  function Lower(s: string): (r: string)
    ensures |r| == |s|
    ensures forall i :: 0 <= i < |s| ==> r[i] == LowerChar(s[i])
  {
    seq(|s|, i requires 0 <= i < |s| => LowerChar(s[i]))
  }

  lemma LowerIdempotent(s: string)
    ensures Lower(Lower(s)) == Lower(s)
  {
  }

  lemma LowerConcat(a: string, b: string)
    ensures Lower(a + b) == Lower(a) + Lower(b)
  {
  }

  predicate StartsWith(s: string, prefix: string) {
    |prefix| <= |s| && s[..|prefix|] == prefix
  }

  lemma StartsWithTransitive(s: string, t: string, u: string)
    requires StartsWith(s, t) && StartsWith(t, u)
    ensures StartsWith(s, u)
  {
    assert s[..|u|] == s[..|t|][..|u|];
  }

  predicate EndsWith(s: string, suffix: string) {
    |suffix| <= |s| && s[|s| - |suffix|..] == suffix
  }

  /** `sub in s`: `sub` occurs at some position of `s`. */
  predicate Contains(s: string, sub: string)
    decreases |s|
  {
    StartsWith(s, sub) || (|s| > 0 && Contains(s[1..], sub))
  }

  lemma {:induction false} ContainsAppend(s: string, t: string, sub: string)
    requires Contains(s, sub)
    ensures Contains(s + t, sub)
    decreases |s|
  {
    if StartsWith(s, sub) {
      assert (s + t)[..|sub|] == s[..|sub|];
    } else {
      assert (s + t)[1..] == s[1..] + t;
      ContainsAppend(s[1..], t, sub);
    }
  }

  lemma {:induction false} ContainsPrepend(t: string, s: string, sub: string)
    requires Contains(s, sub)
    ensures Contains(t + s, sub)
    decreases |t|
  {
    if |t| == 0 {
      assert t + s == s;
    } else {
      assert (t + s)[1..] == t[1..] + s;
      ContainsPrepend(t[1..], s, sub);
    }
  }

  /** The first position of `c` in `s`. */
  function IndexOf(s: string, c: char): (i: nat)
    requires c in s
    ensures i < |s| && s[i] == c && c !in s[..i]
  {
    if s[0] == c then 0 else 1 + IndexOf(s[1..], c)
  }

  lemma {:induction false} IndexOfUnique(s: string, c: char, j: nat)
    requires j < |s| && s[j] == c && c !in s[..j]
    ensures IndexOf(s, c) == j
  {
    if s[0] != c {
      assert s[1..][..j - 1] == s[..j][1..];
      IndexOfUnique(s[1..], c, j - 1);
    }
  }

  /** `sep.join(parts)` for a one-character separator. */
  function JoinWith(parts: seq<string>, sep: char): string {
    if |parts| == 0 then ""
    else if |parts| == 1 then parts[0]
    else parts[0] + [sep] + JoinWith(parts[1..], sep)
  }

  /** `s.split(sep)` for a one-character separator: never empty, keeps empty pieces. */
  function Split(s: string, sep: char): (parts: seq<string>)
    ensures |parts| >= 1
    ensures forall i :: 0 <= i < |parts| ==> sep !in parts[i]
    ensures JoinWith(parts, sep) == s
    decreases |s|
  {
    if sep !in s then [s]
    else
      var i := IndexOf(s, sep);
      assert s == s[..i] + [sep] + s[i + 1..];
      [s[..i]] + Split(s[i + 1..], sep)
  }

  /** Splitting a join gives back the pieces, when no piece holds the separator. */
  lemma {:induction false} SplitJoin(parts: seq<string>, sep: char)
    requires |parts| >= 1
    requires forall i :: 0 <= i < |parts| ==> sep !in parts[i]
    ensures Split(JoinWith(parts, sep), sep) == parts
    decreases |parts|
  {
    if |parts| > 1 {
      var s := JoinWith(parts, sep);
      var rest := JoinWith(parts[1..], sep);
      assert s == parts[0] + [sep] + rest;
      assert s[|parts[0]|] == sep;
      assert s[..|parts[0]|] == parts[0];
      IndexOfUnique(s, sep, |parts[0]|);
      var i := IndexOf(s, sep);
      assert s[..i] == parts[0];
      assert s[i + 1..] == rest;
      SplitJoin(parts[1..], sep);
    }
  }

  /** The index just after the last `c` in `s`, or 0 when `s` has none (`s.rfind(c) + 1`). */
  function AfterLast(s: string, c: char): (k: nat)
    ensures k <= |s|
    ensures c !in s[k..]
    ensures k == 0 || s[k - 1] == c
  {
    if |s| == 0 then 0
    else if s[|s| - 1] == c then |s|
    else
      var k := AfterLast(s[..|s| - 1], c);
      assert s[k..] == s[..|s| - 1][k..] + [s[|s| - 1]];
      k
  }

  /** No character at or after `k` is `c` when `c` is not in `s[k..]`. */
  lemma NotInSuffix(s: string, k: nat, c: char)
    requires k <= |s| && c !in s[k..]
    ensures forall j :: k <= j < |s| ==> s[j] != c
  {
    forall j | k <= j < |s|
      ensures s[j] != c
    {
      assert s[j] == s[k..][j - k];
    }
  }

  /** The last `c` in `s` is at `i` when none follows it. */
  lemma AfterLastAt(s: string, c: char, i: nat)
    requires i < |s| && s[i] == c && c !in s[i + 1..]
    ensures AfterLast(s, c) == i + 1
  {
    NotInSuffix(s, AfterLast(s, c), c);
    NotInSuffix(s, i + 1, c);
  }

  /** When `s[i..]` holds no `c`, the last `c` in `s` is before `i`. */
  lemma AfterLastAtMost(s: string, c: char, i: nat)
    requires i <= |s| && c !in s[i..]
    ensures AfterLast(s, c) <= i
  {
    NotInSuffix(s, i, c);
  }

  /** `s.split(c)[-1]`: the text after the last `c`, or all of `s`. */
  function LastPiece(s: string, c: char): (t: string)
    ensures c !in t
    ensures s == t || EndsWith(s, [c] + t)
  {
    var k := AfterLast(s, c);
    assert k > 0 ==> s[k - 1..] == [c] + s[k..];
    s[k..]
  }

  /** When `x` is empty or ends with `c` and `n` holds no `c`, the last piece of `x + n` is `n`. */
  lemma {:induction false} LastPieceAfterSeparator(x: string, n: string, c: char)
    requires |x| == 0 || x[|x| - 1] == c
    requires c !in n
    ensures LastPiece(x + n, c) == n
    decreases |n|
  {
    if |n| == 0 {
      assert x + n == x;
    } else {
      var s := x + n;
      assert s[..|s| - 1] == x + n[..|n| - 1];
      LastPieceAfterSeparator(x, n[..|n| - 1], c);
      assert s[AfterLast(s, c)..] == n;
    }
  }

  // ---- decimal digits, as str(n) prints a non-negative int ----

  function DigitChar(d: nat): char
    requires d < 10
  {
    ('0' as int + d) as char
  }

  predicate IsDigit(c: char) {
    '0' as int <= c as int <= '9' as int
  }

  function NatToString(n: nat): (s: string)
    ensures |s| >= 1
    ensures forall i :: 0 <= i < |s| ==> IsDigit(s[i])
    decreases n
  {
    if n < 10 then [DigitChar(n)] else NatToString(n / 10) + [DigitChar(n % 10)]
  }

  /** `int(s)` for a string of decimal digits. */
  function DigitValue(c: char): nat
    requires IsDigit(c)
  {
    c as int - '0' as int
  }

  function ParseDigits(s: string): nat
    requires forall i :: 0 <= i < |s| ==> IsDigit(s[i])
  {
    if |s| == 0 then 0 else 10 * ParseDigits(s[..|s| - 1]) + DigitValue(s[|s| - 1])
  }

  lemma {:induction false} ParseNatToString(n: nat)
    ensures ParseDigits(NatToString(n)) == n
    decreases n
  {
    if n >= 10 {
      var s := NatToString(n);
      assert s[..|s| - 1] == NatToString(n / 10);
      ParseNatToString(n / 10);
    }
  }

  lemma NatToStringInjective(m: nat, n: nat)
    requires NatToString(m) == NatToString(n)
    ensures m == n
  {
    ParseNatToString(m);
    ParseNatToString(n);
  }

  // ---- whitespace, as str.strip() removes it ----

  /** `str.isspace()` on one character. */
  predicate IsSpace(c: char) {
    var k := c as int;
    k == 0x20 || (0x09 <= k <= 0x0D) || (0x1C <= k <= 0x1F) || k == 0x85 || k == 0xA0
    || k == 0x1680 || (0x2000 <= k <= 0x200A) || k == 0x2028 || k == 0x2029
    || k == 0x202F || k == 0x205F || k == 0x3000
  }

  function TrimStart(s: string): (r: string)
    ensures |r| <= |s| && r == s[|s| - |r|..]
    ensures |r| == 0 || !IsSpace(r[0])
    ensures forall i :: 0 <= i < |s| - |r| ==> IsSpace(s[i])
  {
    if |s| > 0 && IsSpace(s[0]) then TrimStart(s[1..]) else s
  }

  function TrimEnd(s: string): (r: string)
    ensures |r| <= |s| && r == s[..|r|]
    ensures |r| == 0 || !IsSpace(r[|r| - 1])
    ensures forall i :: |r| <= i < |s| ==> IsSpace(s[i])
  {
    if |s| > 0 && IsSpace(s[|s| - 1]) then TrimEnd(s[..|s| - 1]) else s
  }

  /** `s.strip()`. */
  function Strip(s: string): string {
    TrimEnd(TrimStart(s))
  }

  // ---- ordering of Python strings (by code point) ----

  predicate LexLe(a: string, b: string)
    decreases |a|
  {
    if |a| == 0 then true
    else if |b| == 0 then false
    else if a[0] != b[0] then a[0] < b[0]
    else LexLe(a[1..], b[1..])
  }

  lemma {:induction false} LexLeTotal(a: string, b: string)
    ensures LexLe(a, b) || LexLe(b, a)
    decreases |a|
  {
    if |a| > 0 && |b| > 0 && a[0] == b[0] {
      LexLeTotal(a[1..], b[1..]);
    }
  }

  lemma {:induction false} LexLeAntisymmetric(a: string, b: string)
    requires LexLe(a, b) && LexLe(b, a)
    ensures a == b
    decreases |a|
  {
    if |a| > 0 && |b| > 0 {
      LexLeAntisymmetric(a[1..], b[1..]);
      assert a == [a[0]] + a[1..];
      assert b == [b[0]] + b[1..];
    }
  }

  lemma {:induction false} LexLeTransitive(a: string, b: string, c: string)
    requires LexLe(a, b) && LexLe(b, c)
    ensures LexLe(a, c)
    decreases |a|
  {
    if |a| > 0 && |b| > 0 && |c| > 0 && a[0] == b[0] && b[0] == c[0] {
      LexLeTransitive(a[1..], b[1..], c[1..]);
    }
  }
}
